=== FILE: README.md ===
# Titanic survival pipeline — record-level logic in Dafny

This project models the deterministic data logic around the machine-learning
libraries in the Titanic survival-prediction repository. It covers the four
training scripts (`train_model.py`, `train_model_minimal.py`,
`train_model_no_sklearn.py`, `train_emergency.py`), the artifact patch
`fix_model.py` and the FastAPI backend (`backend/main.py`). Everything is pure
functions over immutable datatypes, with exact `real`s for the pandas floats
and `nat` for counts.

Modules, one per concept:

| module | file | what it models |
|---|---|---|
| `Wrappers` | wrappers.dfy | `Option` (NaN / None / missing key) and `Result` (a raised error) |
| `Text` | text.dfy | `[A-Za-z]`, ASCII `str.lower`/`str.upper`, Python's string order |
| `Features` | features.dfy | title regex and grouping, family flags, `pd.cut`, the age groups of each trainer, cabin and sex flags, the main trainer's `create_features` row |
| `LabelEncoding` | encoding.dfy | `LabelEncoder.fit` (sorted distinct classes), `transform`, the unseen-value fallback to `classes_[0]` |
| `Prepare` | prepare.dfy | `prepare_data`: feature derivation over a frame, label encoding at training and at inference, the 18 feature names |
| `Holdout` | holdout.dfy | `train_test_split_manual` over a given permutation, Python's `int()` and slicing, `calculate_accuracy` |
| `Selection` | selection.dfy | the strict-`>` best-candidate loops, the optional candidate list, the two-way XGBoost/LightGBM choice |
| `Artifact` | artifact.dfy | the key set each trainer saves and `TitanicModelTrainer.load_model` |
| `Frame` | frame.dfy | named columns, column lookup and `df[names]` with its `KeyError` |
| `Dummies` | dummies.dfy | `pd.get_dummies` on one column, with and without `drop_first` |
| `Emergency` | emergency.dfy | the emergency script's fills, flags, dummies and 8-column matrix |
| `Variants` | variants.dfy | the shared `create_features` of the minimal and no-sklearn trainers and their `feature_cols` filter, scaler fit on the training rows |
| `Serving` | serving.dfy | request validation, the 8-slot vector, risk and confidence, importance ranking, startup and every endpoint's answer |

The library calls stay outside the model. They enter as values or function
parameters:
- the fill values and the inner `qcut` quantiles of the fares: `Statistics`, computed from whatever frame is passed in (the outer edges are the smallest and largest fare, computed in the model);
- the permutation;
- the per-candidate accuracies;
- the scaler's `transform`;
- the classifier's `(prediction, p0, p1)`;
- the package on disk.

Points of the code the model follows closely:
- `create_features` recomputes its medians, its modal port and its fare quantiles from the frame it is given, at inference too (train_model.py:47-49, 71).
- The server never compares the package's `feature_names` with the vector it builds (backend/main.py:196-221). A width mismatch surfaces as the scaler's own error, a 500 response.
- The fills are chained calls such as `df['Age'].fillna(..., inplace=True)` (train_model.py:47-49, train_model_minimal.py:50-52, train_model_no_sklearn.py:27-29, train_emergency.py:84-86). The model follows pandas without Copy-on-Write (the default before pandas 3.0), where these calls write into `df`. Under Copy-on-Write they fill a temporary and leave the NaNs in `df`, and none of the fill properties here would hold.
- The backend's 8-slot vector is the emergency trainer's feature list, not `prepare_data`'s 18 features (backend/main.py:196-212, train_emergency.py:96).

## Model

| member | source | states |
|---|---|---|
| Text.LowerIdempotent | backend/main.py:60-64 | lowering a string twice is lowering it once |
| Text.UpperIdempotent | backend/main.py:66-70 | upper-casing a string twice is upper-casing it once |
| Features.MatchAtSpec | train_model.py:52 | the pattern ` ([A-Za-z]+)\.` matches at position i with capture t exactly when a space, the letters t and a period sit at i |
| Features.ExtractTitleFromSpec | train_model.py:52 | the search from i returns t iff t is captured at some j ≥ i with no match in [i, j); it returns nothing iff no match starts at or after i |
| Features.ExtractTitleSpec | train_model.py:52 | the title is the capture of the leftmost match of the pattern in the name, and missing exactly when the pattern occurs nowhere |
| Features.NormalizeTitle | train_model.py:53-58 | the eleven rare titles become "Rare", Mlle and Ms become "Miss", Mme becomes "Mrs", any other title and a missing title are kept |
| Features.NormalizeTitleIdempotent | train_model.py:53-58 | grouping titles twice gives the same as once |
| Features.FamilyFeatures | train_model.py:61-64 | FamilySize = SibSp + Parch + 1 ≥ 1; each flag is 0/1 and exactly one of IsAlone, SmallFamily, LargeFamily is 1, each iff its size range |
| Features.FarePerPerson | train_model.py:75 | the division is defined (size ≥ 1), and the result times the family size is the fare |
| Features.Cut | train_model.py:67-68 | `pd.cut` with right-closed bins: a bin k is returned only when x lies in (e[k], e[k+1]] (or on e[0] with include_lowest); no bin iff x is outside the edges |
| Features.CutBins | train_model.py:67-68 | for every k, bin k is chosen iff e[k] < x ≤ e[k+1]; no bin iff x ≤ e[0] or x > the last edge |
| Features.CutUnique | train_model.py:67-68 | a value inside (e[k], e[k+1]] falls in bin k and no other |
| Features.MainAgeGroup | train_model.py:67-68 | Child iff 0 < age ≤ 12, Teen iff 12 < age ≤ 18, Adult iff 18 < age ≤ 35, Middle iff 35 < age ≤ 60, Senior iff 60 < age ≤ 100; no group iff age ≤ 0 or age > 100 |
| Features.AltAgeGroup | train_model_minimal.py:68-69 | the same names on the bins (0,12], (12,20], (20,40], (40,60], (60,100]; no group outside (0, 100] |
| Features.AltAgeBin | train_model_no_sklearn.py:45-46 | labels 0..4 on the bins (0,12], (12,20], (20,40], (40,60], (60,100], each iff its interval |
| Features.AgeGroupsDisagree | train_model_minimal.py:68-69 | the two trainers group the same age differently: 19 is Adult in the main trainer and Teen in the minimal one; 38 is Middle and Adult |
| Features.HasCabin | train_model.py:78-83 | HasCabin is 0/1, and 1 iff the Cabin column exists and this cell is present |
| Features.CabinDeck | train_model.py:78-83 | the first character of a present, non-empty cabin, otherwise "Unknown" |
| Features.SexBinary | train_model.py:86 | 0/1, and 1 iff Sex is exactly "male" |
| Features.CreateFeatures | train_model.py:42-88 | a row keeps its present Age/Fare/Embarked and takes the fill values otherwise; its title is the grouped title of its name; FamilySize ≥ 1; Fare_Per_Person × FamilySize = Fare; the HasCabin and Sex_Binary iffs; the fare bin is one of five, and present iff the fare lies between the first and last edge inclusive |
| LabelEncoding.Fit | train_model.py:103-104 | `classes_` is strictly sorted in Python's string order and holds exactly the values seen |
| LabelEncoding.SortedByMembers | train_model.py:103-104 | two strictly sorted lists with the same members are equal, so the fitted classes are unique |
| LabelEncoding.FitDependsOnlyOnValues | train_model.py:103-104 | fitting on two columns with the same set of values gives the same classes |
| LabelEncoding.FitTransform | train_model.py:104 | every code is a valid position and the class at that position is the row's own value |
| LabelEncoding.TransformWithFallback | train_model.py:107-110 | a code exists iff the encoder has a class; a seen value gets its own position, an unseen value gets 0 (`classes_[0]`); every code is in [0, number of classes) |
| LabelEncoding.SeenKeepsCode | train_model.py:104-110 | a value seen at fit time gets the same code at inference as at training |
| LabelEncoding.TransformColumn | train_model.py:107-110 | the column is encoded iff it is empty or the encoder has a class, and then cell by cell as the fallback transform |
| LabelEncoding.TransformColumnAfterFit | train_model.py:101-110 | encoding the training column itself at inference reproduces `fit_transform` exactly |
| Prepare.FeatureNames | train_model.py:95-112 | 18 distinct names: the 13 numerical features then the 5 categorical ones, in that order |
| Prepare.AsStrCollision | train_model.py:104-107 | `astype(str)` makes two cells the same string iff they are equal or one is NaN and the other the string "nan" |
| Prepare.FareEdges | train_model.py:71 | six edges; the first and last are the smallest and largest filled fare, so every fare lies between them |
| Prepare.Engineer | train_model.py:42-92 | for string-typed Name and Cabin columns: with no port anywhere in the frame, `mode()[0]` raises `KeyError` first; otherwise it succeeds iff the fare edges are strictly increasing (else qcut's duplicate-edge error); row i is `CreateFeatures` of passenger i with the frame's own fill values, and every row has a fare bin |
| Prepare.EncoderClasses | train_model.py:101-104 | each fitted encoder is strictly sorted and holds exactly the strings its column takes over the rows |
| Prepare.PrepareTraining | train_model.py:90-113 | for string-typed Name and Cabin columns: the no-port `KeyError` when no row has a port; otherwise fails (qcut's duplicate-edge error) iff the fare edges are not strictly increasing; a success has one 18-wide row per passenger and an encoder for each categorical feature |
| Prepare.TrainingCodesRoundTrip | train_model.py:101-104 | each categorical cell of the training matrix decodes through its fitted encoder to the row's own category string |
| Prepare.InferenceColumn | train_model.py:105-110 | a missing encoder is a `KeyError` naming the feature; otherwise every row is encoded with the fallback transform |
| Prepare.InferenceCodes | train_model.py:101-110 | the columns from c on encode in order; a success holds each column's fallback codes, and a failure means some column failed |
| Prepare.PrepareInference | train_model.py:105-113 | for string-typed Name and Cabin columns: the no-port `KeyError` and then the duplicate-edge error come before any encoder is read; a success has one 18-wide row per passenger |
| Prepare.SinglePassengerFails | train_model.py:47-71 | a one-passenger frame never prepares, at training or at inference: without a port `mode()[0]` raises, and with one its fare is the smallest and the largest, so the qcut edges repeat |
| Prepare.InferenceCodesInRange | train_model.py:106-110 | after a successful inference every categorical cell is a position of its encoder's classes |
| Prepare.TrainServeConsistent | train_model.py:101-113 | preparing the training frame again at inference with the encoders just fitted gives exactly the training matrix |
| Prepare.InferenceRecomputesFill | train_model.py:47-49 | at inference a missing Age is filled from the statistics of the frame being predicted, not of the training frame |
| Holdout.Trunc | train_model_no_sklearn.py:64 | Python's `int()` truncates toward zero, on both signs |
| Holdout.SliceBound | train_model_no_sklearn.py:66-67 | Python's slice bound: a bound inside [0, n] is kept, above n is clamped to n, a negative bound counts from the end |
| Holdout.TakeDropCover | train_model_no_sklearn.py:66-67 | `s[:k] + s[k:]` is s for every k |
| Holdout.TakePermutation | train_model_no_sklearn.py:60-83 | indexing the rows by a permutation keeps every row exactly as often as it occurs |
| Holdout.TakeSameMultiset | train_model_no_sklearn.py:69-81 | two index lists holding the same positions equally often select the same rows equally often |
| Holdout.CountInRange | train_model_no_sklearn.py:64 | for a test fraction in [0, 1] the test count is floor(n · fraction) and lies in [0, n] |
| Holdout.SplitManual | train_model_no_sklearn.py:60-83 | the test indices followed by the train indices are the permutation; k = floor(n · fraction) test rows and n − k train rows; X and y rows come from the same indices in both halves |
| Holdout.SplitPartitions | train_model_no_sklearn.py:60-67 | the test and train indices are disjoint and together cover every row index |
| Holdout.SplitKeepsRows | train_model_no_sklearn.py:60-83 | the test rows and the training rows together are the data as a multiset, for X and for y alike: no row is lost or duplicated |
| Holdout.Matches | train_model_no_sklearn.py:85-87 | the count of equal positions is at most n, equals n iff all match and 0 iff none match |
| Holdout.MatchesCountsMatchSet | train_model_no_sklearn.py:85-87 | that count is the size of the set of matching positions |
| Holdout.Accuracy | train_model_no_sklearn.py:85-87 | undefined (NaN) iff n = 0; otherwise in [0, 1], 1 iff all positions match and 0 iff none do |
| Holdout.AccuracyIsFraction | train_model_no_sklearn.py:85-87 | accuracy is the number of matching positions divided by n |
| Selection.ScanCorrect | train_model.py:210-231 | from any state satisfying the loop invariant, the loop ends with a selection: a maximal score above 0, every earlier score strictly smaller, or nothing when no score exceeds 0 |
| Selection.SelectBestSpec | train_model.py:210-231 | the loop from best = 0 keeps such a selection, and its reported best accuracy is the kept candidate's score, or 0 |
| Selection.IsSelectedUnique | train_model.py:228-231 | at most one candidate satisfies that description, so the loop's choice is determined |
| Selection.SelectMain | train_model.py:210-231 | over lr, rf, xgb, lgb and ensemble in that order: no model iff every accuracy is ≤ 0, otherwise the earliest of the most accurate |
| Selection.MainTieKeepsEarlier | train_model.py:228-231 | with rf, lgb and ensemble tied at the top, rf is kept |
| Selection.MinimalCandidates | train_model_minimal.py:87-120 | Logistic Regression and Random Forest always, then XGBoost iff its import succeeded, then LightGBM iff its import succeeded |
| Selection.Evaluate | train_model_minimal.py:129-136 | a failed ROC-AUC becomes 0.0, and name and accuracy are kept |
| Selection.SelectMinimal | train_model_minimal.py:127-146 | the kept model is the earliest with maximal accuracy above 0, or none |
| Selection.RocAucIrrelevant | train_model_minimal.py:132-146 | two evaluations with the same accuracies select the same model, whatever their ROC-AUC |
| Selection.ChooseBooster | train_model_no_sklearn.py:132-138 | XGBoost iff its accuracy is strictly greater; a tie picks LightGBM |
| Artifact.LoadModel | train_model.py:309-316 | loading succeeds iff the package has all five keys read; otherwise it fails on the first key missing in read order |
| Artifact.SaveMain | train_model.py:294-304 | the main package has exactly model, scaler, label_encoders, feature_names, model_name |
| Artifact.MainRoundTrip | train_model.py:294-316 | loading the main package gives back each saved value |
| Artifact.TrainMain | train_model.py:210-304 | the run stops with an `AttributeError` at the summary print of `train_models` (train_model.py:234), before anything is saved, iff every accuracy is ≤ 0; otherwise the saved model is the selected candidate |
| Artifact.SaveNoSklearn | train_model_no_sklearn.py:132-152 | keys model, xgb_model, lgb_model, feature_names, scaler with scaler None; the model is XGBoost iff it was chosen, and always one of the two |
| Artifact.SaveMinimal | train_model_minimal.py:151-167 | nothing is written iff joblib is unavailable; otherwise keys model, scaler, feature_names, models |
| Artifact.TrainMinimal | train_model_minimal.py:127-167 | the saved model is none iff no accuracy exceeds 0, and otherwise the selected candidate's model |
| Artifact.SaveEmergency | train_emergency.py:128-134 | keys model, scaler, feature_names only |
| Artifact.OtherPackagesFailToLoad | train_model.py:309-316 | the emergency, no-sklearn and minimal packages all fail to load on `label_encoders` |
| Frame.Lookup | train_emergency.py:96 | `df[name]` is missing iff no column has the name, and otherwise is the first column with that name |
| Frame.LookupConcat | train_emergency.py:91 | a lookup in two frames side by side reads the left frame when it has the name, else the right |
| Frame.Select | train_emergency.py:96 | `df[names]` fails iff some name is missing, naming exactly the missing ones; otherwise column j is the lookup of names[j] |
| Dummies.Categories | train_emergency.py:91 | the categories are strictly sorted and are exactly the values present |
| Dummies.GetDummies | train_emergency.py:91 | one column per category, one fewer with drop_first; column j is named the prefix, "_", and the category (j + 1 with drop_first, else j) in sorted order, and holds that category's indicator cells, one per row |
| Dummies.IndicatorsOneHot | train_model_minimal.py:78-79 | over distinct categories, a row has exactly as many 1s as categories equal to its value |
| Dummies.ObjectDummiesOneHot | train_model_minimal.py:78-79 | without drop_first, a row has exactly one 1 when its value is present and none when missing |
| Dummies.DropFirstBaseline | train_emergency.py:91 | with drop_first, a row has no 1 iff its value is missing or the first category, and one 1 otherwise |
| Dummies.HasDummy | train_emergency.py:91 | the column `<prefix>_<v>` exists iff v is a category and, with drop_first, some category sorts before v |
| Emergency.Fill | train_emergency.py:84-88 | Age and Fare take the medians only when missing; a missing Embarked becomes "S"; FamilySize = SibSp + Parch + 1; IsAlone is 1 iff both counts are 0 |
| Emergency.FeatureMatrix | train_emergency.py:84-96 | a success has one 8-wide row per passenger; a `KeyError` names only feature columns |
| Emergency.Encode | train_emergency.py:91 | the encoded frame starts with the seven kept columns, and every column has one cell per row |
| Emergency.EncodeNames | train_emergency.py:91 | a name is a column of the encoded frame iff it is a kept column, or `Sex_c` / `Embarked_c` for a value c that occurs with a smaller value present |
| Emergency.SexLookup | train_emergency.py:91 | `Sex_c` exists in the encoded frame iff c is a sex and some sex sorts before it; it then holds c's indicators |
| Emergency.EmbarkedLookup | train_emergency.py:91 | the same for `Embarked_c` |
| Emergency.SelectFeatures | train_emergency.py:91-96 | selecting the eight columns succeeds iff "male", "Q" and "S" each occur with a smaller value present; a failure names only Sex_male, Embarked_Q, Embarked_S |
| Emergency.FeatureMatrixDefined | train_emergency.py:84-96 | the same condition for the script's whole matrix, over the filled rows |
| Emergency.FeatureMatrixRows | train_emergency.py:84-96 | row i of the matrix is [Pclass, Age, Fare, FamilySize, IsAlone, Sex_male, Embarked_Q, Embarked_S] of passenger i after the fills |
| Variants.CreateFrame | train_model_minimal.py:45-75 | for a string-typed Name column: the frame-level step raises `KeyError` iff no row has a port or the frame has no Cabin column; otherwise it gives one row per passenger, each filled with the frame's values |
| Variants.CreateRow | train_model_minimal.py:45-81 | fills, grouped title, FamilySize and IsAlone iff, age group present iff 0 < age ≤ 100, FarePerPerson × FamilySize = Fare, HasCabin iff a cabin, in a frame that has a Cabin column |
| Variants.LabellingsAgree | train_model_no_sklearn.py:45-46 | the named and the 0..4 labellings put every row in the same bin, and the rows agree everywhere else |
| Variants.DummyLabelsNameColumns | train_model_minimal.py:78-79 | the indicator labels name the columns `get_dummies` makes for Sex, Embarked, Title and AgeGroup, in order |
| Variants.FeatureColumns | train_model_minimal.py:194-195 | a column is kept iff it is processed and not Survived, PassengerId, Name, Ticket or Cabin |
| Variants.FeatureColumnsOrder | train_model_minimal.py:194-195 | the features are the numeric fields neither encoded nor excluded, in frame order, then every indicator column |
| Variants.FeatureColumnsMembers | train_model_minimal.py:194-195 | a column is a feature iff it is one of the nine kept numeric fields or an indicator |
| Variants.TestDoesNotLeak | train_model_minimal.py:208-209 | the test rows change neither the scaler nor the scaled training rows; equal rows scale alike on both sides |
| Serving.FieldProblem | backend/main.py:50-70 | a field is reported missing iff the request lacks it; only sex and embarked can be not allowed, only the numeric fields out of range |
| Serving.Errors | backend/main.py:48-70 | an error is reported exactly for each checked field that has a problem |
| Serving.Validate | backend/main.py:48-70 | accepted iff no field has a problem (missing, out of range, not an allowed sex or port); a rejection lists exactly the problems; an accepted input is valid, with sex lowered, embarked upper-cased, name defaulting to "Unknown" and cabin to none |
| Serving.ValidateRoundTrip | backend/main.py:60-70 | a valid input sent back as a request body validates to itself |
| Serving.ValidateIdempotent | backend/main.py:60-70 | validating an accepted request's result again gives the same result |
| Serving.InvalidExampleRejected | test_api.py:132-143 | the test's body (pclass 5, age −5, no sibsp/parch/fare/embarked) is rejected with pclass and age out of range and fare missing |
| Serving.FeatureVector | backend/main.py:196-212 | 8 slots, slot 3 is sibsp + parch + 1, slot 4 is 1 iff both counts are 0 |
| Serving.PortFlags | backend/main.py:198-212 | C gives flags (0,0), Q (1,0), S (0,1), never both set; Sex_male is 1 iff sex is "male" |
| Serving.ServingMatchesEmergency | backend/main.py:196-212 | the serving vector equals the emergency trainer's row for the same passenger, slot for slot |
| Serving.RiskLevel | backend/main.py:232-237 | Low iff p ≥ 0.7, Medium iff 0.4 ≤ p < 0.7, High iff p < 0.4 |
| Serving.RiskMonotone | backend/main.py:232-237 | a higher survival probability never gives a higher risk |
| Serving.Summarise | backend/main.py:227-256 | survival is p1, death is p0, confidence is the larger of the two, and the risk is that of p1 |
| Serving.Argsort | backend/main.py:243 | the result is a permutation of 0..n−1 in non-decreasing importance, equal importances in index order |
| Serving.Ranking | backend/main.py:337 | `argsort()[::-1]` is a permutation of the indices |
| Serving.RankingSpec | backend/main.py:337 | that permutation lists the indices in non-increasing importance, with equal importances in decreasing index order |
| Serving.Top | backend/main.py:243 | the first min(5, n) entries of the ranking |
| Serving.Dict | backend/main.py:244-247 | the keys of the dict comprehension are exactly the names produced |
| Serving.DictLastWins | backend/main.py:244-247 | a key holds the value of its last occurrence |
| Serving.Contributions | backend/main.py:240-247 | an index past the feature-name list raises (500); otherwise at most 5 entries, keyed by the names of the top five indices |
| Serving.StartupAsWritten | backend/main.py:128-149 | as written: a trainer is set whenever the file exists, even when loading it fails part way |
| Serving.Startup | backend/main.py:128-149 | as intended: a trainer is set iff the file exists and loads, and it holds the loaded values |
| Serving.StartupAgrees | backend/main.py:128-149 | the two agree whenever the file is absent or loads completely |
| Serving.HealthAfterStartup | backend/main.py:128-176 | as written, `/health` reports loaded iff the package file exists, even one the other routes then reject; with the checked startup, iff the package loads completely |
| Serving.ReadModel | backend/main.py:214-221 | the per-request read succeeds iff the file has a model and a scaler both fit on 8 columns |
| Serving.Predict | backend/main.py:179-259 | 503 with no trainer; any other failure is 500; a success has the classifier's outcome and probabilities on the scaled 8-slot vector, risk of p1, confidence ≥ both, contributions iff the trainer's model has importances, at most 5 |
| Serving.PredictAll | backend/main.py:270-275 | all succeed iff each does, keeping the input order; a failure is one of the individual failures |
| Serving.Batch | backend/main.py:262-281 | 503 with no trainer; else 500 iff some passenger fails; a success counts the passengers and keeps each prediction in input order |
| Serving.Info | backend/main.py:284-296 | 503 with no trainer; 500 iff the trainer has no model name; otherwise the name, "2.0.0", 0.82, the feature count, "active" |
| Serving.ModelMetrics | backend/main.py:299-324 | 503 with no trainer; 500 iff no model name; otherwise the name and the feature count |
| Serving.Importance | backend/main.py:327-347 | 503 with no trainer; 400 iff the model has no importances; 500 iff there are more importances than names; otherwise every feature with its importance in ranking order |
| Serving.ImportanceOrdered | backend/main.py:336-346 | the listing is in non-increasing importance |
| Serving.NoModelUnavailable | backend/main.py:191-192 | with no trainer, predict, batch, info, metrics and importance all answer 503 and health reports not loaded |
| Serving.MainPackageCannotPredict | backend/main.py:214-221 | the main trainer's package (scaler fit on its own feature list, not 8 wide) makes every prediction a 500 |
| Serving.FixModel | fix_model.py:7-15 | the patched package has the original keys plus label_encoders and model_name |
| Serving.PatchedEmergencyServes | fix_model.py:7-15 | the patched emergency package loads at startup and serves predictions with contributions |
| Serving.HalfLoadedTrainer | backend/main.py:128-149 | for the unpatched emergency package: as written, health is true but info and predict give 500; as intended, they give 503 and health is false |

## Left out

- Medians, the mode, the inner `pd.qcut` quantiles: floating-point library numerics. They are parameters, computed from the frame given.
- Prepare.Engineer: a column with no present Age (or Fare) has a NaN median, and `fillna(NaN)` leaves its cells NaN. The model takes the fill values as reals, so it does not follow such NaN cells (or qcut on NaN fares) through the rest of the pipeline. The same holds for Prepare.PrepareTraining, Prepare.PrepareInference, Variants.CreateFrame and Emergency.FeatureMatrix.
- Prepare.Engineer: the model has no column dtypes. A Name column, or an existing Cabin column, with no present cell is read by `read_csv` as float64, and the `.str` accessor then raises `AttributeError`: for Name at train_model.py:52, after the port fill and before qcut, and for Cabin at train_model.py:80, after qcut. The model treats both columns as strings, so for such a frame it does not report that error.
- Prepare.PrepareTraining: the same `.str` `AttributeError` on an all-missing Name or Cabin column is not modelled; its success condition assumes string-typed Name and Cabin columns.
- Prepare.PrepareInference: the same. With an all-missing Name column the `AttributeError` of train_model.py:52 comes before the qcut error.
- Variants.CreateFrame: an all-missing Name column makes `.str.extract` raise `AttributeError` (train_model_minimal.py:55, train_model_no_sklearn.py:32); the model returns the rows.
- StandardScaler arithmetic, including its zero-variance handling: library numerics. Its transform is a parameter, and only its fitted width is kept.
- Classifier fitting, GridSearchCV, VotingClassifier, `predict`/`predict_proba`, precision/recall/F1/ROC-AUC: calls into sklearn, XGBoost and LightGBM. They become given accuracies and a `classify` parameter.
- `np.random.permutation` and seeding: the permutation is an input.
- sklearn's stratified `train_test_split` (train_model.py:375-377, train_model_minimal.py:203-205, train_emergency.py:100-102): its shuffling is library code.
- joblib reading and writing, CSV reads, `download_titanic_data`, `create_sample_data.py`: I/O. Only a package's key set and values are modelled. A corrupt or unreadable file is not modelled.
- Plotting (`generate_visualizations`), printing, the root endpoint, CORS, uvicorn, the frontend and the test scripts: rendering, wiring and I/O.
- Pydantic's type coercion (e.g. "3" to 3, or a float for an int field): fields arrive already typed.
- Case mapping outside ASCII: Python's Unicode `lower`/`upper` (e.g. "ſ".upper() == "S") is not modelled.
- `fillna(0)` on the feature columns (train_model_minimal.py:197, train_model_no_sklearn.py:189): indicator and numeric columns hold no missing cells after `create_features`, so it changes nothing here.
- Duplicate column names in a DataFrame: `Lookup` takes the first. The frames built here have distinct names.
- The emergency frame is modelled as the seven plain columns Pclass, Age, SibSp, Parch, Fare, FamilySize and IsAlone, followed by the `Sex_*` and `Embarked_*` indicators that `drop_first` leaves. PassengerId, Survived, Name, Ticket and Cabin are not carried: none of them is a selected feature, so dropping them changes no selected column.
- The trainer's scaler and label encoders are not part of the server's state: no endpoint reads them.
- Serving.Argsort: equal importances are ordered by index. NumPy's default `argsort` kind does not promise any order among equal values, at any length. So this tie order is a choice of the model, also for the eight importances the server ranks. When a tie straddles fifth place, the names `Top` and `Contributions` keep may differ from NumPy's.
- Holdout.Accuracy: `np.mean` of an empty comparison is NaN with a warning; the model returns `None`.
- Prepare.PrepareTraining: stops at the 18-column matrix; the scaler's `fit_transform` that follows (train_model.py:116) is out of scope.
- Prepare.PrepareInference: stops at the 18-column matrix likewise; the scaler's `transform` that follows (train_model.py:118) is out of scope.
- Features.Passenger: Pclass, Sex, SibSp and Parch are taken to be present in every row. A missing SibSp or Parch would make FamilySize NaN, so IsAlone, SmallFamily and LargeFamily would all be 0 (train_model.py:61-64) and Fare_Per_Person NaN; a missing Sex would give all-zero `Sex_*` indicators (train_model_minimal.py:78, train_emergency.py:91). Features.FamilyFeatures, Features.CreateFeatures, Variants.CreateRow and Emergency.Fill promise nothing for such rows.

## Findings

| source | as written | input that shows it | evidently intended | confidence | as-written member | corrected member |
|---|---|---|---|---|---|---|
| backend/main.py:128-149 | `load_model` binds the global trainer before `trainer.load_model` reads the package, so a package missing a key leaves a half-initialised trainer set | the emergency package (model, scaler, feature_names only, train_emergency.py:128-134): `/health` says loaded, `/model/info` and `/predict` answer 500 | a failed load leaves no trainer, so the endpoints answer 503 "Model not loaded" | not executed | Serving.StartupAsWritten, shown by Serving.HalfLoadedTrainer | Serving.Startup, with Serving.HalfLoadedTrainer and Serving.StartupAgrees |

=== FILE: artifact.dfy ===
/** The model package each trainer writes with `joblib.dump`, and what the main
    trainer's `load_model` (used by the server) reads back. Only the key set
    and the values' roles are modelled; serialisation is not. */
module Artifact {
  import opened Wrappers
  import opened Selection

  /** A fitted classifier: which estimator, how many input columns it was fit
      on, and its `feature_importances_` when the estimator has them. */
  datatype Model = Model(kind: string, nFeatures: nat, importances: Option<seq<real>>)

  /** A fitted StandardScaler; what matters here is the number of columns it
      was fit on. */
  datatype Scaler = Scaler(nFeatures: nat)

  /** The dictionary written to disk. A `None` field is a key that is absent;
      the inner `Option` of `model` and `scaler` is the stored value, which may
      itself be Python's None. */
  datatype Package = Package(
    model: Option<Option<Model>>,
    scaler: Option<Option<Scaler>>,
    labelEncoders: Option<map<string, seq<string>>>,
    featureNames: Option<seq<string>>,
    modelName: Option<string>,
    xgbModel: Option<Model>,
    lgbModel: Option<Model>,
    models: Option<seq<(string, Model)>>)

  /** The dictionary keys the trainers use. */
  datatype Key = ModelKey | ScalerKey | LabelEncodersKey | FeatureNamesKey | ModelNameKey
               | XgbModelKey | LgbModelKey | ModelsKey

  /** The key as it is spelled in the dictionary. */
  function KeyName(k: Key): string {
    match k
    case ModelKey => "model"
    case ScalerKey => "scaler"
    case LabelEncodersKey => "label_encoders"
    case FeatureNamesKey => "feature_names"
    case ModelNameKey => "model_name"
    case XgbModelKey => "xgb_model"
    case LgbModelKey => "lgb_model"
    case ModelsKey => "models"
  }

  predicate Has(p: Package, k: Key) {
    match k
    case ModelKey => p.model.Some?
    case ScalerKey => p.scaler.Some?
    case LabelEncodersKey => p.labelEncoders.Some?
    case FeatureNamesKey => p.featureNames.Some?
    case ModelNameKey => p.modelName.Some?
    case XgbModelKey => p.xgbModel.Some?
    case LgbModelKey => p.lgbModel.Some?
    case ModelsKey => p.models.Some?
  }

  /** The keys present in a package. */
  function Keys(p: Package): (ks: set<Key>)
    ensures forall k :: k in ks <==> Has(p, k)
  {
    set k: Key | k in [ModelKey, ScalerKey, LabelEncodersKey, FeatureNamesKey, ModelNameKey,
                       XgbModelKey, LgbModelKey, ModelsKey] && Has(p, k)
  }

  /** The attributes `TitanicModelTrainer.load_model` assigns. */
  datatype Loaded = Loaded(
    model: Option<Model>,
    scaler: Option<Scaler>,
    labelEncoders: map<string, seq<string>>,
    featureNames: seq<string>,
    modelName: string)

  /** The keys `load_model` reads, in the order it reads them. */
  const LoadOrder: seq<Key> := [ModelKey, ScalerKey, LabelEncodersKey, FeatureNamesKey, ModelNameKey]

  /** `load_model`: the attributes, or the KeyError of the first key it reads
      that is missing. */
  function LoadModel(p: Package): (r: Result<Loaded, Key>)
    ensures r.Ok? <==> forall i :: 0 <= i < |LoadOrder| ==> Has(p, LoadOrder[i])
    ensures r.Err? ==> exists i :: 0 <= i < |LoadOrder| && r.error == LoadOrder[i] && !Has(p, r.error)
                          && forall j :: 0 <= j < i ==> Has(p, LoadOrder[j])
  {
    if p.model.None? then assert !Has(p, LoadOrder[0]); Err(ModelKey)
    else if p.scaler.None? then assert !Has(p, LoadOrder[1]); Err(ScalerKey)
    else if p.labelEncoders.None? then assert !Has(p, LoadOrder[2]); Err(LabelEncodersKey)
    else if p.featureNames.None? then assert !Has(p, LoadOrder[3]); Err(FeatureNamesKey)
    else if p.modelName.None? then assert !Has(p, LoadOrder[4]); Err(ModelNameKey)
    else Ok(Loaded(p.model.value, p.scaler.value, p.labelEncoders.value, p.featureNames.value, p.modelName.value))
  }

  // ---------------------------------------------------------------------------
  // The main trainer
  // ---------------------------------------------------------------------------

  /** `save_model` of the main trainer. */
  function SaveMain(best: Model, scaler: Scaler, encoders: map<string, seq<string>>, names: seq<string>, name: string): (p: Package)
    ensures Keys(p) == {ModelKey, ScalerKey, LabelEncodersKey, FeatureNamesKey, ModelNameKey}
  {
    Package(Some(Some(best)), Some(Some(scaler)), Some(encoders), Some(names), Some(name), None, None, None)
  }

  /** What the main trainer saves, `load_model` gives back unchanged. */
  lemma MainRoundTrip(best: Model, scaler: Scaler, encoders: map<string, seq<string>>, names: seq<string>, name: string)
    ensures LoadModel(SaveMain(best, scaler, encoders, names, name))
              == Ok(Loaded(Some(best), Some(scaler), encoders, names, name))
  {
  }

  /** The five fitted candidates of the main trainer. */
  datatype MainModels = MainModels(lr: Model, rf: Model, xgb: Model, lgb: Model, ensemble: Model)

  function MainModelAt(m: MainModels, k: nat): Model
    requires k < 5
  {
    [m.lr, m.rf, m.xgb, m.lgb, m.ensemble][k]
  }

  /** `train_models` then `save_model`: the package holds the kept candidate
      under its dictionary name, or the run stops inside `train_models`, at the
      summary print that reads `best_model_name`, before anything is saved. */
  function TrainMain(models: MainModels, scores: MainScores, scaler: Scaler, encoders: map<string, seq<string>>, names: seq<string>): (r: Result<Package, SelectError>)
    ensures r.Err? <==> forall i :: 0 <= i < 5 ==> MainAccuracies(scores)[i] <= 0.0
    ensures r.Ok? ==> exists k :: 0 <= k < 5 && IsSelected(MainAccuracies(scores), Some(k))
                        && r.value == SaveMain(MainModelAt(models, k), scaler, encoders, names, MainCandidates[k])
  {
    match SelectMain(scores)
    case Err(e) => Err(e)
    case Ok(k) => Ok(SaveMain(MainModelAt(models, k), scaler, encoders, names, MainCandidates[k]))
  }

  // ---------------------------------------------------------------------------
  // The other trainers
  // ---------------------------------------------------------------------------

  /** `save_model` of the XGBoost/LightGBM-only trainer, after `evaluate_models`. */
  function SaveNoSklearn(xgb: Model, lgb: Model, xgbAcc: Option<real>, lgbAcc: Option<real>, names: seq<string>): (p: Package)
    ensures Keys(p) == {ModelKey, XgbModelKey, LgbModelKey, FeatureNamesKey, ScalerKey}
    ensures p.scaler == Some(None)
    ensures p.model == Some(Some(xgb)) <==> (Greater(xgbAcc, lgbAcc) || xgb == lgb)
    ensures p.model == Some(Some(xgb)) || p.model == Some(Some(lgb))
  {
    var best := if ChooseBooster(xgbAcc, lgbAcc) == XGBoost then xgb else lgb;
    Package(Some(Some(best)), Some(None), None, Some(names), None, Some(xgb), Some(lgb), None)
  }

  /** `save_model` of the minimal trainer: nothing is written without joblib. */
  function SaveMinimal(hasJoblib: bool, best: Option<Model>, scaler: Scaler, names: seq<string>, models: seq<(string, Model)>): (r: Option<Package>)
    ensures r.None? <==> !hasJoblib
    ensures r.Some? ==> Keys(r.value) == {ModelKey, ScalerKey, FeatureNamesKey, ModelsKey}
    ensures r.Some? ==> r.value.model == Some(best)
  {
    if !hasJoblib then None
    else Some(Package(Some(best), Some(Some(scaler)), None, Some(names), None, None, None, Some(models)))
  }

  /** The minimal trainer's `evaluate_models` then `save_model`: `evals[i]`
      scores `models[i]`, and the kept model is the first of the highest
      positive accuracy, or none when no accuracy is positive. */
  function TrainMinimal(hasJoblib: bool, models: seq<(string, Model)>, evals: seq<Evaluation>,
                        scaler: Scaler, names: seq<string>): (r: Option<Package>)
    requires |evals| == |models|
    ensures r.None? <==> !hasJoblib
    ensures r.Some? ==> r.value.model.Some? && r.value.models == Some(models)
    ensures r.Some? ==> (r.value.model.value.None? <==> forall i :: 0 <= i < |evals| ==> evals[i].accuracy <= 0.0)
    ensures r.Some? && r.value.model.value.Some? ==>
              exists k :: 0 <= k < |models| && IsSelected(Accuracies(evals), Some(k))
                          && r.value.model.value.value == models[k].1
  {
    var kept := SelectMinimal(evals);
    var best := if kept.Some? then Some(models[kept.value].1) else None;
    assert forall i :: 0 <= i < |evals| ==> Accuracies(evals)[i] == evals[i].accuracy;
    SaveMinimal(hasJoblib, best, scaler, names, models)
  }

  /** The package the emergency script writes. */
  function SaveEmergency(model: Model, scaler: Scaler, names: seq<string>): (p: Package)
    ensures Keys(p) == {ModelKey, ScalerKey, FeatureNamesKey}
  {
    Package(Some(Some(model)), Some(Some(scaler)), None, Some(names), None, None, None, None)
  }

  /** None of the other trainers' packages can be loaded by `load_model`: each
      lacks label_encoders, the third key read. */
  lemma OtherPackagesFailToLoad(model: Model, lgb: Model, scaler: Scaler, names: seq<string>,
                                xgbAcc: Option<real>, lgbAcc: Option<real>, best: Option<Model>, models: seq<(string, Model)>)
    ensures LoadModel(SaveEmergency(model, scaler, names)) == Err(LabelEncodersKey)
    ensures LoadModel(SaveNoSklearn(model, lgb, xgbAcc, lgbAcc, names)) == Err(LabelEncodersKey)
    ensures LoadModel(SaveMinimal(true, best, scaler, names, models).value) == Err(LabelEncodersKey)
  {
  }
}

=== FILE: dummies.dfy ===
/** `pandas.get_dummies` on one column: one 0/1 indicator column per
    category, named `<column>_<category>`, with every indicator 0 on a
    missing cell. An object column's categories are its distinct present
    values in sorted order; `drop_first=True` omits the first of them. */
module Dummies {
  import opened Wrappers
  import opened Text
  import opened LabelEncoding
  import opened Frame

  /** The present cells of a column, in order. */
  function Present(values: seq<Option<string>>): (r: seq<string>)
    ensures forall v :: v in r <==> Some(v) in values
    decreases |values|
  {
    if |values| == 0 then []
    else
      assert values == [values[0]] + values[1..];
      (if values[0].Some? then [values[0].value] else []) + Present(values[1..])
  }

  /** The categories of an object column. */
  function Categories(values: seq<Option<string>>): (cats: seq<string>)
    ensures StrictlySorted(cats)
    ensures forall v :: v in cats <==> Some(v) in values
  {
    Fit(Present(values))
  }

  predicate Distinct(s: seq<string>) {
    forall i, j :: 0 <= i < j < |s| ==> s[i] != s[j]
  }

  function DummyName(prefix: string, category: string): string {
    prefix + "_" + category
  }

  /** Distinct categories of one column give distinct column names. */
  lemma DummyNameInjective(prefix: string, a: string, b: string)
    requires DummyName(prefix, a) == DummyName(prefix, b)
    ensures a == b
  {
    assert a == DummyName(prefix, a)[|prefix| + 1..];
    assert b == DummyName(prefix, b)[|prefix| + 1..];
  }

  /** The 0/1 cells of one category's indicator column. */
  function IndicatorCells(values: seq<Option<string>>, category: string): (cells: seq<real>)
    ensures |cells| == |values|
    ensures forall i :: 0 <= i < |values| ==>
              (cells[i] == 1.0 <==> values[i] == Some(category))
              && (cells[i] == 0.0 <==> values[i] != Some(category))
  {
    seq(|values|, i requires 0 <= i < |values| => if values[i] == Some(category) then 1.0 else 0.0)
  }

  /** The indicator columns for the given categories, in their order. */
  function Indicators(prefix: string, cats: seq<string>, values: seq<Option<string>>): (cols: seq<Column>)
    ensures |cols| == |cats|
    ensures forall j :: 0 <= j < |cats| ==> cols[j] == Column(DummyName(prefix, cats[j]), IndicatorCells(values, cats[j]))
    decreases |cats|
  {
    if |cats| == 0 then []
    else [Column(DummyName(prefix, cats[0]), IndicatorCells(values, cats[0]))] + Indicators(prefix, cats[1..], values)
  }

  /** `get_dummies` of an object column. */
  function GetDummies(prefix: string, values: seq<Option<string>>, dropFirst: bool): (cols: seq<Column>)
    ensures |cols| == if dropFirst && |Categories(values)| > 0 then |Categories(values)| - 1 else |Categories(values)|
    ensures forall j :: 0 <= j < |cols| ==> |cols[j].name| > |prefix| && cols[j].name[..|prefix|] == prefix
    ensures forall j :: 0 <= j < |cols| ==> cols[j].name[|prefix|] == '_'
    ensures forall j :: 0 <= j < |cols| ==> |cols[j].cells| == |values|
    ensures forall j {:trigger cols[j]} :: 0 <= j < |cols| ==>
              var k := if dropFirst then j + 1 else j;
              k < |Categories(values)|
              && cols[j] == Column(DummyName(prefix, Categories(values)[k]), IndicatorCells(values, Categories(values)[k]))
  {
    var cats := Categories(values);
    var kept := if dropFirst && |cats| > 0 then cats[1..] else cats;
    var cols := Indicators(prefix, kept, values);
    assert forall j :: 0 <= j < |cols| ==> cols[j].name[..|prefix|] == DummyName(prefix, kept[j])[..|prefix|];
    assert forall j :: 0 <= j < |cols| ==> cols[j].name[|prefix|] == DummyName(prefix, kept[j])[|prefix|];
    cols
  }

  /** Every indicator column is named after one of the categories. */
  lemma IndicatorNamed(prefix: string, values: seq<Option<string>>, dropFirst: bool, name: string)
    requires name in Names(GetDummies(prefix, values, dropFirst))
    ensures exists c :: c in Categories(values) && name == DummyName(prefix, c)
  {
    var cols := GetDummies(prefix, values, dropFirst);
    var j :| 0 <= j < |cols| && Names(cols)[j] == name;
    var k := if dropFirst then j + 1 else j;
    assert name == DummyName(prefix, Categories(values)[k]);
  }

  /** How many of the columns hold 1 in row `i`. */
  function Hot(cols: seq<Column>, i: nat): nat
    requires forall j :: 0 <= j < |cols| ==> i < |cols[j].cells|
    decreases |cols|
  {
    if |cols| == 0 then 0
    else (if cols[0].cells[i] == 1.0 then 1 else 0) + Hot(cols[1..], i)
  }

  lemma HotCons(c: Column, cols: seq<Column>, i: nat)
    requires i < |c.cells| && forall j :: 0 <= j < |cols| ==> i < |cols[j].cells|
    ensures Hot([c] + cols, i) == (if c.cells[i] == 1.0 then 1 else 0) + Hot(cols, i)
  {
    assert ([c] + cols)[1..] == cols;
  }

  lemma DistinctTail(cats: seq<string>)
    requires Distinct(cats) && |cats| > 0
    ensures Distinct(cats[1..]) && cats[0] !in cats[1..]
  {
    var tail := cats[1..];
    forall a, b | 0 <= a < b < |tail| ensures tail[a] != tail[b] {
      assert tail[a] == cats[a + 1] && tail[b] == cats[b + 1];
    }
    forall k | 0 <= k < |tail| ensures tail[k] != cats[0] {
      assert tail[k] == cats[k + 1];
    }
  }

  /** With distinct categories, a row has a single 1 when its value is one of
      them and none otherwise. */
  lemma {:induction false} IndicatorsOneHot(prefix: string, cats: seq<string>, values: seq<Option<string>>, i: nat)
    requires Distinct(cats)
    requires i < |values|
    ensures Hot(Indicators(prefix, cats, values), i)
            == if values[i].Some? && values[i].value in cats then 1 else 0
    decreases |cats|
  {
    if |cats| > 0 {
      var tail := cats[1..];
      DistinctTail(cats);
      IndicatorsOneHot(prefix, tail, values, i);
      var c := Column(DummyName(prefix, cats[0]), IndicatorCells(values, cats[0]));
      HotCons(c, Indicators(prefix, tail, values), i);
      assert Indicators(prefix, cats, values) == [c] + Indicators(prefix, tail, values);
      assert cats == [cats[0]] + tail;
    }
  }

  lemma SortedDistinct(s: seq<string>)
    requires StrictlySorted(s)
    ensures Distinct(s)
  {
    forall i, j | 0 <= i < j < |s| ensures s[i] != s[j] {
      if s[i] == s[j] { StrLessIrreflexive(s[i]); }
    }
  }

  /** Without dropping, every present cell sets exactly one indicator and a
      missing cell sets none. */
  lemma ObjectDummiesOneHot(prefix: string, values: seq<Option<string>>, i: nat)
    requires i < |values|
    ensures Hot(GetDummies(prefix, values, false), i) == if values[i].Some? then 1 else 0
  {
    SortedDistinct(Categories(values));
    IndicatorsOneHot(prefix, Categories(values), values, i);
  }

  /** The categories after the first: distinct, and exactly the others. */
  lemma SortedTail(cats: seq<string>)
    requires StrictlySorted(cats) && |cats| > 0
    ensures Distinct(cats[1..])
    ensures forall v :: v in cats[1..] <==> v in cats && v != cats[0]
  {
    SortedDistinct(cats);
    assert cats == [cats[0]] + cats[1..];
    forall v | v in cats[1..] ensures v != cats[0] {
      var k :| 0 <= k < |cats[1..]| && cats[1..][k] == v;
      assert cats[k + 1] == v;
    }
  }

  /** The first sorted category is the one no present value sorts before. */
  lemma FirstIsLeast(cats: seq<string>, v: string)
    requires StrictlySorted(cats) && v in cats
    ensures v != cats[0] <==> exists w :: w in cats && StrLess(w, v)
  {
    var k :| 0 <= k < |cats| && cats[k] == v;
    if k > 0 {
      assert cats[0] in cats && StrLess(cats[0], v);
      StrLessIrreflexive(v);
    } else if exists w :: w in cats && StrLess(w, v) {
      var w :| w in cats && StrLess(w, v);
      var m :| 0 <= m < |cats| && cats[m] == w;
      if m == 0 {
        StrLessIrreflexive(v);
      } else {
        assert StrLess(v, w);
        StrLessAsymmetric(v, w);
      }
    }
  }

  /** With `drop_first`, the first category is the all-zero baseline: a row
      has a single 1 exactly when its value is present and not that category. */
  lemma DropFirstBaseline(prefix: string, values: seq<Option<string>>, i: nat)
    requires i < |values|
    ensures Hot(GetDummies(prefix, values, true), i)
            == if values[i].Some? && values[i].value != Categories(values)[0] then 1 else 0
  {
    var cats := Categories(values);
    if |cats| > 0 {
      SortedTail(cats);
      IndicatorsOneHot(prefix, cats[1..], values, i);
    }
  }

  lemma IndicatorNames(prefix: string, kept: seq<string>, values: seq<Option<string>>, v: string)
    ensures DummyName(prefix, v) in Names(Indicators(prefix, kept, values)) <==> v in kept
  {
    var cols := Indicators(prefix, kept, values);
    if DummyName(prefix, v) in Names(cols) {
      var j :| 0 <= j < |cols| && Names(cols)[j] == DummyName(prefix, v);
      DummyNameInjective(prefix, kept[j], v);
    }
    if v in kept {
      var j :| 0 <= j < |kept| && kept[j] == v;
      assert Names(cols)[j] == DummyName(prefix, v);
    }
  }

  /** `df[<column>_<category>]` on the indicator columns reads that
      category's indicator. */
  lemma LookupIndicator(prefix: string, values: seq<Option<string>>, dropFirst: bool, c: string)
    requires DummyName(prefix, c) in Names(GetDummies(prefix, values, dropFirst))
    ensures Lookup(GetDummies(prefix, values, dropFirst), DummyName(prefix, c)) == Some(IndicatorCells(values, c))
  {
    var cats := Categories(values);
    var kept := if dropFirst && |cats| > 0 then cats[1..] else cats;
    var cols := Indicators(prefix, kept, values);
    forall j | 0 <= j < |cols| && cols[j].name == DummyName(prefix, c)
      ensures cols[j].cells == IndicatorCells(values, c)
    {
      DummyNameInjective(prefix, kept[j], c);
    }
    LookupAll(cols, DummyName(prefix, c), IndicatorCells(values, c));
  }

  /** A category's column exists exactly when the value occurs and, with
      `drop_first`, some present value sorts before it. */
  lemma HasDummy(prefix: string, values: seq<Option<string>>, dropFirst: bool, v: string)
    ensures DummyName(prefix, v) in Names(GetDummies(prefix, values, dropFirst))
            <==> Some(v) in values && (!dropFirst || exists w :: Some(w) in values && StrLess(w, v))
  {
    var cats := Categories(values);
    var kept := if dropFirst && |cats| > 0 then cats[1..] else cats;
    IndicatorNames(prefix, kept, values, v);
    if dropFirst && |cats| > 0 {
      SortedTail(cats);
      if v in cats {
        FirstIsLeast(cats, v);
      }
    }
  }
}

=== FILE: emergency.dfy ===
/** train_emergency.py: fill the gaps, add FamilySize and IsAlone, one-hot
    encode Sex and Embarked with the first category dropped, and select the
    eight feature columns the server later rebuilds from a request. */
module Emergency {
  import opened Wrappers
  import opened Text
  import opened Frame
  import opened Dummies
  import Features

  /** One row after lines 84-88 of the script. */
  datatype Row = Row(
    pclass: int,
    sex: string,
    age: real,
    sibSp: nat,
    parch: nat,
    fare: real,
    embarked: string,
    familySize: nat,
    isAlone: int)

  /** Age and Fare take the frame's medians, Embarked the constant "S" (not
      the mode the other trainers use); FamilySize counts the passenger. */
  function Fill(p: Features.Passenger, ageMedian: real, fareMedian: real): (r: Row)
    ensures r.age == p.age.GetOr(ageMedian) && r.fare == p.fare.GetOr(fareMedian)
    ensures p.embarked.None? ==> r.embarked == "S"
    ensures r.familySize >= 1 && r.familySize == p.sibSp + p.parch + 1
    ensures r.isAlone == 1 <==> p.sibSp == 0 && p.parch == 0
    ensures r.isAlone == 0 || r.isAlone == 1
  {
    var size := p.sibSp + p.parch + 1;
    Row(p.pclass, p.sex, p.age.GetOr(ageMedian), p.sibSp, p.parch, p.fare.GetOr(fareMedian),
        p.embarked.GetOr("S"), size, if size == 1 then 1 else 0)
  }

  function FillAll(frame: seq<Features.Passenger>, ageMedian: real, fareMedian: real): (rows: seq<Row>)
    ensures |rows| == |frame|
    ensures forall i :: 0 <= i < |frame| ==> rows[i] == Fill(frame[i], ageMedian, fareMedian)
  {
    seq(|frame|, i requires 0 <= i < |frame| => Fill(frame[i], ageMedian, fareMedian))
  }

  /** The numeric columns the frame keeps as they are, in the order pandas
      leaves them (PassengerId and Survived are not among the features and
      are not carried). */
  const BaseNames: seq<string> := ["Pclass", "Age", "SibSp", "Parch", "Fare", "FamilySize", "IsAlone"]

  function BaseColumns(rows: seq<Row>): (cols: seq<Column>)
    ensures Names(cols) == BaseNames
    ensures forall k :: 0 <= k < |cols| ==> |cols[k].cells| == |rows|
    ensures forall i :: 0 <= i < |rows| ==>
              && cols[0].cells[i] == rows[i].pclass as real
              && cols[1].cells[i] == rows[i].age
              && cols[4].cells[i] == rows[i].fare
              && cols[5].cells[i] == rows[i].familySize as real
              && cols[6].cells[i] == rows[i].isAlone as real
  {
    var n := |rows|;
    [ Column("Pclass", seq(n, i requires 0 <= i < n => rows[i].pclass as real)),
      Column("Age", seq(n, i requires 0 <= i < n => rows[i].age)),
      Column("SibSp", seq(n, i requires 0 <= i < n => rows[i].sibSp as real)),
      Column("Parch", seq(n, i requires 0 <= i < n => rows[i].parch as real)),
      Column("Fare", seq(n, i requires 0 <= i < n => rows[i].fare)),
      Column("FamilySize", seq(n, i requires 0 <= i < n => rows[i].familySize as real)),
      Column("IsAlone", seq(n, i requires 0 <= i < n => rows[i].isAlone as real)) ]
  }

  function SexValues(rows: seq<Row>): (v: seq<Option<string>>)
    ensures |v| == |rows| && forall i :: 0 <= i < |rows| ==> v[i] == Some(rows[i].sex)
  {
    seq(|rows|, i requires 0 <= i < |rows| => Some(rows[i].sex))
  }

  function EmbarkedValues(rows: seq<Row>): (v: seq<Option<string>>)
    ensures |v| == |rows| && forall i :: 0 <= i < |rows| ==> v[i] == Some(rows[i].embarked)
  {
    seq(|rows|, i requires 0 <= i < |rows| => Some(rows[i].embarked))
  }

  /** `pd.get_dummies(df, columns=['Sex', 'Embarked'], drop_first=True)`:
      the remaining columns, then Sex's indicators, then Embarked's. */
  function Encode(rows: seq<Row>): (cols: seq<Column>)
    ensures |cols| >= |BaseNames| && Names(cols)[..|BaseNames|] == BaseNames
    ensures forall k :: 0 <= k < |cols| ==> |cols[k].cells| == |rows|
  {
    var base := BaseColumns(rows);
    var sexD := GetDummies("Sex", SexValues(rows), true);
    var embD := GetDummies("Embarked", EmbarkedValues(rows), true);
    Appended(base, sexD, embD, |rows|);
    base + sexD + embD
  }

  /** Columns appended after `a` leave `a`'s names in front, and columns of
      one height stay of that height. */
  lemma Appended(a: seq<Column>, b: seq<Column>, c: seq<Column>, n: nat)
    requires forall k :: 0 <= k < |a| ==> |a[k].cells| == n
    requires forall k :: 0 <= k < |b| ==> |b[k].cells| == n
    requires forall k :: 0 <= k < |c| ==> |c[k].cells| == n
    ensures Names(a + b + c)[..|a|] == Names(a)
    ensures forall k :: 0 <= k < |a + b + c| ==> |(a + b + c)[k].cells| == n
  {
    NamesConcat(a, b);
    NamesConcat(a + b, c);
  }

  /** `feature_cols`, in the script's order. */
  const FeatureColumns: seq<string> :=
    ["Pclass", "Age", "Fare", "FamilySize", "IsAlone", "Sex_male", "Embarked_Q", "Embarked_S"]

  /** One row's values in `feature_cols` order, as the script's matrix holds them. */
  function Vector(r: Row): (v: seq<real>)
    ensures |v| == |FeatureColumns|
  {
    [ r.pclass as real, r.age, r.fare, r.familySize as real, r.isAlone as real,
      if r.sex == "male" then 1.0 else 0.0,
      if r.embarked == "Q" then 1.0 else 0.0,
      if r.embarked == "S" then 1.0 else 0.0 ]
  }

  /** Whether the frame's values give pandas an indicator column for the
      category: it occurs, and some value sorts before it. */
  ghost predicate Encodable(values: seq<Option<string>>, v: string) {
    Some(v) in values && exists w :: Some(w) in values && StrLess(w, v)
  }

  /** `X = df_encoded[feature_cols]` as rows, or the KeyError naming the
      indicator columns the data did not produce. */
  function FeatureMatrix(frame: seq<Features.Passenger>, ageMedian: real, fareMedian: real): (r: Result<seq<seq<real>>, seq<string>>)
    ensures r.Ok? ==> |r.value| == |frame| && forall i :: 0 <= i < |frame| ==> |r.value[i]| == |FeatureColumns|
    ensures r.Err? ==> |r.error| > 0 && forall x :: x in r.error ==> x in FeatureColumns
  {
    var rows := FillAll(frame, ageMedian, fareMedian);
    match Select(Encode(rows), FeatureColumns)
    case Err(missing) => Err(missing)
    case Ok(cols) => Ok(Transpose(cols, |rows|))
  }

  lemma BaseNamesDistinct()
    ensures forall i, j :: 0 <= i < j < |BaseNames| ==> BaseNames[i] != BaseNames[j]
  {
    assert |BaseNames[0]| == 6 && |BaseNames[1]| == 3 && |BaseNames[2]| == 5 && |BaseNames[3]| == 5;
    assert |BaseNames[4]| == 4 && |BaseNames[5]| == 10 && |BaseNames[6]| == 7;
    assert BaseNames[2][0] == 'S' && BaseNames[3][0] == 'P';
  }

  /** No kept column name starts with "E" or with "Se". */
  lemma BaseNamesHeads(name: string)
    requires |name| >= 2 && (name[0] == 'E' || (name[0] == 'S' && name[1] == 'e'))
    ensures name !in BaseNames
  {
    assert BaseNames[0][0] == 'P' && BaseNames[1][0] == 'A' && BaseNames[2][1] == 'i' && BaseNames[3][0] == 'P';
    assert BaseNames[4][0] == 'F' && BaseNames[5][0] == 'F' && BaseNames[6][0] == 'I';
  }

  /** A kept column is read from where it was put. */
  lemma BaseLookup(rows: seq<Row>, k: nat)
    requires k < |BaseNames|
    ensures Lookup(Encode(rows), BaseNames[k]) == Some(BaseColumns(rows)[k].cells)
  {
    var base := BaseColumns(rows);
    var sexD := GetDummies("Sex", SexValues(rows), true);
    var embD := GetDummies("Embarked", EmbarkedValues(rows), true);
    var name := BaseNames[k];
    assert Names(base)[k] == name;
    BaseNamesDistinct();
    forall j | 0 <= j < |base| && base[j].name == name
      ensures base[j].cells == base[k].cells
    {
      assert Names(base)[j] == name;
    }
    LookupAll(base, name, base[k].cells);
    LookupConcat(base, sexD, name);
    NamesConcat(base, sexD);
    LookupConcat(base + sexD, embD, name);
  }

  /** A name whose first letter is not the prefix's is no indicator's name. */
  lemma NotAnIndicator(cols: seq<Column>, prefix: string, name: string)
    requires forall j :: 0 <= j < |cols| ==> |cols[j].name| > |prefix| && cols[j].name[..|prefix|] == prefix
    requires |name| > 0 && |prefix| > 0 && name[0] != prefix[0]
    ensures name !in Names(cols)
  {
  }

  /** Indicator names never clash with a kept column or with the other
      encoded column's indicators. */
  lemma SexNameIsNew(c: string, embD: seq<Column>)
    requires forall j :: 0 <= j < |embD| ==> |embD[j].name| > 8 && embD[j].name[..8] == "Embarked"
    ensures DummyName("Sex", c) !in BaseNames
    ensures DummyName("Sex", c) !in Names(embD)
  {
    var name := DummyName("Sex", c);
    assert name[..3] == "Sex";
    assert name[0] == 'S' && name[1] == 'e';
    BaseNamesHeads(name);
    NotAnIndicator(embD, "Embarked", name);
  }

  lemma EmbarkedNameIsNew(c: string, sexD: seq<Column>)
    requires forall j :: 0 <= j < |sexD| ==> |sexD[j].name| > 3 && sexD[j].name[..3] == "Sex"
    ensures DummyName("Embarked", c) !in BaseNames
    ensures DummyName("Embarked", c) !in Names(sexD)
  {
    var name := DummyName("Embarked", c);
    assert name[..8] == "Embarked";
    assert name[0] == 'E';
    BaseNamesHeads(name);
    NotAnIndicator(sexD, "Sex", name);
  }

  /** The Sex indicator for `c` exists exactly when pandas makes it, and is
      what `df[name]` reads. */
  lemma SexLookup(rows: seq<Row>, c: string)
    ensures DummyName("Sex", c) in Names(Encode(rows)) <==> Encodable(SexValues(rows), c)
    ensures Encodable(SexValues(rows), c) ==>
              Lookup(Encode(rows), DummyName("Sex", c)) == Some(IndicatorCells(SexValues(rows), c))
  {
    var base := BaseColumns(rows);
    var sexD := GetDummies("Sex", SexValues(rows), true);
    var embD := GetDummies("Embarked", EmbarkedValues(rows), true);
    var name := DummyName("Sex", c);
    SexNameIsNew(c, embD);
    LookupMiddle(base, sexD, embD, name);
    HasDummy("Sex", SexValues(rows), true, c);
    if name in Names(sexD) {
      LookupIndicator("Sex", SexValues(rows), true, c);
    }
  }

  /** The same for the Embarked indicators. */
  lemma EmbarkedLookup(rows: seq<Row>, c: string)
    ensures DummyName("Embarked", c) in Names(Encode(rows)) <==> Encodable(EmbarkedValues(rows), c)
    ensures Encodable(EmbarkedValues(rows), c) ==>
              Lookup(Encode(rows), DummyName("Embarked", c)) == Some(IndicatorCells(EmbarkedValues(rows), c))
  {
    var base := BaseColumns(rows);
    var sexD := GetDummies("Sex", SexValues(rows), true);
    var embD := GetDummies("Embarked", EmbarkedValues(rows), true);
    var name := DummyName("Embarked", c);
    EmbarkedNameIsNew(c, sexD);
    NamesConcat(base, sexD);
    LookupMiddle(base + sexD, embD, [], name);
    assert base + sexD + embD + [] == Encode(rows);
    HasDummy("Embarked", EmbarkedValues(rows), true, c);
    if name in Names(embD) {
      LookupIndicator("Embarked", EmbarkedValues(rows), true, c);
    }
  }

  /** The encoded frame's columns are the kept ones and exactly the
      indicators pandas makes for Sex and for Embarked. */
  lemma EncodeNames(rows: seq<Row>, name: string)
    ensures name in Names(Encode(rows)) <==>
              || name in BaseNames
              || (exists c :: name == DummyName("Sex", c) && Encodable(SexValues(rows), c))
              || (exists c :: name == DummyName("Embarked", c) && Encodable(EmbarkedValues(rows), c))
  {
    var sexD := GetDummies("Sex", SexValues(rows), true);
    var embD := GetDummies("Embarked", EmbarkedValues(rows), true);
    EncodedNames(BaseColumns(rows), sexD, embD, name);
    if name in Names(sexD) {
      IndicatorNamed("Sex", SexValues(rows), true, name);
      var c :| c in Categories(SexValues(rows)) && name == DummyName("Sex", c);
      SexLookup(rows, c);
    }
    if name in Names(embD) {
      IndicatorNamed("Embarked", EmbarkedValues(rows), true, name);
      var c :| c in Categories(EmbarkedValues(rows)) && name == DummyName("Embarked", c);
      EmbarkedLookup(rows, c);
    }
    forall c | name == DummyName("Sex", c) && Encodable(SexValues(rows), c)
      ensures name in Names(Encode(rows))
    {
      SexLookup(rows, c);
    }
    forall c | name == DummyName("Embarked", c) && Encodable(EmbarkedValues(rows), c)
      ensures name in Names(Encode(rows))
    {
      EmbarkedLookup(rows, c);
    }
  }

  lemma EncodedNames(a: seq<Column>, b: seq<Column>, c: seq<Column>, name: string)
    ensures name in Names(a + b + c) <==> name in Names(a) || name in Names(b) || name in Names(c)
  {
    NamesConcat(a, b);
    NamesConcat(a + b, c);
  }

  /** Each of the first five feature names reads the kept column that holds
      its slot of `Vector`. */
  lemma BaseFeatureCells(rows: seq<Row>, j: nat)
    requires j < 5
    ensures FeatureColumns[j] in Names(Encode(rows))
    ensures Lookup(Encode(rows), FeatureColumns[j]).Some?
    ensures var cells := Lookup(Encode(rows), FeatureColumns[j]).value;
            |cells| == |rows| && forall i :: 0 <= i < |rows| ==> cells[i] == Vector(rows[i])[j]
  {
    var k := [0, 1, 4, 5, 6][j];
    assert FeatureColumns[j] == BaseNames[k];
    BaseLookup(rows, k);
  }

  /** "Sex_male" reads the indicator of "male", when pandas made it. */
  lemma SexFeatureCells(rows: seq<Row>)
    ensures FeatureColumns[5] in Names(Encode(rows)) <==> Encodable(SexValues(rows), "male")
    ensures FeatureColumns[5] in Names(Encode(rows)) ==>
              var cells := Lookup(Encode(rows), FeatureColumns[5]).value;
              |cells| == |rows| && forall i :: 0 <= i < |rows| ==> cells[i] == Vector(rows[i])[5]
  {
    assert DummyName("Sex", "male") == FeatureColumns[5];
    SexLookup(rows, "male");
    var cells := IndicatorCells(SexValues(rows), "male");
    forall i | 0 <= i < |rows| ensures cells[i] == Vector(rows[i])[5] {
      assert SexValues(rows)[i] == Some(rows[i].sex);
    }
  }

  /** "Embarked_Q" and "Embarked_S" read their port's indicator, when pandas
      made it. */
  lemma PortFeatureCells(rows: seq<Row>, j: nat)
    requires j == 6 || j == 7
    ensures var port := if j == 6 then "Q" else "S";
            FeatureColumns[j] in Names(Encode(rows)) <==> Encodable(EmbarkedValues(rows), port)
    ensures FeatureColumns[j] in Names(Encode(rows)) ==>
              var cells := Lookup(Encode(rows), FeatureColumns[j]).value;
              |cells| == |rows| && forall i :: 0 <= i < |rows| ==> cells[i] == Vector(rows[i])[j]
  {
    var port := if j == 6 then "Q" else "S";
    assert DummyName("Embarked", port) == FeatureColumns[j];
    EmbarkedLookup(rows, port);
    var cells := IndicatorCells(EmbarkedValues(rows), port);
    forall i | 0 <= i < |rows| ensures cells[i] == Vector(rows[i])[j] {
      assert EmbarkedValues(rows)[i] == Some(rows[i].embarked);
    }
  }

  lemma SelectByPresence(enc: seq<Column>, names: seq<string>, sexOk: bool, qOk: bool, sOk: bool)
    requires |names| == 8
    requires forall j :: 0 <= j < 5 ==> names[j] in Names(enc)
    requires names[5] in Names(enc) <==> sexOk
    requires names[6] in Names(enc) <==> qOk
    requires names[7] in Names(enc) <==> sOk
    ensures Select(enc, names).Ok? <==> sexOk && qOk && sOk
    ensures var r := Select(enc, names);
            r.Err? ==> forall x :: x in r.error ==> x in names[5..]
  {
    forall x | x in names && x !in Names(enc) ensures x in names[5..] {
      var j :| 0 <= j < |names| && names[j] == x;
      assert names[5..][j - 5] == x;
    }
    if !(sexOk && qOk && sOk) {
      var j := if !sexOk then 5 else if !qOk then 6 else 7;
      assert names[j] in names && names[j] !in Names(enc);
    }
  }

  /** `df_encoded[feature_cols]` succeeds exactly when pandas made the three
      indicator columns, and otherwise names only those it lacks. */
  lemma SelectFeatures(rows: seq<Row>)
    ensures Select(Encode(rows), FeatureColumns).Ok?
            <==> Encodable(SexValues(rows), "male") && Encodable(EmbarkedValues(rows), "Q")
                 && Encodable(EmbarkedValues(rows), "S")
    ensures var r := Select(Encode(rows), FeatureColumns);
            r.Err? ==> forall x :: x in r.error ==> x in FeatureColumns[5..]
  {
    forall j | 0 <= j < 5 ensures FeatureColumns[j] in Names(Encode(rows)) {
      BaseFeatureCells(rows, j);
    }
    SexFeatureCells(rows);
    PortFeatureCells(rows, 6);
    PortFeatureCells(rows, 7);
    SelectByPresence(Encode(rows), FeatureColumns, Encodable(SexValues(rows), "male"),
                     Encodable(EmbarkedValues(rows), "Q"), Encodable(EmbarkedValues(rows), "S"));
  }

  /** When pandas made the three indicator columns, every feature name reads
      a column that holds its slot of `Vector`, row by row. */
  lemma FeatureCells(rows: seq<Row>)
    requires Encodable(SexValues(rows), "male") && Encodable(EmbarkedValues(rows), "Q")
             && Encodable(EmbarkedValues(rows), "S")
    ensures forall j :: 0 <= j < |FeatureColumns| ==>
              && Lookup(Encode(rows), FeatureColumns[j]).Some?
              && |Lookup(Encode(rows), FeatureColumns[j]).value| == |rows|
              && forall i :: 0 <= i < |rows| ==> Lookup(Encode(rows), FeatureColumns[j]).value[i] == Vector(rows[i])[j]
  {
    forall j | 0 <= j < |FeatureColumns|
      ensures && Lookup(Encode(rows), FeatureColumns[j]).Some?
              && |Lookup(Encode(rows), FeatureColumns[j]).value| == |rows|
              && forall i :: 0 <= i < |rows| ==> Lookup(Encode(rows), FeatureColumns[j]).value[i] == Vector(rows[i])[j]
    {
      if j < 5 {
        BaseFeatureCells(rows, j);
      } else if j == 5 {
        SexFeatureCells(rows);
      } else {
        PortFeatureCells(rows, j);
      }
    }
  }

  /** Selecting columns each of which holds one slot of `Vector`, row by row,
      and reading the result row by row gives back each row's `Vector`. */
  lemma SelectByLookups(enc: seq<Column>, names: seq<string>, rows: seq<Row>)
    requires |names| == |FeatureColumns|
    requires forall j :: 0 <= j < |names| ==>
               && Lookup(enc, names[j]).Some?
               && |Lookup(enc, names[j]).value| == |rows|
               && forall i :: 0 <= i < |rows| ==> Lookup(enc, names[j]).value[i] == Vector(rows[i])[j]
    ensures Select(enc, names).Ok?
    ensures forall i :: 0 <= i < |rows| ==> Transpose(Select(enc, names).value, |rows|)[i] == Vector(rows[i])
  {
    forall x | x in names ensures x in Names(enc) {
      var j :| 0 <= j < |names| && names[j] == x;
    }
    var cols := Select(enc, names).value;
    TransposeByRow(cols, rows, Vector);
  }

  /** Transposing columns whose cells are the slots of `f` of each row gives
      back `f` of each row. */
  lemma TransposeByRow(cols: seq<seq<real>>, rows: seq<Row>, f: Row -> seq<real>)
    requires forall i :: 0 <= i < |rows| ==> |f(rows[i])| == |cols|
    requires forall j :: 0 <= j < |cols| ==>
               |cols[j]| == |rows| && forall i :: 0 <= i < |rows| ==> cols[j][i] == f(rows[i])[j]
    ensures forall i :: 0 <= i < |rows| ==> Transpose(cols, |rows|)[i] == f(rows[i])
  {
    var t := Transpose(cols, |rows|);
    forall i | 0 <= i < |rows| ensures t[i] == f(rows[i]) {
      assert forall j :: 0 <= j < |cols| ==> t[i][j] == cols[j][i];
    }
  }

  /** The script's matrix exists exactly when pandas made the three
      indicator columns (both a sex sorting before "male" and "male" occur,
      and likewise a port before "Q" and "Q", and before "S" and "S");
      otherwise the KeyError names only indicator columns. */
  lemma FeatureMatrixDefined(frame: seq<Features.Passenger>, ageMedian: real, fareMedian: real)
    ensures var rows := FillAll(frame, ageMedian, fareMedian);
            FeatureMatrix(frame, ageMedian, fareMedian).Ok?
            <==> Encodable(SexValues(rows), "male") && Encodable(EmbarkedValues(rows), "Q")
                 && Encodable(EmbarkedValues(rows), "S")
    ensures var r := FeatureMatrix(frame, ageMedian, fareMedian);
            r.Err? ==> forall x :: x in r.error ==> x in FeatureColumns[5..]
  {
    SelectFeatures(FillAll(frame, ageMedian, fareMedian));
  }

  /** Row `i` of the script's matrix is passenger `i`'s `Vector`. */
  lemma FeatureMatrixRows(frame: seq<Features.Passenger>, ageMedian: real, fareMedian: real)
    ensures var r := FeatureMatrix(frame, ageMedian, fareMedian);
            r.Ok? ==> forall i :: 0 <= i < |frame| ==>
                        r.value[i] == Vector(Fill(frame[i], ageMedian, fareMedian))
  {
    var rows := FillAll(frame, ageMedian, fareMedian);
    FeatureMatrixDefined(frame, ageMedian, fareMedian);
    if FeatureMatrix(frame, ageMedian, fareMedian).Ok? {
      SelectedRows(rows);
    }
  }

  lemma SelectedRows(rows: seq<Row>)
    requires Encodable(SexValues(rows), "male") && Encodable(EmbarkedValues(rows), "Q")
             && Encodable(EmbarkedValues(rows), "S")
    ensures Select(Encode(rows), FeatureColumns).Ok?
    ensures forall i :: 0 <= i < |rows| ==> Transpose(Select(Encode(rows), FeatureColumns).value, |rows|)[i] == Vector(rows[i])
  {
    FeatureCells(rows);
    SelectByLookups(Encode(rows), FeatureColumns, rows);
  }
}

=== FILE: encoding.dfy ===
/** sklearn's LabelEncoder as the main trainer uses it: `fit` learns the sorted
    distinct values (`classes_`), a value's code is its position there, and at
    inference an unseen value is first replaced by `classes_[0]`. */
module LabelEncoding {
  import opened Wrappers
  import opened Text

  /** Strictly increasing in Python's string order: sorted and duplicate-free. */
  predicate StrictlySorted(s: seq<string>) {
    forall i, j :: 0 <= i < j < |s| ==> StrLess(s[i], s[j])
  }

  lemma ConsSorted(x: string, s: seq<string>)
    requires StrictlySorted(s)
    requires |s| > 0 ==> StrLess(x, s[0])
    ensures StrictlySorted([x] + s)
  {
    forall j | 0 <= j < |s|
      ensures StrLess(x, s[j])
    {
      if j > 0 {
        StrLessTransitive(x, s[0], s[j]);
      }
    }
  }

  lemma ConsBelowAll(x: string, s: seq<string>)
    requires StrictlySorted(s)
    requires forall y :: y in s ==> StrLess(x, y)
    ensures StrictlySorted([x] + s)
  {
  }

  /** `s` with `x` added at its place in the order (unchanged if present). */
  function Insert(s: seq<string>, x: string): (r: seq<string>)
    requires StrictlySorted(s)
    ensures StrictlySorted(r)
    ensures forall y :: y in r <==> y in s || y == x
    decreases |s|
  {
    if |s| == 0 then [x]
    else if x == s[0] then s
    else if StrLess(x, s[0]) then
      ConsSorted(x, s);
      [x] + s
    else
      StrLessTotal(x, s[0]);
      var rest := Insert(s[1..], x);
      ConsBelowAll(s[0], rest);
      [s[0]] + rest
  }

  /** `LabelEncoder().fit(values).classes_`: the distinct values, sorted. */
  function Fit(values: seq<string>): (classes: seq<string>)
    ensures StrictlySorted(classes)
    ensures forall v :: v in classes <==> v in values
    decreases |values|
  {
    if |values| == 0 then []
    else
      var init := values[..|values| - 1];
      assert values == init + [values[|values| - 1]];
      Insert(Fit(init), values[|values| - 1])
  }

  /** A strictly sorted sequence is determined by its members. */
  lemma {:induction false} SortedByMembers(a: seq<string>, b: seq<string>)
    requires StrictlySorted(a) && StrictlySorted(b)
    requires forall v :: v in a <==> v in b
    ensures a == b
    decreases |a|
  {
    assert |b| > 0 ==> b[0] in a;
    if |a| > 0 {
      assert a[0] in b && b[0] in a;
      if a[0] != b[0] {
        var k :| 0 <= k < |a| && a[k] == b[0];
        var m :| 0 <= m < |b| && b[m] == a[0];
        assert StrLess(a[0], b[0]) by { assert k > 0; }
        assert StrLess(b[0], a[0]) by { assert m > 0; }
        StrLessTransitive(a[0], b[0], a[0]);
        StrLessIrreflexive(a[0]);
      }
      forall v
        ensures v in a[1..] <==> v in b[1..]
      {
        if v in a[1..] {
          var k :| 1 <= k < |a| && a[k] == v;
          assert StrLess(a[0], v);
          StrLessIrreflexive(v);
          assert v in b && v != b[0];
        }
        if v in b[1..] {
          var k :| 1 <= k < |b| && b[k] == v;
          assert StrLess(b[0], v);
          StrLessIrreflexive(v);
          assert v in a && v != a[0];
        }
      }
      SortedByMembers(a[1..], b[1..]);
      assert a == [a[0]] + a[1..] && b == [b[0]] + b[1..];
    }
  }

  /** The fitted classes depend only on which values occur, not on their order
      or multiplicity: fitting is deterministic. */
  lemma FitDependsOnlyOnValues(v1: seq<string>, v2: seq<string>)
    requires forall v :: v in v1 <==> v in v2
    ensures Fit(v1) == Fit(v2)
  {
    SortedByMembers(Fit(v1), Fit(v2));
  }

  /** The position of a fitted class. */
  function IndexOf(classes: seq<string>, v: string): (i: nat)
    requires v in classes
    ensures i < |classes| && classes[i] == v
    ensures forall k :: 0 <= k < i ==> classes[k] != v
  {
    if classes[0] == v then 0 else 1 + IndexOf(classes[1..], v)
  }

  lemma IndexOfUnique(classes: seq<string>, v: string, k: nat)
    requires StrictlySorted(classes)
    requires k < |classes| && classes[k] == v
    ensures IndexOf(classes, v) == k
  {
    var i := IndexOf(classes, v);
    if i < k {
      StrLessIrreflexive(v);
    }
  }

  /** `transform` on values that were all seen by `fit`. */
  function Codes(classes: seq<string>, values: seq<string>): (codes: seq<nat>)
    requires forall v :: v in values ==> v in classes
    ensures |codes| == |values|
    ensures forall i :: 0 <= i < |values| ==> codes[i] < |classes| && classes[codes[i]] == values[i]
  {
    seq(|values|, i requires 0 <= i < |values| => IndexOf(classes, values[i]))
  }

  /** `fit_transform`: the classes and the code of every value. */
  function FitTransform(values: seq<string>): (codes: seq<nat>)
    ensures |codes| == |values|
    ensures forall i :: 0 <= i < |values| ==> codes[i] < |Fit(values)| && Fit(values)[codes[i]] == values[i]
  {
    Codes(Fit(values), values)
  }

  /** The inference path for one value: an unseen value becomes `classes_[0]`
      before `transform`. With no classes at all `classes_[0]` raises, which is
      the `None` result. */
  function TransformWithFallback(classes: seq<string>, v: string): (r: Option<nat>)
    ensures r.Some? <==> |classes| > 0
    ensures r.Some? ==> r.value < |classes|
    ensures v in classes ==> r.Some? && classes[r.value] == v
    ensures v !in classes && |classes| > 0 ==> r == Some(0)
  {
    if v in classes then Some(IndexOf(classes, v))
    else if |classes| > 0 then Some(0)
    else None
  }

  /** A value seen in training keeps the code `fit_transform` gave it. */
  lemma SeenKeepsCode(values: seq<string>, i: nat)
    requires i < |values|
    ensures TransformWithFallback(Fit(values), values[i]) == Some(FitTransform(values)[i])
  {
    IndexOfUnique(Fit(values), values[i], FitTransform(values)[i]);
  }

  /** The inference path for a whole column: `None` exactly when a row needs
      `classes_[0]` and there are no classes. */
  function TransformColumn(classes: seq<string>, values: seq<string>): (r: Option<seq<nat>>)
    ensures r.Some? <==> |values| == 0 || |classes| > 0
    ensures r.Some? ==> |r.value| == |values|
    ensures r.Some? ==> forall i :: 0 <= i < |values| ==> Some(r.value[i]) == TransformWithFallback(classes, values[i])
  {
    if |values| > 0 && |classes| == 0 then None
    else Some(seq(|values|, i requires 0 <= i < |values| => TransformWithFallback(classes, values[i]).value))
  }

  /** Transforming the training column with the fitted classes reproduces the
      training codes exactly. */
  lemma TransformColumnAfterFit(values: seq<string>)
    ensures TransformColumn(Fit(values), values) == Some(FitTransform(values))
  {
    if |values| > 0 {
      assert values[0] in Fit(values);
    }
    var r := TransformColumn(Fit(values), values).value;
    forall i | 0 <= i < |values|
      ensures r[i] == FitTransform(values)[i]
    {
      SeenKeepsCode(values, i);
    }
    assert r == FitTransform(values);
  }
}

=== FILE: features.dfy ===
/** Per-record feature derivations shared by the training scripts: title
    extraction and grouping, family flags, fixed-boundary binning (`pd.cut`),
    cabin and sex flags, and the record-level part of the main trainer's
    `create_features`. */
module Features {
  import opened Wrappers
  import opened Text

  // ---------------------------------------------------------------------------
  // Title: the first match of the regular expression ` ([A-Za-z]+)\.` in Name
  // ---------------------------------------------------------------------------

  /** `t` is the captured group of a match of ` ([A-Za-z]+)\.` starting at `i`:
      a space, then the letters of `t` (at least one), then a period. */
  ghost predicate TitleAt(s: string, i: int, t: string) {
    && 0 <= i
    && i + |t| + 1 < |s|
    && s[i] == ' '
    && |t| > 0
    && (forall m :: 0 <= m < |t| ==> IsAsciiLetter(t[m]))
    && s[i + 1 .. i + 1 + |t|] == t
    && s[i + 1 + |t|] == '.'
  }

  /** `t` is captured at `j` and no match of the pattern starts before `j`. */
  ghost predicate FirstTitleAt(s: string, j: int, t: string) {
    TitleAt(s, j, t) && forall k, u :: 0 <= k < j ==> !TitleAt(s, k, u)
  }

  /** Length of the longest run of ASCII letters starting at `j`. */
  function LetterRun(s: string, j: nat): (n: nat)
    requires j <= |s|
    ensures j + n <= |s|
    ensures forall m :: j <= m < j + n ==> IsAsciiLetter(s[m])
    ensures j + n == |s| || !IsAsciiLetter(s[j + n])
    decreases |s| - j
  {
    if j < |s| && IsAsciiLetter(s[j]) then 1 + LetterRun(s, j + 1) else 0
  }

  /** The group captured by a match starting exactly at `i`, if there is one.
      The greedy `[A-Za-z]+` takes the whole letter run, which must then be
      followed by a period. */
  function MatchAt(s: string, i: nat): Option<string>
    requires i <= |s|
  {
    if i + 1 < |s| && s[i] == ' ' then
      var n := LetterRun(s, i + 1);
      if n > 0 && i + 1 + n < |s| && s[i + 1 + n] == '.' then Some(s[i + 1 .. i + 1 + n])
      else None
    else None
  }

  lemma MatchAtSpec(s: string, i: nat, t: string)
    requires i <= |s|
    ensures MatchAt(s, i) == Some(t) <==> TitleAt(s, i, t)
  {
    if MatchAt(s, i) == Some(t) {
      var n := LetterRun(s, i + 1);
      assert t == s[i + 1 .. i + 1 + n] && |t| == n;
      forall m | 0 <= m < |t| ensures IsAsciiLetter(t[m]) {
        assert t[m] == s[i + 1 + m];
      }
      assert TitleAt(s, i, t);
    }
    if TitleAt(s, i, t) {
      var n := LetterRun(s, i + 1);
      forall m | 0 <= m < |t|
        ensures s[i + 1 + m] == t[m]
      {
        assert s[i + 1 .. i + 1 + |t|][m] == t[m];
      }
      assert n == |t|;
      assert MatchAt(s, i) == Some(s[i + 1 .. i + 1 + n]);
    }
  }

  /** The scan `str.extract` performs: try each start position from `i` on. */
  function ExtractTitleFrom(s: string, i: nat): Option<string>
    requires i <= |s|
    decreases |s| - i
  {
    if i == |s| then None
    else if MatchAt(s, i).Some? then MatchAt(s, i)
    else ExtractTitleFrom(s, i + 1)
  }

  /** `Name.str.extract(r' ([A-Za-z]+)\.')` on a present name. */
  function ExtractTitle(name: string): Option<string> {
    ExtractTitleFrom(name, 0)
  }

  /** No match of the pattern starts in `[i, j)`. */
  ghost predicate NoTitleBetween(s: string, i: int, j: int) {
    forall k, u :: i <= k < j ==> !TitleAt(s, k, u)
  }

  lemma {:induction false} ExtractTitleFromSpec(s: string, i: nat, t: string)
    requires i <= |s|
    ensures ExtractTitleFrom(s, i) == Some(t) <==>
              exists j :: i <= j && TitleAt(s, j, t) && NoTitleBetween(s, i, j)
    ensures ExtractTitleFrom(s, i).None? <==> forall j, u :: i <= j ==> !TitleAt(s, j, u)
    decreases |s| - i
  {
    if i == |s| {
      forall j, u | i <= j ensures !TitleAt(s, j, u) {}
    } else if MatchAt(s, i).Some? {
      ExtractHere(s, i, t);
    } else {
      ExtractTitleFromSpec(s, i + 1, t);
      ExtractSkip(s, i, t);
    }
  }

  /** A match at `i` is the leftmost one from `i` on. */
  lemma ExtractHere(s: string, i: nat, t: string)
    requires i < |s| && MatchAt(s, i).Some?
    ensures ExtractTitleFrom(s, i) == Some(t) <==>
              exists j :: i <= j && TitleAt(s, j, t) && NoTitleBetween(s, i, j)
    ensures ExtractTitleFrom(s, i).Some?
    ensures !forall j, u :: i <= j ==> !TitleAt(s, j, u)
  {
    var t0 := MatchAt(s, i).value;
    MatchAtSpec(s, i, t0);
    MatchAtSpec(s, i, t);
    assert NoTitleBetween(s, i, i);
    if exists j :: i <= j && TitleAt(s, j, t) && NoTitleBetween(s, i, j) {
      var j :| i <= j && TitleAt(s, j, t) && NoTitleBetween(s, i, j);
    }
  }

  /** With no match at `i`, the scan from `i` is the scan from `i + 1`. */
  lemma ExtractSkip(s: string, i: nat, t: string)
    requires i < |s| && MatchAt(s, i).None?
    requires ExtractTitleFrom(s, i + 1) == Some(t) <==>
               exists j :: i + 1 <= j && TitleAt(s, j, t) && NoTitleBetween(s, i + 1, j)
    requires ExtractTitleFrom(s, i + 1).None? <==> forall j, u :: i + 1 <= j ==> !TitleAt(s, j, u)
    ensures ExtractTitleFrom(s, i) == Some(t) <==>
              exists j :: i <= j && TitleAt(s, j, t) && NoTitleBetween(s, i, j)
    ensures ExtractTitleFrom(s, i).None? <==> forall j, u :: i <= j ==> !TitleAt(s, j, u)
  {
    NoMatchAt(s, i);
    FirstMatchSkip(s, i, t);
    NoMatchSkip(s, i);
  }

  lemma NoMatchAt(s: string, i: nat)
    requires i < |s| && MatchAt(s, i).None?
    ensures forall u :: !TitleAt(s, i, u)
  {
    forall u
      ensures !TitleAt(s, i, u)
    {
      MatchAtSpec(s, i, u);
    }
  }

  lemma FirstMatchSkip(s: string, i: nat, t: string)
    requires forall u :: !TitleAt(s, i, u)
    ensures (exists j :: i <= j && TitleAt(s, j, t) && NoTitleBetween(s, i, j))
            <==> exists j :: i + 1 <= j && TitleAt(s, j, t) && NoTitleBetween(s, i + 1, j)
  {
    if exists j :: i <= j && TitleAt(s, j, t) && NoTitleBetween(s, i, j) {
      var j :| i <= j && TitleAt(s, j, t) && NoTitleBetween(s, i, j);
      FirstMatchLater(s, i, j, t);
    }
    if exists j :: i + 1 <= j && TitleAt(s, j, t) && NoTitleBetween(s, i + 1, j) {
      var j :| i + 1 <= j && TitleAt(s, j, t) && NoTitleBetween(s, i + 1, j);
      NoTitleExtend(s, i, j);
    }
  }

  lemma FirstMatchLater(s: string, i: nat, j: int, t: string)
    requires forall u :: !TitleAt(s, i, u)
    requires i <= j && TitleAt(s, j, t) && NoTitleBetween(s, i, j)
    ensures i + 1 <= j && NoTitleBetween(s, i + 1, j)
  {
    assert j != i;
  }

  lemma NoTitleExtend(s: string, i: nat, j: int)
    requires forall u :: !TitleAt(s, i, u)
    requires NoTitleBetween(s, i + 1, j)
    ensures NoTitleBetween(s, i, j)
  {
  }

  lemma NoMatchSkip(s: string, i: nat)
    requires forall u :: !TitleAt(s, i, u)
    ensures (forall j, u :: i <= j ==> !TitleAt(s, j, u)) <==> forall j, u :: i + 1 <= j ==> !TitleAt(s, j, u)
  {
  }

  /** The extracted title is the group of the leftmost match; no title is
      extracted exactly when the name contains no match at all. */
  lemma ExtractTitleSpec(name: string, t: string)
    ensures ExtractTitle(name) == Some(t) <==> exists j :: FirstTitleAt(name, j, t)
    ensures ExtractTitle(name).None? <==> forall j, u :: !TitleAt(name, j, u)
  {
    ExtractTitleFromSpec(name, 0, t);
    if ExtractTitle(name) == Some(t) {
      var j :| 0 <= j && TitleAt(name, j, t) && NoTitleBetween(name, 0, j);
      assert FirstTitleAt(name, j, t);
    }
    if exists j :: FirstTitleAt(name, j, t) {
      var j :| FirstTitleAt(name, j, t);
      assert 0 <= j && TitleAt(name, j, t) && NoTitleBetween(name, 0, j);
    }
  }

  // ---------------------------------------------------------------------------
  // Title grouping
  // ---------------------------------------------------------------------------

  /** The eleven titles sent to "Rare". */
  const RareTitles: set<string> :=
    {"Lady", "Countess", "Capt", "Col", "Don", "Dr", "Major", "Rev", "Sir", "Jonkheer", "Dona"}

  /** `Series.replace(from, to)` on one cell: NaN and other values pass unchanged. */
  function Replace(t: Option<string>, from: set<string>, to: string): Option<string> {
    if t.Some? && t.value in from then Some(to) else t
  }

  /** The four `replace` calls of `create_features`, applied in order. */
  function NormalizeTitle(t: Option<string>): (r: Option<string>)
    ensures t.None? ==> r.None?
    ensures t.Some? && t.value in RareTitles ==> r == Some("Rare")
    ensures t == Some("Mlle") || t == Some("Ms") ==> r == Some("Miss")
    ensures t == Some("Mme") ==> r == Some("Mrs")
    ensures t.Some? && t.value !in RareTitles && t.value !in {"Mlle", "Ms", "Mme"} ==> r == t
  {
    var t1 := Replace(t, RareTitles, "Rare");
    var t2 := Replace(t1, {"Mlle"}, "Miss");
    var t3 := Replace(t2, {"Ms"}, "Miss");
    Replace(t3, {"Mme"}, "Mrs")
  }

  /** Grouping a grouped title changes nothing. */
  lemma NormalizeTitleIdempotent(t: Option<string>)
    ensures NormalizeTitle(NormalizeTitle(t)) == NormalizeTitle(t)
  {
  }

  /** The Title column: extraction from a present name, then grouping. */
  function Title(name: Option<string>): Option<string> {
    match name
    case None => None
    case Some(n) => NormalizeTitle(ExtractTitle(n))
  }

  // ---------------------------------------------------------------------------
  // Family features
  // ---------------------------------------------------------------------------

  datatype Family = Family(size: nat, isAlone: int, small: int, large: int)

  /** FamilySize and the three size flags of the main trainer. */
  function FamilyFeatures(sibSp: nat, parch: nat): (f: Family)
    ensures f.size == sibSp + parch + 1 && f.size >= 1
    ensures f.isAlone in {0, 1} && f.small in {0, 1} && f.large in {0, 1}
    ensures f.isAlone + f.small + f.large == 1
    ensures f.isAlone == 1 <==> f.size == 1
    ensures f.small == 1 <==> 2 <= f.size <= 4
    ensures f.large == 1 <==> f.size >= 5
  {
    var size := sibSp + parch + 1;
    Family(size,
           if size == 1 then 1 else 0,
           if 2 <= size <= 4 then 1 else 0,
           if size >= 5 then 1 else 0)
  }

  /** Fare / FamilySize; the family size is never zero. */
  function FarePerPerson(fare: real, size: nat): (r: real)
    requires size >= 1
    ensures r * (size as real) == fare
    ensures fare >= 0.0 ==> 0.0 <= r <= fare
  {
    fare / (size as real)
  }

  // ---------------------------------------------------------------------------
  // Fixed-boundary binning: pd.cut with right-closed intervals
  // ---------------------------------------------------------------------------

  predicate Increasing(edges: seq<real>) {
    forall i, j :: 0 <= i < j < |edges| ==> edges[i] < edges[j]
  }

  /** Index of the interval (edges[k], edges[k + 1]] holding `x`, searching from `k`. */
  function BinFrom(x: real, edges: seq<real>, k: nat): (r: nat)
    requires |edges| >= 2 && k < |edges| - 1
    requires edges[k] < x <= edges[|edges| - 1]
    ensures k <= r < |edges| - 1
    ensures edges[r] < x <= edges[r + 1]
    decreases |edges| - k
  {
    if x <= edges[k + 1] then k else BinFrom(x, edges, k + 1)
  }

  /** `pd.cut(x, bins=edges)`: the bin index of `x`, missing outside the bins.
      With `includeLowest` the first interval is closed on the left, as in
      `pd.qcut`. */
  function Cut(x: real, edges: seq<real>, includeLowest: bool): (r: Option<nat>)
    requires |edges| >= 2 && Increasing(edges)
    ensures r.Some? ==> r.value < |edges| - 1 && x <= edges[r.value + 1]
    ensures r.Some? ==> edges[r.value] < x || (includeLowest && r.value == 0 && x == edges[0])
    ensures r.None? <==> x < edges[0] || x > edges[|edges| - 1] || (x == edges[0] && !includeLowest)
  {
    if includeLowest && x == edges[0] then Some(0)
    else if edges[0] < x <= edges[|edges| - 1] then Some(BinFrom(x, edges, 0))
    else None
  }

  /** Without `includeLowest`, bin `k` is chosen exactly when its interval
      `(edges[k], edges[k + 1]]` holds `x`. */
  lemma CutBins(x: real, edges: seq<real>)
    requires |edges| >= 2 && Increasing(edges)
    ensures forall k :: 0 <= k < |edges| - 1 ==>
              (Cut(x, edges, false) == Some(k) <==> edges[k] < x <= edges[k + 1])
    ensures Cut(x, edges, false).None? <==> x <= edges[0] || x > edges[|edges| - 1]
  {
    var r := Cut(x, edges, false);
    forall k | 0 <= k < |edges| - 1 && edges[k] < x <= edges[k + 1]
      ensures r == Some(k)
    {
      assert r.Some? && edges[r.value] < x <= edges[r.value + 1];
    }
  }

  /** The bin Cut chooses is the only one whose interval holds `x`. */
  lemma CutUnique(x: real, edges: seq<real>, k: nat)
    requires |edges| >= 2 && Increasing(edges)
    requires k < |edges| - 1 && edges[k] < x <= edges[k + 1]
    ensures Cut(x, edges, false) == Some(k)
  {
  }

  datatype AgeGroup = Child | Teen | Adult | Middle | Senior

  const AgeGroups: seq<AgeGroup> := [Child, Teen, Adult, Middle, Senior]

  /** Bin edges of the main trainer. */
  const MainAgeEdges: seq<real> := [0.0, 12.0, 18.0, 35.0, 60.0, 100.0]

  /** Bin edges shared by the minimal and the XGBoost/LightGBM-only trainers. */
  const AltAgeEdges: seq<real> := [0.0, 12.0, 20.0, 40.0, 60.0, 100.0]

  /** Edges that rise from one to the next rise throughout. */
  lemma {:induction false} EdgesIncreasing(edges: seq<real>)
    requires forall k :: 0 <= k < |edges| - 1 ==> edges[k] < edges[k + 1]
    ensures Increasing(edges)
    decreases |edges|
  {
    if |edges| > 1 {
      EdgesIncreasing(edges[1..]);
      forall i, j | 0 <= i < j < |edges| ensures edges[i] < edges[j] {
        if i > 0 {
          assert edges[i] == edges[1..][i - 1] && edges[j] == edges[1..][j - 1];
        } else if j > 1 {
          assert edges[1] == edges[1..][0] && edges[j] == edges[1..][j - 1];
        }
      }
    }
  }

  /** `Cut` over five rising bins, bin by bin. */
  lemma FiveBins(x: real, e: seq<real>)
    requires |e| == 6 && e[0] < e[1] && e[1] < e[2] && e[2] < e[3] && e[3] < e[4] && e[4] < e[5]
    ensures Cut(x, e, false) == Some(0) <==> e[0] < x <= e[1]
    ensures Cut(x, e, false) == Some(1) <==> e[1] < x <= e[2]
    ensures Cut(x, e, false) == Some(2) <==> e[2] < x <= e[3]
    ensures Cut(x, e, false) == Some(3) <==> e[3] < x <= e[4]
    ensures Cut(x, e, false) == Some(4) <==> e[4] < x <= e[5]
    ensures Cut(x, e, false).None? <==> x <= e[0] || x > e[5]
    ensures Cut(x, e, false).Some? ==> Cut(x, e, false).value < 5
  {
    EdgesIncreasing(e);
    CutBins(x, e);
  }

  function Label(bin: Option<nat>): Option<AgeGroup> {
    if bin.Some? && bin.value < 5 then Some(AgeGroups[bin.value]) else None
  }

  /** The main trainer's AgeGroup column. */
  function MainAgeGroup(age: real): (g: Option<AgeGroup>)
    ensures g == Some(Child) <==> 0.0 < age <= 12.0
    ensures g == Some(Teen) <==> 12.0 < age <= 18.0
    ensures g == Some(Adult) <==> 18.0 < age <= 35.0
    ensures g == Some(Middle) <==> 35.0 < age <= 60.0
    ensures g == Some(Senior) <==> 60.0 < age <= 100.0
    ensures g.None? <==> age <= 0.0 || age > 100.0
  {
    FiveBins(age, MainAgeEdges);
    Label(Cut(age, MainAgeEdges, false))
  }

  /** The minimal trainer's AgeGroup column, as bin index 0 to 4 (the labels of
      the XGBoost/LightGBM-only trainer). */
  function AltAgeBin(age: real): (b: Option<nat>)
    ensures b == Some(0) <==> 0.0 < age <= 12.0
    ensures b == Some(1) <==> 12.0 < age <= 20.0
    ensures b == Some(2) <==> 20.0 < age <= 40.0
    ensures b == Some(3) <==> 40.0 < age <= 60.0
    ensures b == Some(4) <==> 60.0 < age <= 100.0
    ensures b.None? <==> age <= 0.0 || age > 100.0
  {
    FiveBins(age, AltAgeEdges);
    Cut(age, AltAgeEdges, false)
  }

  /** The minimal trainer's AgeGroup column with its named labels. */
  function AltAgeGroup(age: real): (g: Option<AgeGroup>)
    ensures g == Some(Child) <==> 0.0 < age <= 12.0
    ensures g == Some(Teen) <==> 12.0 < age <= 20.0
    ensures g == Some(Adult) <==> 20.0 < age <= 40.0
    ensures g == Some(Middle) <==> 40.0 < age <= 60.0
    ensures g == Some(Senior) <==> 60.0 < age <= 100.0
    ensures g.None? <==> age <= 0.0 || age > 100.0
  {
    Label(AltAgeBin(age))
  }

  /** The two boundary sets group a 19-year-old differently. */
  lemma AgeGroupsDisagree()
    ensures MainAgeGroup(19.0) == Some(Adult) && AltAgeGroup(19.0) == Some(Teen)
    ensures MainAgeGroup(38.0) == Some(Middle) && AltAgeGroup(38.0) == Some(Adult)
  {
  }

  function AgeGroupName(g: AgeGroup): string {
    match g
    case Child => "Child"
    case Teen => "Teen"
    case Adult => "Adult"
    case Middle => "Middle"
    case Senior => "Senior"
  }

  /** The five FareBin labels of `pd.qcut(Fare, q=5)`. */
  const FareBinNames: seq<string> := ["Very_Low", "Low", "Medium", "High", "Very_High"]

  // ---------------------------------------------------------------------------
  // Cabin and sex
  // ---------------------------------------------------------------------------

  /** HasCabin: 1 iff the Cabin column exists and this cell is not NaN. */
  function HasCabin(hasColumn: bool, cabin: Option<string>): (r: int)
    ensures r in {0, 1}
    ensures r == 1 <==> hasColumn && cabin.Some?
  {
    if hasColumn && cabin.Some? then 1 else 0
  }

  /** CabinDeck: `Cabin.str[0].fillna('Unknown')`; an empty cabin string has no
      first character, so it is 'Unknown' too. */
  function CabinDeck(hasColumn: bool, cabin: Option<string>): (r: string)
    ensures hasColumn && cabin.Some? && |cabin.value| > 0 ==> r == [cabin.value[0]]
    ensures !(hasColumn && cabin.Some? && |cabin.value| > 0) ==> r == "Unknown"
  {
    if hasColumn && cabin.Some? && |cabin.value| > 0 then cabin.value[..1] else "Unknown"
  }

  /** Sex_Binary: an exact, case-sensitive comparison with "male". */
  function SexBinary(sex: string): (r: int)
    ensures r in {0, 1}
    ensures r == 1 <==> sex == "male"
  {
    if sex == "male" then 1 else 0
  }

  // ---------------------------------------------------------------------------
  // The main trainer's create_features, one record at a time
  // ---------------------------------------------------------------------------

  /** A raw passenger row; NaN cells are `None`. */
  datatype Passenger = Passenger(
    pclass: int,
    name: Option<string>,
    sex: string,
    age: Option<real>,
    sibSp: nat,
    parch: nat,
    fare: Option<real>,
    cabin: Option<string>,
    embarked: Option<string>)

  /** Fill values `create_features` computes from the frame it is given
      (median Age, median Fare, modal Embarked). */
  datatype FillValues = FillValues(age: real, fare: real, embarked: string)

  /** The derived columns of the main trainer for one row. */
  datatype Engineered = Engineered(
    pclass: int,
    age: real,
    sibSp: nat,
    parch: nat,
    fare: real,
    embarked: string,
    title: Option<string>,
    family: Family,
    ageGroup: Option<AgeGroup>,
    fareBin: Option<nat>,
    ageClass: real,
    farePerPerson: real,
    hasCabin: int,
    cabinDeck: string,
    sexBinary: int)

  /** Some row has a port, so `Embarked.mode()` has an entry 0 to fill with. */
  predicate HasEmbarked(frame: seq<Passenger>) {
    exists i :: 0 <= i < |frame| && frame[i].embarked.Some?
  }

  /** A valid set of `qcut` edges: six strictly increasing quantiles. */
  predicate ValidFareEdges(edges: seq<real>) {
    |edges| == 6 && Increasing(edges)
  }

  /** One row of the main trainer's `create_features`. */
  function CreateFeatures(p: Passenger, hasCabinColumn: bool, fill: FillValues, fareEdges: seq<real>): (e: Engineered)
    requires ValidFareEdges(fareEdges)
    ensures e.age == p.age.GetOr(fill.age) && e.fare == p.fare.GetOr(fill.fare)
    ensures e.embarked == p.embarked.GetOr(fill.embarked)
    ensures e.title == Title(p.name)
    ensures e.family.size >= 1
    ensures e.farePerPerson * (e.family.size as real) == e.fare
    ensures e.hasCabin == 1 <==> hasCabinColumn && p.cabin.Some?
    ensures e.sexBinary == 1 <==> p.sex == "male"
    ensures e.fareBin.Some? ==> e.fareBin.value < 5
    ensures e.fareBin.Some? <==> fareEdges[0] <= e.fare <= fareEdges[5]
  {
    var age := p.age.GetOr(fill.age);
    var fare := p.fare.GetOr(fill.fare);
    var family := FamilyFeatures(p.sibSp, p.parch);
    Engineered(
      p.pclass, age, p.sibSp, p.parch, fare,
      p.embarked.GetOr(fill.embarked),
      Title(p.name),
      family,
      MainAgeGroup(age),
      Cut(fare, fareEdges, true),
      age * (p.pclass as real),
      FarePerPerson(fare, family.size),
      HasCabin(hasCabinColumn, p.cabin),
      CabinDeck(hasCabinColumn, p.cabin),
      SexBinary(p.sex))
  }
}

=== FILE: frame.dfy ===
/** The part of a pandas DataFrame the trainers rely on when they pick their
    feature columns: named numeric columns, lookup by name, and `df[names]`. */
module Frame {
  import opened Wrappers

  /** A named numeric column. */
  datatype Column = Column(name: string, cells: seq<real>)

  function Names(frame: seq<Column>): (r: seq<string>)
    ensures |r| == |frame|
    ensures forall j :: 0 <= j < |frame| ==> r[j] == frame[j].name
  {
    seq(|frame|, j requires 0 <= j < |frame| => frame[j].name)
  }

  lemma NamesConcat(a: seq<Column>, b: seq<Column>)
    ensures Names(a + b) == Names(a) + Names(b)
  {
  }

  /** `df[name]`: the first column carrying that name, if any. */
  function Lookup(frame: seq<Column>, name: string): (r: Option<seq<real>>)
    ensures r.None? <==> name !in Names(frame)
    ensures r.Some? ==> exists j :: 0 <= j < |frame| && frame[j] == Column(name, r.value)
                                    && forall k :: 0 <= k < j ==> frame[k].name != name
    decreases |frame|
  {
    if |frame| == 0 then None
    else if frame[0].name == name then
      assert Names(frame)[0] == name;
      Some(frame[0].cells)
    else
      var r := Lookup(frame[1..], name);
      assert Names(frame) == [frame[0].name] + Names(frame[1..]);
      if r.Some? then
        var j :| 0 <= j < |frame[1..]| && frame[1..][j] == Column(name, r.value)
                 && forall k :: 0 <= k < j ==> frame[1..][k].name != name;
        assert frame[j + 1] == Column(name, r.value);
        assert forall k :: 0 <= k < j + 1 ==> frame[k].name != name by {
          forall k | 0 <= k < j + 1 ensures frame[k].name != name {
            if k > 0 { assert frame[k] == frame[1..][k - 1]; }
          }
        }
        r
      else r
  }

  /** When every column carrying `name` holds the same cells, those cells
      are what `df[name]` gives. */
  lemma LookupAll(frame: seq<Column>, name: string, cells: seq<real>)
    requires name in Names(frame)
    requires forall j :: 0 <= j < |frame| && frame[j].name == name ==> frame[j].cells == cells
    ensures Lookup(frame, name) == Some(cells)
  {
  }

  /** Looking a name up in two frames side by side finds it in the left one
      when it is there. */
  lemma {:induction false} LookupConcat(a: seq<Column>, b: seq<Column>, name: string)
    ensures Lookup(a + b, name) == if name in Names(a) then Lookup(a, name) else Lookup(b, name)
    decreases |a|
  {
    NamesConcat(a, b);
    if |a| > 0 {
      assert (a + b)[1..] == a[1..] + b;
      assert Names(a) == [a[0].name] + Names(a[1..]);
      if a[0].name != name {
        LookupConcat(a[1..], b, name);
      }
    } else {
      assert a + b == b;
    }
  }

  /** A name only the middle of three frames has is read from the middle. */
  lemma LookupMiddle(a: seq<Column>, b: seq<Column>, c: seq<Column>, name: string)
    requires name !in Names(a) && name !in Names(c)
    ensures name in Names(a + b + c) <==> name in Names(b)
    ensures Lookup(a + b + c, name) == Lookup(b, name)
  {
    NamesConcat(a, b);
    NamesConcat(a + b, c);
    LookupConcat(a, b, name);
    LookupConcat(a + b, c, name);
    if name !in Names(b) {
      assert Lookup(b, name).None?;
    }
  }

  /** The requested names that the frame does not have, in request order. */
  function Missing(frame: seq<Column>, names: seq<string>): (r: seq<string>)
    ensures forall x :: x in r <==> x in names && x !in Names(frame)
    ensures |r| <= |names|
    decreases |names|
  {
    if |names| == 0 then []
    else
      var rest := Missing(frame, names[1..]);
      assert forall x :: x in names <==> x == names[0] || x in names[1..];
      if names[0] in Names(frame) then rest else [names[0]] + rest
  }

  /** `df[names]`: the columns in the requested order, or the KeyError that
      lists every requested name the frame lacks. */
  function Select(frame: seq<Column>, names: seq<string>): (r: Result<seq<seq<real>>, seq<string>>)
    ensures r.Err? <==> exists x :: x in names && x !in Names(frame)
    ensures r.Err? ==> r.error == Missing(frame, names) && |r.error| > 0
    ensures r.Ok? ==> |r.value| == |names|
    ensures r.Ok? ==> forall j :: 0 <= j < |names| ==> Lookup(frame, names[j]) == Some(r.value[j])
  {
    var missing := Missing(frame, names);
    if |missing| > 0 then
      assert missing[0] in missing;
      Err(missing)
    else
      Ok(seq(|names|, j requires 0 <= j < |names| => Lookup(frame, names[j]).value))
  }

  /** A column-major table of `n` rows seen row by row; a cell past the end
      of a short column reads as 0. */
  function Transpose(cols: seq<seq<real>>, n: nat): (rows: seq<seq<real>>)
    ensures |rows| == n
    ensures forall i :: 0 <= i < n ==> |rows[i]| == |cols|
    ensures forall i, j :: 0 <= i < n && 0 <= j < |cols| && i < |cols[j]| ==> rows[i][j] == cols[j][i]
  {
    seq(n, i requires 0 <= i < n => seq(|cols|, j requires 0 <= j < |cols| => if i < |cols[j]| then cols[j][i] else 0.0))
  }

}

=== FILE: holdout.dfy ===
/** Holdout partitioning and accuracy of the XGBoost/LightGBM-only trainer:
    `train_test_split_manual` over a given permutation, and `calculate_accuracy`. */
module Holdout {
  import opened Wrappers

  /** Python's `int()` on a number: truncation toward zero. */
  function Trunc(x: real): (k: int)
    ensures x >= 0.0 ==> k as real <= x < k as real + 1.0
    ensures x < 0.0 ==> k as real - 1.0 < x <= k as real
  {
    if x >= 0.0 then x.Floor else -((-x).Floor)
  }

  /** Where a Python slice bound `k` cuts a sequence of length `n`: a negative
      bound counts from the end, and a bound beyond either end is clamped. */
  function SliceBound(k: int, n: nat): (e: nat)
    ensures e <= n
    ensures 0 <= k <= n ==> e == k
    ensures k > n ==> e == n
    ensures k < 0 ==> e == if n + k >= 0 then n + k else 0
  {
    if k < 0 then (if n + k >= 0 then n + k else 0)
    else if k > n then n
    else k
  }

  /** Python's `s[:k]`. */
  function PyTake<T>(s: seq<T>, k: int): seq<T> {
    s[..SliceBound(k, |s|)]
  }

  /** Python's `s[k:]`. */
  function PyDrop<T>(s: seq<T>, k: int): seq<T> {
    s[SliceBound(k, |s|)..]
  }

  /** The two slices at one bound put back together give the whole sequence,
      whatever the bound. */
  lemma TakeDropCover<T>(s: seq<T>, k: int)
    ensures PyTake(s, k) + PyDrop(s, k) == s
  {
  }

  /** `np.random.permutation(n)`: every index below `n` exactly once. */
  predicate IsPermutation(perm: seq<nat>, n: nat) {
    && |perm| == n
    && (forall i :: 0 <= i < n ==> perm[i] < n)
    && (forall i, j :: 0 <= i < j < n ==> perm[i] != perm[j])
    && (forall v :: 0 <= v < n ==> v in perm)
  }

  /** `X.iloc[idx]` / `X[idx]`: the rows at the given positions, in that order. */
  function Take<T>(xs: seq<T>, idx: seq<nat>): (r: seq<T>)
    requires forall j :: 0 <= j < |idx| ==> idx[j] < |xs|
    ensures |r| == |idx|
    ensures forall j :: 0 <= j < |idx| ==> r[j] == xs[idx[j]]
  {
    seq(|idx|, j requires 0 <= j < |idx| => xs[idx[j]])
  }

  /** `int(len(X) * test_size)`. */
  function TestCount(n: nat, testSize: real): int {
    Trunc(n as real * testSize)
  }

  datatype Split<R, L> = Split(
    testIndices: seq<nat>, trainIndices: seq<nat>,
    xTrain: seq<R>, xTest: seq<R>, yTrain: seq<L>, yTest: seq<L>)

  /** `train_test_split_manual(X, y, test_size)` with the permutation drawn by
      the seeded generator given as `perm`. */
  function SplitManual<R, L>(xs: seq<R>, ys: seq<L>, perm: seq<nat>, testSize: real): (s: Split<R, L>)
    requires IsPermutation(perm, |xs|)
    requires |ys| >= |xs|
    ensures s.testIndices + s.trainIndices == perm
    ensures 0.0 <= testSize <= 1.0 ==>
              |s.testIndices| == (|xs| as real * testSize).Floor && |s.trainIndices| == |xs| - |s.testIndices|
    ensures |s.xTest| == |s.yTest| == |s.testIndices| && |s.xTrain| == |s.yTrain| == |s.trainIndices|
    ensures forall j :: 0 <= j < |s.testIndices| ==>
              s.testIndices[j] < |xs| && s.xTest[j] == xs[s.testIndices[j]] && s.yTest[j] == ys[s.testIndices[j]]
    ensures forall j :: 0 <= j < |s.trainIndices| ==>
              s.trainIndices[j] < |xs| && s.xTrain[j] == xs[s.trainIndices[j]] && s.yTrain[j] == ys[s.trainIndices[j]]
  {
    var e := SliceBound(TestCount(|xs|, testSize), |perm|);
    CountInRange(|xs|, testSize);
    var test := perm[..e];
    var train := perm[e..];
    assert test + train == perm;
    Split(test, train, Take(xs, train), Take(xs, test), Take(ys, train), Take(ys, test))
  }

  lemma CountInRange(n: nat, testSize: real)
    ensures 0.0 <= testSize <= 1.0 ==>
              0 <= TestCount(n, testSize) <= n && TestCount(n, testSize) == (n as real * testSize).Floor
  {
    if 0.0 <= testSize <= 1.0 {
      assert n as real * testSize <= n as real * 1.0;
    }
  }

  /** Cutting a permutation of the positions anywhere gives two disjoint parts
      that together hold every position. */
  lemma PermutationCut(perm: seq<nat>, n: nat, e: nat)
    requires IsPermutation(perm, n) && e <= n
    ensures forall v :: v in perm[..e] ==> v !in perm[e..]
    ensures forall v :: 0 <= v < n <==> v in perm[..e] || v in perm[e..]
  {
    forall v | v in perm[..e]
      ensures v !in perm[e..]
    {
      var a :| 0 <= a < e && perm[a] == v;
    }
    forall v | 0 <= v < n
      ensures v in perm[..e] || v in perm[e..]
    {
      assert v in perm;
      var i :| 0 <= i < |perm| && perm[i] == v;
      if i < e {
        assert perm[..e][i] == v;
      } else {
        assert perm[e..][i - e] == v;
      }
    }
    assert perm == perm[..e] + perm[e..];
  }

  /** The test and training positions are disjoint and together are every
      position of the data. */
  lemma SplitPartitions<R, L>(xs: seq<R>, ys: seq<L>, perm: seq<nat>, testSize: real)
    requires IsPermutation(perm, |xs|)
    requires |ys| >= |xs|
    ensures var s := SplitManual(xs, ys, perm, testSize);
            && (forall a, b :: 0 <= a < |s.testIndices| && 0 <= b < |s.trainIndices| ==> s.testIndices[a] != s.trainIndices[b])
            && (forall v :: 0 <= v < |xs| <==> v in s.testIndices || v in s.trainIndices)
  {
    var s := SplitManual(xs, ys, perm, testSize);
    var e := |s.testIndices|;
    assert s.testIndices == perm[..e] && s.trainIndices == perm[e..];
    PermutationCut(perm, |xs|, e);
    forall a, b | 0 <= a < |s.testIndices| && 0 <= b < |s.trainIndices|
      ensures s.testIndices[a] != s.trainIndices[b]
    {
      assert s.testIndices[a] in perm[..e];
      assert s.trainIndices[b] in perm[e..];
    }
  }

  /** The positions `0..n-1` in order. */
  function Positions(n: nat): (ps: seq<nat>)
    ensures |ps| == n
    ensures forall i :: 0 <= i < n ==> ps[i] == i
  {
    seq(n, i requires 0 <= i < n => i)
  }

  /** Selecting by the concatenation of two index lists selects by each in turn. */
  lemma TakeConcat<T>(xs: seq<T>, a: seq<nat>, b: seq<nat>)
    requires forall j :: 0 <= j < |a| ==> a[j] < |xs|
    requires forall j :: 0 <= j < |b| ==> b[j] < |xs|
    ensures Take(xs, a + b) == Take(xs, a) + Take(xs, b)
  {
    assert forall j :: 0 <= j < |a + b| ==> Take(xs, a + b)[j] == (Take(xs, a) + Take(xs, b))[j];
  }

  /** In a list without repeats every value occurs at most once. */
  lemma {:induction false} DistinctCount(s: seq<nat>, v: nat)
    requires forall i, j :: 0 <= i < j < |s| ==> s[i] != s[j]
    ensures multiset(s)[v] == if v in s then 1 else 0
  {
    if |s| > 0 {
      DistinctCount(s[1..], v);
      assert s == [s[0]] + s[1..];
      if s[0] == v {
        assert v !in s[1..];
      }
    }
  }

  /** A permutation of `n` holds the positions `0..n-1`, each once. */
  lemma PermutationMultiset(perm: seq<nat>, n: nat)
    requires IsPermutation(perm, n)
    ensures multiset(perm) == multiset(Positions(n))
  {
    var ps := Positions(n);
    forall v: nat
      ensures multiset(perm)[v] == multiset(ps)[v]
    {
      DistinctCount(perm, v);
      DistinctCount(ps, v);
      if v < n {
        assert ps[v] == v;
      }
    }
    assert forall v :: multiset(perm)[v] == multiset(ps)[v];
  }

  /** Removing position `k` of a sequence removes one occurrence of its element. */
  lemma RemoveOne<U>(s: seq<U>, k: nat)
    requires k < |s|
    ensures multiset(s) == multiset(s[..k] + s[k + 1..]) + multiset{s[k]}
  {
    assert s == s[..k] + [s[k]] + s[k + 1..];
  }

  /** Removing position `k` from an index list removes one occurrence of its
      index, and one occurrence of the row it selects. */
  lemma RemoveAt<T>(xs: seq<T>, b: seq<nat>, k: nat, rest: seq<nat>)
    requires forall j :: 0 <= j < |b| ==> b[j] < |xs|
    requires k < |b| && rest == b[..k] + b[k + 1..]
    ensures forall j :: 0 <= j < |rest| ==> rest[j] < |xs|
    ensures multiset(b) == multiset(rest) + multiset{b[k]}
    ensures multiset(Take(xs, b)) == multiset(Take(xs, rest)) + multiset{xs[b[k]]}
  {
    forall j | 0 <= j < |rest|
      ensures rest[j] < |xs|
    {
      if j < k {
        assert rest[j] == b[j];
      } else {
        assert rest[j] == b[j + 1];
      }
    }
    RemoveOne(b, k);
    var t := Take(xs, b);
    RemoveOne(t, k);
    assert Take(xs, rest) == t[..k] + t[k + 1..] by {
      assert forall j :: 0 <= j < |rest| ==> Take(xs, rest)[j] == (t[..k] + t[k + 1..])[j] by {
        forall j | 0 <= j < |rest|
          ensures Take(xs, rest)[j] == (t[..k] + t[k + 1..])[j]
        {
          if j < k {
            assert rest[j] == b[j];
          } else {
            assert rest[j] == b[j + 1];
          }
        }
      }
    }
  }

  lemma Cancel<T>(x: multiset<T>, y: multiset<T>, v: T)
    ensures x + multiset{v} == y + multiset{v} <==> x == y
  {
    if x + multiset{v} == y + multiset{v} {
      assert x == (x + multiset{v}) - multiset{v};
      assert y == (y + multiset{v}) - multiset{v};
    }
  }

  /** Two index lists holding the same positions equally often select the same
      rows equally often, whatever their order. */
  lemma {:induction false} TakeSameMultiset<T>(xs: seq<T>, a: seq<nat>, b: seq<nat>)
    requires forall j :: 0 <= j < |a| ==> a[j] < |xs|
    requires forall j :: 0 <= j < |b| ==> b[j] < |xs|
    requires multiset(a) == multiset(b)
    ensures multiset(Take(xs, a)) == multiset(Take(xs, b))
    decreases |a|
  {
    if |a| == 0 {
      assert |multiset(b)| == 0;
    } else {
      var v := a[0];
      assert v in b by {
        assert v in multiset(a);
      }
      var k :| 0 <= k < |b| && b[k] == v;
      var rest := b[..k] + b[k + 1..];
      assert a[..0] + a[1..] == a[1..];
      RemoveAt(xs, a, 0, a[1..]);
      RemoveAt(xs, b, k, rest);
      Cancel(multiset(a[1..]), multiset(rest), v);
      Cancel(multiset(Take(xs, a[1..])), multiset(Take(xs, rest)), xs[v]);
      TakeSameMultiset(xs, a[1..], rest);
    }
  }

  /** Reordering the rows by a permutation keeps every row, as often as it
      occurs: nothing is lost and nothing duplicated. */
  lemma TakePermutation<T>(xs: seq<T>, perm: seq<nat>)
    requires IsPermutation(perm, |xs|)
    ensures multiset(Take(xs, perm)) == multiset(xs)
  {
    var ps := Positions(|xs|);
    PermutationMultiset(perm, |xs|);
    TakeSameMultiset(xs, perm, ps);
    assert Take(xs, ps) == xs;
  }

  /** The test rows and the training rows together are the data, row for row
      with multiplicity, for the features and for the labels alike. */
  lemma SplitKeepsRows<R, L>(xs: seq<R>, ys: seq<L>, perm: seq<nat>, testSize: real)
    requires IsPermutation(perm, |xs|)
    requires |ys| >= |xs|
    ensures var s := SplitManual(xs, ys, perm, testSize);
            && multiset(s.xTest + s.xTrain) == multiset(xs)
            && multiset(s.yTest + s.yTrain) == multiset(ys[..|xs|])
  {
    var s := SplitManual(xs, ys, perm, testSize);
    var ys' := ys[..|xs|];
    assert s.xTest == Take(xs, s.testIndices) && s.xTrain == Take(xs, s.trainIndices);
    assert s.yTest == Take(ys', s.testIndices) && s.yTrain == Take(ys', s.trainIndices);
    TakeConcat(xs, s.testIndices, s.trainIndices);
    TakeConcat(ys', s.testIndices, s.trainIndices);
    TakePermutation(xs, perm);
    TakePermutation(ys', perm);
  }

  /** The number of positions where prediction and label agree. */
  function Matches<L(==)>(yTrue: seq<L>, yPred: seq<L>): (m: nat)
    requires |yTrue| == |yPred|
    ensures m <= |yTrue|
    ensures m == |yTrue| <==> forall i :: 0 <= i < |yTrue| ==> yTrue[i] == yPred[i]
    ensures m == 0 <==> forall i :: 0 <= i < |yTrue| ==> yTrue[i] != yPred[i]
    decreases |yTrue|
  {
    if |yTrue| == 0 then 0
    else
      var n := |yTrue| - 1;
      Matches(yTrue[..n], yPred[..n]) + (if yTrue[n] == yPred[n] then 1 else 0)
  }

  /** The set of agreeing positions: an independent statement of what
      `Matches` counts. */
  function MatchSet<L(==)>(yTrue: seq<L>, yPred: seq<L>): set<nat>
    requires |yTrue| == |yPred|
  {
    set i: nat | i < |yTrue| && yTrue[i] == yPred[i]
  }

  lemma {:induction false} MatchesCountsMatchSet<L>(yTrue: seq<L>, yPred: seq<L>)
    requires |yTrue| == |yPred|
    ensures Matches(yTrue, yPred) == |MatchSet(yTrue, yPred)|
    decreases |yTrue|
  {
    if |yTrue| > 0 {
      var n := |yTrue| - 1;
      MatchesCountsMatchSet(yTrue[..n], yPred[..n]);
      var before := MatchSet(yTrue[..n], yPred[..n]);
      if yTrue[n] == yPred[n] {
        assert MatchSet(yTrue, yPred) == before + {n};
      } else {
        assert MatchSet(yTrue, yPred) == before;
      }
    }
  }

  /** `calculate_accuracy`: `np.mean(y_true == y_pred)`; the mean of no
      positions is NaN, modelled as `None`. */
  function Accuracy<L(==)>(yTrue: seq<L>, yPred: seq<L>): (a: Option<real>)
    requires |yTrue| == |yPred|
    ensures a.None? <==> |yTrue| == 0
    ensures a.Some? ==> 0.0 <= a.value <= 1.0
    ensures a.Some? ==> (a.value == 1.0 <==> forall i :: 0 <= i < |yTrue| ==> yTrue[i] == yPred[i])
    ensures a.Some? ==> (a.value == 0.0 <==> forall i :: 0 <= i < |yTrue| ==> yTrue[i] != yPred[i])
  {
    if |yTrue| == 0 then None
    else
      FractionBounds(Matches(yTrue, yPred), |yTrue|);
      Some(Matches(yTrue, yPred) as real / |yTrue| as real)
  }

  /** A count out of a positive total is a fraction in [0, 1] that is 1
      exactly for the whole total and 0 exactly for none of it. */
  lemma FractionBounds(m: nat, n: nat)
    requires m <= n && 0 < n
    ensures var q := m as real / n as real;
            && 0.0 <= q <= 1.0
            && (q == 1.0 <==> m == n)
            && (q == 0.0 <==> m == 0)
  {
    var q := m as real / n as real;
    assert q * n as real == m as real;
  }

  /** The accuracy is the fraction of agreeing positions. */
  lemma AccuracyIsFraction<L>(yTrue: seq<L>, yPred: seq<L>)
    requires |yTrue| == |yPred| && |yTrue| > 0
    ensures Accuracy(yTrue, yPred) == Some(|MatchSet(yTrue, yPred)| as real / |yTrue| as real)
  {
    MatchesCountsMatchSet(yTrue, yPred);
  }
}

=== FILE: prepare.dfy ===
/** The main trainer's `prepare_data`: `create_features` over a frame, label
    encoding of the five categorical columns (fit at training, fallback
    transform at inference), and the 18-column feature matrix before scaling. */
module Prepare {
  import opened Wrappers
  import opened Features
  import opened LabelEncoding

  const NumericalFeatures: seq<string> :=
    ["Pclass", "Age", "SibSp", "Parch", "Fare", "FamilySize", "IsAlone", "SmallFamily",
     "LargeFamily", "Age_Class", "Fare_Per_Person", "HasCabin", "Sex_Binary"]

  const CategoricalFeatures: seq<string> := ["Embarked", "Title", "AgeGroup", "FareBin", "CabinDeck"]

  /** `self.feature_names`: the numerical columns, then the categorical ones. */
  function FeatureNames(): (names: seq<string>)
    ensures |names| == 18
    ensures names[..13] == NumericalFeatures && names[13..] == CategoricalFeatures
    ensures forall i, j :: 0 <= i < j < |names| ==> names[i] != names[j]
  {
    NumericalFeatures + CategoricalFeatures
  }

  /** `astype(str)` on a cell that may be NaN. */
  function AsStr(o: Option<string>): string {
    o.GetOr("nan")
  }

  /** `astype(str)` conflates a missing cell with the literal string "nan":
      two cells become the same string exactly when they are equal or one is
      missing and the other is "nan". */
  lemma AsStrCollision(a: Option<string>, b: Option<string>)
    ensures AsStr(a) == AsStr(b) <==>
              a == b || (a.None? && b == Some("nan")) || (b.None? && a == Some("nan"))
  {
  }

  /** The five categorical cells of a row, as the strings the encoders see. */
  function CategoricalValues(e: Engineered): (r: seq<string>)
    ensures |r| == |CategoricalFeatures|
  {
    [ e.embarked,
      AsStr(e.title),
      if e.ageGroup.Some? then AgeGroupName(e.ageGroup.value) else "nan",
      if e.fareBin.Some? && e.fareBin.value < 5 then FareBinNames[e.fareBin.value] else "nan",
      e.cabinDeck ]
  }

  /** The thirteen numerical cells of a row, in `NumericalFeatures` order. */
  function NumericalValues(e: Engineered): (r: seq<real>)
    ensures |r| == |NumericalFeatures|
  {
    [ e.pclass as real, e.age, e.sibSp as real, e.parch as real, e.fare,
      e.family.size as real, e.family.isAlone as real, e.family.small as real,
      e.family.large as real, e.ageClass, e.farePerPerson, e.hasCabin as real,
      e.sexBinary as real ]
  }

  /** The values of categorical column `c` over all rows. */
  function Column(es: seq<Engineered>, c: nat): (col: seq<string>)
    requires c < |CategoricalFeatures|
    ensures |col| == |es|
    ensures forall i :: 0 <= i < |es| ==> col[i] == CategoricalValues(es[i])[c]
  {
    seq(|es|, i requires 0 <= i < |es| => CategoricalValues(es[i])[c])
  }

  /** Frame-level statistics `create_features` computes from whatever frame it
      is given: the fill values, and the inner `qcut` quantiles (20%, 40%, 60%
      and 80%) of the filled fares. */
  datatype Statistics = Statistics(
    fill: seq<Passenger> -> FillValues,
    fareQuantiles: seq<real> -> (real, real, real, real))

  datatype PrepareError =
    | NoEmbarkedMode                   // Embarked.mode()[0] with no port in the frame: KeyError
    | NonUniqueFareEdges               // pd.qcut: "Bin edges must be unique"
    | MissingEncoder(column: string)   // self.label_encoders[col]: KeyError
    | NoClasses(column: string)        // classes_[0] on an empty encoder: IndexError

  type Encoders = map<string, seq<string>>

  /** The matrix handed to the scaler (one row per passenger) and, at training,
      the fitted encoders. */
  datatype Prepared = Prepared(rows: seq<seq<real>>, encoders: Encoders)

  /** The Fare column after `fillna`. */
  function FilledFares(frame: seq<Passenger>, fill: FillValues): (fares: seq<real>)
    ensures |fares| == |frame|
    ensures forall i :: 0 <= i < |frame| ==> fares[i] == frame[i].fare.GetOr(fill.fare)
  {
    seq(|frame|, i requires 0 <= i < |frame| => frame[i].fare.GetOr(fill.fare))
  }

  function Least(xs: seq<real>): (m: real)
    requires |xs| > 0
    ensures m in xs
    ensures forall i :: 0 <= i < |xs| ==> m <= xs[i]
  {
    if |xs| == 1 then xs[0]
    else
      var m := Least(xs[1..]);
      if xs[0] <= m then xs[0] else m
  }

  function Greatest(xs: seq<real>): (m: real)
    requires |xs| > 0
    ensures m in xs
    ensures forall i :: 0 <= i < |xs| ==> xs[i] <= m
  {
    if |xs| == 1 then xs[0]
    else
      var m := Greatest(xs[1..]);
      if m <= xs[0] then xs[0] else m
  }

  /** The six edges of `pd.qcut(Fare, q=5)`: the 0%, 20%, ..., 100% quantiles of
      the filled fares, so the outer two are the smallest and largest fare. */
  function FareEdges(frame: seq<Passenger>, stats: Statistics): (edges: seq<real>)
    requires |frame| > 0
    ensures |edges| == 6
    ensures var fares := FilledFares(frame, stats.fill(frame));
            && edges[0] in fares && edges[5] in fares
            && forall i :: 0 <= i < |frame| ==> edges[0] <= fares[i] <= edges[5]
  {
    var fares := FilledFares(frame, stats.fill(frame));
    var q := stats.fareQuantiles(fares);
    [Least(fares), q.0, q.1, q.2, q.3, Greatest(fares)]
  }

  /** `create_features` on a whole frame: the port fill raises first, then
      `qcut`; on success every row has a fare bin, since `qcut` includes the
      lowest fare in the first bin. Name and Cabin are taken to be string
      columns, so their `.str` accessors never raise. */
  function Engineer(frame: seq<Passenger>, hasCabinColumn: bool, stats: Statistics): (r: Result<seq<Engineered>, PrepareError>)
    ensures !HasEmbarked(frame) ==> r == Err(NoEmbarkedMode)
    ensures HasEmbarked(frame) ==> (r.Ok? <==> ValidFareEdges(FareEdges(frame, stats)))
    ensures HasEmbarked(frame) && r.Err? ==> r.error == NonUniqueFareEdges
    ensures r.Ok? ==> |r.value| == |frame|
    ensures r.Ok? ==> forall i :: 0 <= i < |frame| ==>
              r.value[i] == CreateFeatures(frame[i], hasCabinColumn, stats.fill(frame), FareEdges(frame, stats))
    ensures r.Ok? ==> forall i :: 0 <= i < |frame| ==> r.value[i].fareBin.Some?
  {
    if !HasEmbarked(frame) then Err(NoEmbarkedMode)
    else
      var edges := FareEdges(frame, stats);
      if !ValidFareEdges(edges) then Err(NonUniqueFareEdges)
      else Ok(EngineerRows(frame, hasCabinColumn, stats.fill(frame), edges))
  }

  function EngineerRows(frame: seq<Passenger>, hasCabinColumn: bool, fill: FillValues, edges: seq<real>): (es: seq<Engineered>)
    requires ValidFareEdges(edges)
    requires forall i :: 0 <= i < |frame| ==> edges[0] <= frame[i].fare.GetOr(fill.fare) <= edges[5]
    ensures |es| == |frame|
    ensures forall i :: 0 <= i < |frame| ==> es[i] == CreateFeatures(frame[i], hasCabinColumn, fill, edges)
    ensures forall i :: 0 <= i < |frame| ==> es[i].fareBin.Some?
  {
    seq(|frame|, i requires 0 <= i < |frame| => CreateFeatures(frame[i], hasCabinColumn, fill, edges))
  }

  /** Row `i` of the matrix: numerical cells, then the five codes. */
  function Row(e: Engineered, codes: seq<seq<nat>>, i: nat): (row: seq<real>)
    requires |codes| == 5 && forall c :: 0 <= c < 5 ==> i < |codes[c]|
    ensures |row| == 18
    ensures row[..13] == NumericalValues(e)
    ensures forall c :: 0 <= c < 5 ==> row[13 + c] == codes[c][i] as real
  {
    NumericalValues(e) + seq(5, c requires 0 <= c < 5 => codes[c][i] as real)
  }

  function Assemble(es: seq<Engineered>, codes: seq<seq<nat>>): (rows: seq<seq<real>>)
    requires |codes| == 5 && forall c :: 0 <= c < 5 ==> |codes[c]| == |es|
    ensures |rows| == |es|
  {
    seq(|es|, i requires 0 <= i < |es| => Row(es[i], codes, i))
  }

  /** The encoders `fit_transform` leaves behind, one per categorical column. */
  function FitEncoders(es: seq<Engineered>): (enc: Encoders)
    ensures enc.Keys == set c | c in CategoricalFeatures
    ensures forall c :: 0 <= c < 5 ==> enc[CategoricalFeatures[c]] == Fit(Column(es, c))
  {
    map[ "Embarked" := Fit(Column(es, 0)),
         "Title" := Fit(Column(es, 1)),
         "AgeGroup" := Fit(Column(es, 2)),
         "FareBin" := Fit(Column(es, 3)),
         "CabinDeck" := Fit(Column(es, 4)) ]
  }

  /** Each fitted encoder holds its column's distinct values, sorted: a
      string is a class exactly when some row has it in that column. */
  lemma EncoderClasses(es: seq<Engineered>, c: nat)
    requires c < 5
    ensures StrictlySorted(FitEncoders(es)[CategoricalFeatures[c]])
    ensures forall v :: v in FitEncoders(es)[CategoricalFeatures[c]] <==>
              exists i :: 0 <= i < |es| && CategoricalValues(es[i])[c] == v
  {
    var col := Column(es, c);
    forall v | v in col
      ensures exists i :: 0 <= i < |es| && CategoricalValues(es[i])[c] == v
    {
      var i :| 0 <= i < |col| && col[i] == v;
    }
    forall v | exists i :: 0 <= i < |es| && CategoricalValues(es[i])[c] == v
      ensures v in col
    {
      var i :| 0 <= i < |es| && CategoricalValues(es[i])[c] == v;
      assert col[i] == v;
    }
  }

  function TrainingCodes(es: seq<Engineered>): (codes: seq<seq<nat>>)
    ensures |codes| == 5 && forall c :: 0 <= c < 5 ==> codes[c] == FitTransform(Column(es, c))
  {
    seq(5, c requires 0 <= c < 5 => FitTransform(Column(es, c)))
  }

  /** The training matrix and the encoders fitted on the engineered rows. */
  function Training(es: seq<Engineered>): (p: Prepared)
    ensures |p.rows| == |es|
    ensures forall i :: 0 <= i < |es| ==> |p.rows[i]| == |FeatureNames()|
    ensures p.encoders.Keys == set c | c in CategoricalFeatures
  {
    var codes := TrainingCodes(es);
    var rows := Assemble(es, codes);
    assert forall i :: 0 <= i < |es| ==> rows[i] == Row(es[i], codes, i);
    Prepared(rows, FitEncoders(es))
  }

  /** `prepare_data(df, is_training=True)` up to the scaler. */
  function PrepareTraining(frame: seq<Passenger>, hasCabinColumn: bool, stats: Statistics): (r: Result<Prepared, PrepareError>)
    ensures !HasEmbarked(frame) ==> r == Err(NoEmbarkedMode)
    ensures HasEmbarked(frame) ==> (r.Err? <==> !ValidFareEdges(FareEdges(frame, stats)))
    ensures HasEmbarked(frame) && r.Err? ==> r.error == NonUniqueFareEdges
    ensures r.Ok? ==> |r.value.rows| == |frame|
    ensures r.Ok? ==> forall i :: 0 <= i < |frame| ==> |r.value.rows[i]| == |FeatureNames()|
    ensures r.Ok? ==> r.value.encoders.Keys == set c | c in CategoricalFeatures
  {
    var engineered := Engineer(frame, hasCabinColumn, stats);
    if engineered.Err? then Err(engineered.error)
    else Ok(Training(engineered.value))
  }

  /** `inverse_transform` of one matrix cell: the class whose position the cell
      holds, if it holds a position at all. */
  function Decode(classes: seq<string>, cell: real): Option<string> {
    if cell == cell.Floor as real && 0 <= cell.Floor < |classes| then Some(classes[cell.Floor]) else None
  }

  /** Every categorical cell of the training matrix decodes, through the fitted
      encoder, back to the row's own category string. */
  lemma TrainingCodesRoundTrip(frame: seq<Passenger>, hasCabinColumn: bool, stats: Statistics, i: nat, c: nat)
    requires PrepareTraining(frame, hasCabinColumn, stats).Ok?
    requires i < |frame| && c < 5
    ensures var p := PrepareTraining(frame, hasCabinColumn, stats).value;
            Decode(p.encoders[CategoricalFeatures[c]], p.rows[i][13 + c])
              == Some(CategoricalValues(Engineer(frame, hasCabinColumn, stats).value[i])[c])
  {
    var es := Engineer(frame, hasCabinColumn, stats).value;
    RowsRoundTrip(es, i, c);
  }

  lemma RowsRoundTrip(es: seq<Engineered>, i: nat, c: nat)
    requires i < |es| && c < 5
    ensures Decode(FitEncoders(es)[CategoricalFeatures[c]], Assemble(es, TrainingCodes(es))[i][13 + c])
              == Some(CategoricalValues(es[i])[c])
  {
    var codes := TrainingCodes(es);
    var rows := Assemble(es, codes);
    assert rows[i] == Row(es[i], codes, i);
    assert rows[i][13 + c] == codes[c][i] as real;
    assert Fit(Column(es, c))[codes[c][i]] == Column(es, c)[i];
  }

  /** The fallback transform of column `c` with the stored encoders. */
  function InferenceColumn(es: seq<Engineered>, enc: Encoders, c: nat): (r: Result<seq<nat>, PrepareError>)
    requires c < 5
    ensures CategoricalFeatures[c] !in enc ==> r == Err(MissingEncoder(CategoricalFeatures[c]))
    ensures r.Ok? ==> |r.value| == |es|
    ensures r.Ok? ==> forall i :: 0 <= i < |es| ==>
              Some(r.value[i]) == TransformWithFallback(enc[CategoricalFeatures[c]], Column(es, c)[i])
  {
    var name := CategoricalFeatures[c];
    if name !in enc then Err(MissingEncoder(name))
    else
      match TransformColumn(enc[name], Column(es, c))
      case None => Err(NoClasses(name))
      case Some(codes) => Ok(codes)
  }

  /** The columns `c` to 4, stopping at the first one that raises. */
  function InferenceCodes(es: seq<Engineered>, enc: Encoders, c: nat): (r: Result<seq<seq<nat>>, PrepareError>)
    requires c <= 5
    ensures r.Ok? ==> |r.value| == 5 - c
    ensures r.Ok? ==> forall k :: 0 <= k < 5 - c ==> InferenceColumn(es, enc, c + k) == Ok(r.value[k])
    ensures r.Err? ==> exists k :: c <= k < 5 && InferenceColumn(es, enc, k).Err?
    decreases 5 - c
  {
    if c == 5 then Ok([])
    else
      match InferenceColumn(es, enc, c)
      case Err(e) => Err(e)
      case Ok(col) =>
        match InferenceCodes(es, enc, c + 1)
        case Err(e) => Err(e)
        case Ok(rest) => Ok([col] + rest)
  }

  /** `prepare_data(df, is_training=False)` up to the scaler. The fill values
      and fare edges are recomputed from the inference frame itself. */
  function PrepareInference(frame: seq<Passenger>, hasCabinColumn: bool, stats: Statistics, enc: Encoders): (r: Result<seq<seq<real>>, PrepareError>)
    ensures !HasEmbarked(frame) ==> r == Err(NoEmbarkedMode)
    ensures HasEmbarked(frame) && !ValidFareEdges(FareEdges(frame, stats)) ==> r == Err(NonUniqueFareEdges)
    ensures r.Ok? ==> |r.value| == |frame|
    ensures r.Ok? ==> forall i :: 0 <= i < |frame| ==> |r.value[i]| == |FeatureNames()|
  {
    var engineered := Engineer(frame, hasCabinColumn, stats);
    if engineered.Err? then Err(engineered.error)
    else Inference(engineered.value, enc)
  }

  /** The inference matrix of engineered rows under the stored encoders. */
  function Inference(es: seq<Engineered>, enc: Encoders): (r: Result<seq<seq<real>>, PrepareError>)
    ensures r.Ok? ==> |r.value| == |es|
    ensures r.Ok? ==> forall i :: 0 <= i < |es| ==> |r.value[i]| == |FeatureNames()|
  {
    match InferenceCodes(es, enc, 0)
    case Err(e) => Err(e)
    case Ok(codes) =>
      var rows := Assemble(es, codes);
      assert forall i :: 0 <= i < |es| ==> rows[i] == Row(es[i], codes, i);
      Ok(rows)
  }

  /** A single passenger can never be prepared on its own: with a port, its
      fare is both the lowest and the highest, so the `qcut` edges repeat. */
  lemma SinglePassengerFails(p: Passenger, hasCabinColumn: bool, stats: Statistics, enc: Encoders)
    ensures PrepareTraining([p], hasCabinColumn, stats).Err?
    ensures PrepareInference([p], hasCabinColumn, stats, enc).Err?
  {
    if HasEmbarked([p]) {
      var fares := FilledFares([p], stats.fill([p]));
      var edges := FareEdges([p], stats);
      assert fares == [fares[0]];
      assert edges[0] == edges[5];
    }
  }

  /** Every code the inference path produces lies in [0, number of classes):
      a seen category decodes to itself and an unseen one to `classes_[0]`. */
  lemma InferenceCodesInRange(frame: seq<Passenger>, hasCabinColumn: bool, stats: Statistics, enc: Encoders, i: nat, c: nat)
    requires PrepareInference(frame, hasCabinColumn, stats, enc).Ok?
    requires i < |frame| && c < 5
    ensures CategoricalFeatures[c] in enc
    ensures var classes := enc[CategoricalFeatures[c]];
            var cell := PrepareInference(frame, hasCabinColumn, stats, enc).value[i][13 + c];
            var value := CategoricalValues(Engineer(frame, hasCabinColumn, stats).value[i])[c];
            && Decode(classes, cell).Some?
            && (value in classes ==> Decode(classes, cell) == Some(value))
            && (value !in classes ==> Decode(classes, cell) == Some(classes[0]))
  {
    var es := Engineer(frame, hasCabinColumn, stats).value;
    AssembledCodeInRange(es, enc, i, c);
  }

  /** The same, for engineered rows whose fallback transform succeeded. */
  lemma AssembledCodeInRange(es: seq<Engineered>, enc: Encoders, i: nat, c: nat)
    requires InferenceCodes(es, enc, 0).Ok?
    requires i < |es| && c < 5
    ensures CategoricalFeatures[c] in enc
    ensures var classes := enc[CategoricalFeatures[c]];
            var cell := Assemble(es, InferenceCodes(es, enc, 0).value)[i][13 + c];
            var value := CategoricalValues(es[i])[c];
            && Decode(classes, cell).Some?
            && (value in classes ==> Decode(classes, cell) == Some(value))
            && (value !in classes ==> Decode(classes, cell) == Some(classes[0]))
  {
    var codes := InferenceCodes(es, enc, 0).value;
    assert InferenceColumn(es, enc, c) == Ok(codes[c]);
    assert Some(codes[c][i]) == TransformWithFallback(enc[CategoricalFeatures[c]], Column(es, c)[i]);
    var rows := Assemble(es, codes);
    assert rows[i] == Row(es[i], codes, i);
    assert rows[i][13 + c] == codes[c][i] as real;
  }

  /** Training and serving agree: running the inference path on the training
      frame with the encoders training produced gives the training matrix. */
  lemma TrainServeConsistent(frame: seq<Passenger>, hasCabinColumn: bool, stats: Statistics)
    requires PrepareTraining(frame, hasCabinColumn, stats).Ok?
    ensures var p := PrepareTraining(frame, hasCabinColumn, stats).value;
            PrepareInference(frame, hasCabinColumn, stats, p.encoders) == Ok(p.rows)
  {
    var es := Engineer(frame, hasCabinColumn, stats).value;
    InferenceCodesAfterFit(es);
    assert PrepareInference(frame, hasCabinColumn, stats, FitEncoders(es))
        == Ok(Assemble(es, TrainingCodes(es)));
  }

  /** With the encoders fitted on the same rows, every column's fallback
      transform gives the training codes. */
  lemma InferenceCodesAfterFit(es: seq<Engineered>)
    ensures InferenceCodes(es, FitEncoders(es), 0) == Ok(TrainingCodes(es))
  {
    var enc := FitEncoders(es);
    var codes := TrainingCodes(es);
    forall c | 0 <= c < 5
      ensures InferenceColumn(es, enc, c) == Ok(codes[c])
    {
      TransformColumnAfterFit(Column(es, c));
    }
    InferenceCodesFrom(es, enc, codes, 0);
    assert codes[0..] == codes;
  }

  lemma {:induction false} InferenceCodesFrom(es: seq<Engineered>, enc: Encoders, codes: seq<seq<nat>>, c: nat)
    requires c <= 5 && |codes| == 5
    requires forall k :: 0 <= k < 5 ==> InferenceColumn(es, enc, k) == Ok(codes[k])
    ensures InferenceCodes(es, enc, c) == Ok(codes[c..])
    decreases 5 - c
  {
    if c < 5 {
      InferenceCodesFrom(es, enc, codes, c + 1);
      assert codes[c..] == [codes[c]] + codes[c + 1..];
    }
  }

  /** An inference row with a missing Age gets the median of the inference
      frame, not a value remembered from training. */
  lemma InferenceRecomputesFill(frame: seq<Passenger>, hasCabinColumn: bool, stats: Statistics, enc: Encoders, i: nat)
    requires PrepareInference(frame, hasCabinColumn, stats, enc).Ok?
    requires i < |frame| && frame[i].age.None?
    ensures PrepareInference(frame, hasCabinColumn, stats, enc).value[i][1] == stats.fill(frame).age
  {
    var es := Engineer(frame, hasCabinColumn, stats).value;
    AssembledAge(es, InferenceCodes(es, enc, 0).value, i);
  }

  /** Cell 1 of an assembled row is the row's filled age. */
  lemma AssembledAge(es: seq<Engineered>, codes: seq<seq<nat>>, i: nat)
    requires |codes| == 5 && forall c :: 0 <= c < 5 ==> |codes[c]| == |es|
    requires i < |es|
    ensures Assemble(es, codes)[i][1] == es[i].age
  {
    assert Assemble(es, codes)[i] == Row(es[i], codes, i);
    assert Row(es[i], codes, i)[1] == Row(es[i], codes, i)[..13][1];
  }
}

=== FILE: selection.dfy ===
/** Best-candidate selection. The main and minimal trainers scan their
    candidates in insertion order keeping one only when its accuracy is
    strictly greater than the best so far (which starts at 0); the
    XGBoost/LightGBM-only trainer compares its two models once. */
module Selection {
  import opened Wrappers

  /** What the selection loop promises: nothing is kept when no score exceeds
      0; otherwise the kept index has a maximal score and every earlier
      index a strictly smaller one. */
  ghost predicate IsSelected(scores: seq<real>, k: Option<nat>) {
    match k
    case None => forall i :: 0 <= i < |scores| ==> scores[i] <= 0.0
    case Some(b) =>
      && b < |scores|
      && scores[b] > 0.0
      && (forall i :: 0 <= i < |scores| ==> scores[i] <= scores[b])
      && (forall i :: 0 <= i < b ==> scores[i] < scores[b])
  }

  /** The loop `if accuracy > best: best = accuracy; keep this one` from
      position `i` on, with `best` kept so far. */
  function Scan(scores: seq<real>, i: nat, kept: Option<nat>, best: real): (Option<nat>, real)
    requires i <= |scores|
    decreases |scores| - i
  {
    if i == |scores| then (kept, best)
    else if scores[i] > best then Scan(scores, i + 1, Some(i), scores[i])
    else Scan(scores, i + 1, kept, best)
  }

  /** The index the loop keeps, starting from `best_accuracy = 0`. */
  function SelectBest(scores: seq<real>): Option<nat> {
    Scan(scores, 0, None, 0.0).0
  }

  /** The best accuracy the loop reports. */
  function BestScore(scores: seq<real>): real {
    Scan(scores, 0, None, 0.0).1
  }

  ghost predicate ScanInvariant(scores: seq<real>, i: nat, kept: Option<nat>, best: real) {
    && i <= |scores|
    && (kept.None? ==> best == 0.0 && forall k :: 0 <= k < i ==> scores[k] <= 0.0)
    && (kept.Some? ==>
          && kept.value < i
          && best == scores[kept.value]
          && best > 0.0
          && (forall k :: 0 <= k < i ==> scores[k] <= best)
          && (forall k :: 0 <= k < kept.value ==> scores[k] < best))
  }

  lemma {:induction false} ScanCorrect(scores: seq<real>, i: nat, kept: Option<nat>, best: real)
    requires ScanInvariant(scores, i, kept, best)
    ensures var r := Scan(scores, i, kept, best);
            IsSelected(scores, r.0) && r.1 == (if r.0.Some? then scores[r.0.value] else 0.0)
    decreases |scores| - i
  {
    if i < |scores| {
      if scores[i] > best {
        ScanCorrect(scores, i + 1, Some(i), scores[i]);
      } else {
        ScanCorrect(scores, i + 1, kept, best);
      }
    }
  }

  /** The loop keeps exactly the candidate the specification describes, and
      reports its accuracy (0 when nothing is kept). */
  lemma SelectBestSpec(scores: seq<real>)
    ensures IsSelected(scores, SelectBest(scores))
    ensures BestScore(scores) == if SelectBest(scores).Some? then scores[SelectBest(scores).value] else 0.0
  {
    ScanCorrect(scores, 0, None, 0.0);
  }

  /** The specification leaves no choice: ties go to the earliest candidate. */
  lemma IsSelectedUnique(scores: seq<real>, k1: Option<nat>, k2: Option<nat>)
    requires IsSelected(scores, k1) && IsSelected(scores, k2)
    ensures k1 == k2
  {
  }

  // ---------------------------------------------------------------------------
  // The main trainer: five candidates in a fixed order
  // ---------------------------------------------------------------------------

  const MainCandidates: seq<string> := ["logistic_regression", "random_forest", "xgboost", "lightgbm", "ensemble"]

  /** Held-out accuracy of each of the main trainer's candidates. */
  datatype MainScores = MainScores(lr: real, rf: real, xgb: real, lgb: real, ensemble: real)

  function MainAccuracies(s: MainScores): (r: seq<real>)
    ensures |r| == |MainCandidates|
  {
    [s.lr, s.rf, s.xgb, s.lgb, s.ensemble]
  }

  /** Reading `self.best_model_name` when the loop never assigned it. */
  datatype SelectError = NoBestModelName

  /** The main trainer's choice: the position in `MainCandidates` of the kept
      model, or the AttributeError raised when none beat 0. */
  function SelectMain(s: MainScores): (r: Result<nat, SelectError>)
    ensures r.Err? <==> forall i :: 0 <= i < 5 ==> MainAccuracies(s)[i] <= 0.0
    ensures r.Ok? ==> r.value < 5 && IsSelected(MainAccuracies(s), Some(r.value))
  {
    SelectBestSpec(MainAccuracies(s));
    match SelectBest(MainAccuracies(s))
    case None => Err(NoBestModelName)
    case Some(k) => Ok(k)
  }

  /** Two equal best accuracies: the earlier candidate (random forest) wins. */
  lemma MainTieKeepsEarlier()
    ensures SelectMain(MainScores(0.80, 0.85, 0.85, 0.83, 0.85)) == Ok(1)
  {
    var s := MainScores(0.80, 0.85, 0.85, 0.83, 0.85);
    SelectBestSpec(MainAccuracies(s));
    IsSelectedUnique(MainAccuracies(s), SelectBest(MainAccuracies(s)), Some(1));
  }

  // ---------------------------------------------------------------------------
  // The minimal trainer: optional candidates, ROC-AUC reported only
  // ---------------------------------------------------------------------------

  /** The candidates of the minimal trainer, by whether XGBoost and LightGBM
      could be imported. */
  function MinimalCandidates(hasXgboost: bool, hasLightgbm: bool): (names: seq<string>)
    ensures |names| == 2 + (if hasXgboost then 1 else 0) + (if hasLightgbm then 1 else 0)
    ensures names[..2] == ["Logistic Regression", "Random Forest"]
    ensures "XGBoost" in names <==> hasXgboost
    ensures "LightGBM" in names <==> hasLightgbm
    ensures hasXgboost ==> names[2] == "XGBoost"
    ensures hasLightgbm ==> names[|names| - 1] == "LightGBM"
  {
    ["Logistic Regression", "Random Forest"]
      + (if hasXgboost then ["XGBoost"] else [])
      + (if hasLightgbm then ["LightGBM"] else [])
  }

  /** One candidate's line of the minimal trainer's report. */
  datatype Evaluation = Evaluation(name: string, accuracy: real, rocAuc: real)

  /** A failure while computing ROC-AUC leaves it at 0.0. */
  function Evaluate(name: string, accuracy: real, rocAuc: Option<real>): (e: Evaluation)
    ensures e.name == name && e.accuracy == accuracy
    ensures rocAuc.None? ==> e.rocAuc == 0.0
  {
    Evaluation(name, accuracy, rocAuc.GetOr(0.0))
  }

  function Accuracies(evals: seq<Evaluation>): (r: seq<real>)
    ensures |r| == |evals| && forall i :: 0 <= i < |evals| ==> r[i] == evals[i].accuracy
  {
    seq(|evals|, i requires 0 <= i < |evals| => evals[i].accuracy)
  }

  /** `evaluate_models` of the minimal trainer: the kept position, `None`
      leaving `best_model` at its initial None. */
  function SelectMinimal(evals: seq<Evaluation>): (r: Option<nat>)
    ensures IsSelected(Accuracies(evals), r)
  {
    SelectBestSpec(Accuracies(evals));
    SelectBest(Accuracies(evals))
  }

  /** ROC-AUC values, failed or not, never change which model is kept. */
  lemma RocAucIrrelevant(e1: seq<Evaluation>, e2: seq<Evaluation>)
    requires |e1| == |e2|
    requires forall i :: 0 <= i < |e1| ==> e1[i].accuracy == e2[i].accuracy
    ensures SelectMinimal(e1) == SelectMinimal(e2)
  {
    assert Accuracies(e1) == Accuracies(e2);
  }

  // ---------------------------------------------------------------------------
  // The XGBoost/LightGBM-only trainer
  // ---------------------------------------------------------------------------

  datatype Booster = XGBoost | LightGBM

  /** `xgb_acc > lgb_acc` where an accuracy may be NaN (`None`), which makes
      the comparison false. */
  predicate Greater(a: Option<real>, b: Option<real>) {
    a.Some? && b.Some? && a.value > b.value
  }

  /** `evaluate_models`: XGBoost only when strictly more accurate. */
  function ChooseBooster(xgbAcc: Option<real>, lgbAcc: Option<real>): (b: Booster)
    ensures b == XGBoost <==> Greater(xgbAcc, lgbAcc)
    ensures xgbAcc.Some? && lgbAcc.Some? && b == LightGBM ==> lgbAcc.value >= xgbAcc.value
    ensures xgbAcc == lgbAcc ==> b == LightGBM
  {
    if Greater(xgbAcc, lgbAcc) then XGBoost else LightGBM
  }
}

=== FILE: serving.dfy ===
/** The FastAPI backend: request validation, the 8-slot feature vector, the
    risk and confidence mapping, the ranking of importances, and what each
    endpoint answers given the server's state and the package on disk. */
module Serving {
  import opened Wrappers
  import opened Text
  import opened Artifact
  import Features
  import Emergency

  // ---------------------------------------------------------------------------
  // Request validation
  // ---------------------------------------------------------------------------

  /** A request body as parsed JSON: a required field may be absent (`None`);
      `name` and `cabin` may be absent or explicitly null. */
  datatype RawPassenger = RawPassenger(
    pclass: Option<int>,
    sex: Option<string>,
    age: Option<real>,
    sibsp: Option<int>,
    parch: Option<int>,
    fare: Option<real>,
    embarked: Option<string>,
    name: Option<Option<string>>,
    cabin: Option<Option<string>>)

  /** A validated `PassengerInput`. */
  datatype PassengerInput = PassengerInput(
    pclass: int,
    sex: string,
    age: real,
    sibsp: nat,
    parch: nat,
    fare: real,
    embarked: string,
    name: Option<string>,
    cabin: Option<string>)

  datatype InputField = PclassField | SexField | AgeField | SibspField | ParchField | FareField | EmbarkedField

  /** The required fields, in the order the schema declares them. */
  const FieldOrder: seq<InputField> := [PclassField, SexField, AgeField, SibspField, ParchField, FareField, EmbarkedField]

  datatype Problem = Missing | OutOfRange | NotAllowed

  datatype FieldError = FieldError(field: InputField, problem: Problem)

  /** The sex validator accepts a value whose lower-case form is one of the two. */
  predicate SexAllowed(v: string) {
    Lower(v) == "male" || Lower(v) == "female"
  }

  /** The embarked validator accepts a value whose upper-case form is a port. */
  predicate PortAllowed(v: string) {
    Upper(v) == "C" || Upper(v) == "Q" || Upper(v) == "S"
  }

  /** Whether the request carries the field at all. */
  predicate Supplied(raw: RawPassenger, f: InputField) {
    match f
    case PclassField => raw.pclass.Some?
    case SexField => raw.sex.Some?
    case AgeField => raw.age.Some?
    case SibspField => raw.sibsp.Some?
    case ParchField => raw.parch.Some?
    case FareField => raw.fare.Some?
    case EmbarkedField => raw.embarked.Some?
  }

  /** What is wrong with one field: the `Field` bounds, then the validators.
      Only the two string fields have validators that reject a value; the
      numeric fields can only be out of range. */
  function FieldProblem(raw: RawPassenger, f: InputField): (r: Option<Problem>)
    ensures r == Some(Missing) <==> !Supplied(raw, f)
    ensures r == Some(NotAllowed) ==> f == SexField || f == EmbarkedField
    ensures r == Some(OutOfRange) ==> f != SexField && f != EmbarkedField
  {
    match f
    case PclassField =>
      if raw.pclass.None? then Some(Missing) else if 1 <= raw.pclass.value <= 3 then None else Some(OutOfRange)
    case SexField =>
      if raw.sex.None? then Some(Missing) else if SexAllowed(raw.sex.value) then None else Some(NotAllowed)
    case AgeField =>
      if raw.age.None? then Some(Missing) else if 0.0 <= raw.age.value <= 100.0 then None else Some(OutOfRange)
    case SibspField =>
      if raw.sibsp.None? then Some(Missing) else if raw.sibsp.value >= 0 then None else Some(OutOfRange)
    case ParchField =>
      if raw.parch.None? then Some(Missing) else if raw.parch.value >= 0 then None else Some(OutOfRange)
    case FareField =>
      if raw.fare.None? then Some(Missing) else if raw.fare.value >= 0.0 then None else Some(OutOfRange)
    case EmbarkedField =>
      if raw.embarked.None? then Some(Missing) else if PortAllowed(raw.embarked.value) then None else Some(NotAllowed)
  }

  /** The errors of `fields`, one per failing field, in the given order. */
  function Errors(raw: RawPassenger, fields: seq<InputField>): (errs: seq<FieldError>)
    ensures forall e :: e in errs <==> e.field in fields && FieldProblem(raw, e.field) == Some(e.problem)
    ensures |errs| <= |fields|
    decreases |fields|
  {
    if |fields| == 0 then []
    else
      assert fields == [fields[0]] + fields[1..];
      var p := FieldProblem(raw, fields[0]);
      (if p.Some? then [FieldError(fields[0], p.value)] else []) + Errors(raw, fields[1..])
  }

  /** The constraints an accepted input satisfies, stated on the input itself. */
  predicate Valid(p: PassengerInput) {
    && 1 <= p.pclass <= 3
    && (p.sex == "male" || p.sex == "female")
    && 0.0 <= p.age <= 100.0
    && p.fare >= 0.0
    && (p.embarked == "C" || p.embarked == "Q" || p.embarked == "S")
  }

  lemma EveryFieldChecked()
    ensures forall f: InputField :: f in FieldOrder
  {
    forall f: InputField ensures f in FieldOrder {
      match f
      case PclassField => assert FieldOrder[0] == f;
      case SexField => assert FieldOrder[1] == f;
      case AgeField => assert FieldOrder[2] == f;
      case SibspField => assert FieldOrder[3] == f;
      case ParchField => assert FieldOrder[4] == f;
      case FareField => assert FieldOrder[5] == f;
      case EmbarkedField => assert FieldOrder[6] == f;
    }
  }

  /** Pydantic's validation of the request body: the normalised input, or every
      failing field (the server answers 422 with the list). */
  function Validate(raw: RawPassenger): (r: Result<PassengerInput, seq<FieldError>>)
    ensures r.Ok? <==> forall i :: 0 <= i < |FieldOrder| ==> FieldProblem(raw, FieldOrder[i]).None?
    ensures r.Err? ==> |r.error| > 0 && forall e :: e in r.error <==> FieldProblem(raw, e.field) == Some(e.problem)
    ensures r.Ok? ==> Valid(r.value)
    ensures r.Ok? ==> r.value.sex == Lower(raw.sex.value) && r.value.embarked == Upper(raw.embarked.value)
    ensures r.Ok? ==> r.value.name == raw.name.GetOr(Some("Unknown")) && r.value.cabin == raw.cabin.GetOr(None)
  {
    var errs := Errors(raw, FieldOrder);
    EveryFieldChecked();
    if |errs| > 0 then Err(errs)
    else
      assert FieldProblem(raw, FieldOrder[1]).None? && FieldProblem(raw, FieldOrder[6]).None?;
      assert FieldProblem(raw, FieldOrder[3]).None? && FieldProblem(raw, FieldOrder[4]).None?;
      Ok(PassengerInput(raw.pclass.value, Lower(raw.sex.value), raw.age.value, raw.sibsp.value as nat,
                        raw.parch.value as nat, raw.fare.value, Upper(raw.embarked.value),
                        raw.name.GetOr(Some("Unknown")), raw.cabin.GetOr(None)))
  }

  /** An input sent back as a request body. */
  function AsRaw(p: PassengerInput): RawPassenger {
    RawPassenger(Some(p.pclass), Some(p.sex), Some(p.age), Some(p.sibsp), Some(p.parch), Some(p.fare),
                 Some(p.embarked), Some(p.name), Some(p.cabin))
  }

  lemma LowerOfLowerCase(s: string)
    requires forall i :: 0 <= i < |s| ==> !IsUpper(s[i])
    ensures Lower(s) == s
  {
  }

  lemma UpperOfUpperCase(s: string)
    requires forall i :: 0 <= i < |s| ==> !IsLower(s[i])
    ensures Upper(s) == s
  {
  }

  lemma AllowedValuesNormal(p: PassengerInput)
    requires Valid(p)
    ensures Lower(p.sex) == p.sex && Upper(p.embarked) == p.embarked
  {
    if p.sex == "male" {
      LowerOfLowerCase("male");
    } else {
      LowerOfLowerCase("female");
    }
    if p.embarked == "C" {
      UpperOfUpperCase("C");
    } else if p.embarked == "Q" {
      UpperOfUpperCase("Q");
    } else {
      UpperOfUpperCase("S");
    }
  }

  /** Normalisation is idempotent: an accepted input validates to itself. */
  lemma ValidateRoundTrip(p: PassengerInput)
    requires Valid(p)
    ensures Validate(AsRaw(p)) == Ok(p)
  {
    var raw := AsRaw(p);
    AllowedValuesNormal(p);
    assert SexAllowed(p.sex) && PortAllowed(p.embarked);
    assert FieldProblem(raw, PclassField).None? && FieldProblem(raw, SexField).None?;
    assert FieldProblem(raw, AgeField).None? && FieldProblem(raw, SibspField).None?;
    assert FieldProblem(raw, ParchField).None? && FieldProblem(raw, FareField).None?;
    assert FieldProblem(raw, EmbarkedField).None?;
    assert forall i :: 0 <= i < |FieldOrder| ==> FieldProblem(raw, FieldOrder[i]).None?;
    var r := Validate(raw);
    assert r.Ok? && r.value.sex == p.sex && r.value.embarked == p.embarked;
  }

  /** Re-validating what validation produced changes nothing. */
  lemma ValidateIdempotent(raw: RawPassenger)
    requires Validate(raw).Ok?
    ensures Validate(AsRaw(Validate(raw).value)) == Validate(raw)
  {
    ValidateRoundTrip(Validate(raw).value);
  }

  /** The invalid body used by the API smoke test (class 5, sex "unknown",
      age -5, every other required field absent) is rejected, naming at least
      the class, the age and the missing fare, whatever the sex. */
  lemma InvalidExampleRejected(raw: RawPassenger)
    requires raw.pclass == Some(5) && raw.age == Some(-5.0)
    requires raw.sibsp.None? && raw.parch.None? && raw.fare.None? && raw.embarked.None?
    ensures Validate(raw).Err?
    ensures FieldError(PclassField, OutOfRange) in Validate(raw).error
    ensures FieldError(AgeField, OutOfRange) in Validate(raw).error
    ensures FieldError(FareField, Missing) in Validate(raw).error
  {
    assert FieldProblem(raw, FareField) == Some(Missing);
    assert FieldProblem(raw, AgeField) == Some(OutOfRange);
    assert FieldProblem(raw, PclassField) == Some(OutOfRange);
    assert FieldOrder[0] == PclassField;
  }

  // ---------------------------------------------------------------------------
  // The feature vector
  // ---------------------------------------------------------------------------

  /** `predict_survival`'s array, in the emergency trainer's column order:
      pclass, age, fare, family size, alone, sex_male, embarked_q, embarked_s. */
  function FeatureVector(p: PassengerInput): (v: seq<real>)
    ensures |v| == 8
    ensures v[3] == (p.sibsp + p.parch + 1) as real
    ensures v[4] == 1.0 <==> p.sibsp == 0 && p.parch == 0
  {
    var size := p.sibsp + p.parch + 1;
    [ p.pclass as real, p.age, p.fare, size as real,
      if size == 1 then 1.0 else 0.0,
      if Lower(p.sex) == "male" then 1.0 else 0.0,
      if Upper(p.embarked) == "Q" then 1.0 else 0.0,
      if Upper(p.embarked) == "S" then 1.0 else 0.0 ]
  }

  /** C is the baseline with both port flags clear; Q and S each set their own. */
  lemma PortFlags(p: PassengerInput)
    requires Valid(p)
    ensures p.embarked == "C" <==> FeatureVector(p)[6] == 0.0 && FeatureVector(p)[7] == 0.0
    ensures p.embarked == "Q" <==> FeatureVector(p)[6] == 1.0 && FeatureVector(p)[7] == 0.0
    ensures p.embarked == "S" <==> FeatureVector(p)[6] == 0.0 && FeatureVector(p)[7] == 1.0
    ensures FeatureVector(p)[6] + FeatureVector(p)[7] <= 1.0
    ensures FeatureVector(p)[5] == 1.0 <==> p.sex == "male"
  {
    AllowedValuesNormal(p);
  }

  /** The request as the record the trainers read. */
  function AsRecord(p: PassengerInput): Features.Passenger {
    Features.Passenger(p.pclass, p.name, p.sex, Some(p.age), p.sibsp, p.parch, Some(p.fare), p.cabin, Some(p.embarked))
  }

  /** Slot for slot, the served vector is the emergency trainer's feature row
      for the same passenger (whose fields are all present, so the medians
      never enter). */
  lemma ServingMatchesEmergency(p: PassengerInput, ageMedian: real, fareMedian: real)
    requires Valid(p)
    ensures FeatureVector(p) == Emergency.Vector(Emergency.Fill(AsRecord(p), ageMedian, fareMedian))
  {
    AllowedValuesNormal(p);
  }

  // ---------------------------------------------------------------------------
  // Risk and confidence
  // ---------------------------------------------------------------------------

  datatype Risk = LowRisk | MediumRisk | HighRisk

  function RiskName(r: Risk): string {
    match r
    case LowRisk => "Low Risk"
    case MediumRisk => "Medium Risk"
    case HighRisk => "High Risk"
  }

  /** 0 for the lowest risk, 2 for the highest. */
  function Severity(r: Risk): nat {
    match r
    case LowRisk => 0
    case MediumRisk => 1
    case HighRisk => 2
  }

  function RiskLevel(survival: real): (r: Risk)
    ensures r == LowRisk <==> survival >= 0.7
    ensures r == MediumRisk <==> 0.4 <= survival < 0.7
    ensures r == HighRisk <==> survival < 0.4
  {
    if survival >= 0.7 then LowRisk
    else if survival >= 0.4 then MediumRisk
    else HighRisk
  }

  /** A higher survival probability never gives a higher risk. */
  lemma RiskMonotone(p: real, q: real)
    requires p <= q
    ensures Severity(RiskLevel(q)) <= Severity(RiskLevel(p))
  {
  }

  function Max(a: real, b: real): (m: real)
    ensures m >= a && m >= b && (m == a || m == b)
  {
    if a >= b then a else b
  }

  /** The response body of one prediction. */
  datatype Prediction = Prediction(
    survived: int,
    survivalProbability: real,
    deathProbability: real,
    risk: Risk,
    confidence: real,
    contributions: Option<map<string, real>>)

  /** The fields computed from the classifier's outcome and probability pair
      `[p0, p1]`. */
  function Summarise(outcome: int, p0: real, p1: real, contributions: Option<map<string, real>>): (r: Prediction)
    ensures r.survivalProbability == p1 && r.deathProbability == p0
    ensures r.confidence >= r.survivalProbability && r.confidence >= r.deathProbability
    ensures r.confidence == p0 || r.confidence == p1
    ensures r.risk == RiskLevel(p1) && r.survived == outcome && r.contributions == contributions
  {
    Prediction(outcome, p1, p0, RiskLevel(p1), Max(p0, p1), contributions)
  }

  // ---------------------------------------------------------------------------
  // Ranking importances
  // ---------------------------------------------------------------------------

  /** Index `a` sorts before index `b` in the model's `argsort` of `imp`:
      ascending importance, equal importances by index. NumPy's default sort
      kind does not promise an order among equal values, so this tie order is
      a choice of the model. */
  predicate Before(imp: seq<real>, a: nat, b: nat)
    requires a < |imp| && b < |imp|
  {
    imp[a] < imp[b] || (imp[a] == imp[b] && a < b)
  }

  predicate Indices(imp: seq<real>, s: seq<nat>) {
    forall k :: 0 <= k < |s| ==> s[k] < |imp|
  }

  predicate Ascending(imp: seq<real>, s: seq<nat>)
    requires Indices(imp, s)
  {
    forall x, y :: 0 <= x < y < |s| ==> Before(imp, s[x], s[y])
  }

  /** Insert `i`, larger than every index in `s`, into the sorted `s`. */
  function InsertIndex(imp: seq<real>, i: nat, s: seq<nat>): (r: seq<nat>)
    requires i < |imp| && Indices(imp, s) && Ascending(imp, s)
    requires forall k :: 0 <= k < |s| ==> s[k] < i
    ensures |r| == |s| + 1
    ensures forall x: nat :: x in r <==> x in s || x == i
    ensures Indices(imp, r) && Ascending(imp, r)
    decreases |s|
  {
    if |s| == 0 then [i]
    else if imp[s[|s| - 1]] <= imp[i] then
      AppendAfterLast(imp, i, s);
      s + [i]
    else
      var front := InsertIndex(imp, i, s[..|s| - 1]);
      InsertBeforeLast(imp, i, s, front);
      front + [s[|s| - 1]]
  }

  /** An index no smaller in importance than the last one goes at the end. */
  lemma AppendAfterLast(imp: seq<real>, i: nat, s: seq<nat>)
    requires i < |imp| && Indices(imp, s) && Ascending(imp, s)
    requires forall k :: 0 <= k < |s| ==> s[k] < i
    requires |s| > 0 && imp[s[|s| - 1]] <= imp[i]
    ensures forall x: nat :: x in s + [i] <==> x in s || x == i
    ensures Indices(imp, s + [i]) && Ascending(imp, s + [i])
  {
    var r := s + [i];
    forall x, y | 0 <= x < y < |r| ensures Before(imp, r[x], r[y]) {
      if y == |s| {
        assert imp[s[x]] <= imp[s[|s| - 1]] by {
          if x < |s| - 1 {
            assert Before(imp, s[x], s[|s| - 1]);
          }
        }
      }
    }
  }

  /** An index less important than the last one goes into the front part,
      and the last index stays last. */
  lemma InsertBeforeLast(imp: seq<real>, i: nat, s: seq<nat>, front: seq<nat>)
    requires i < |imp| && Indices(imp, s) && Ascending(imp, s)
    requires forall k :: 0 <= k < |s| ==> s[k] < i
    requires |s| > 0 && imp[s[|s| - 1]] > imp[i]
    requires |front| == |s|
    requires forall x: nat :: x in front <==> x in s[..|s| - 1] || x == i
    requires Indices(imp, front) && Ascending(imp, front)
    ensures forall x: nat :: x in front + [s[|s| - 1]] <==> x in s || x == i
    ensures Indices(imp, front + [s[|s| - 1]]) && Ascending(imp, front + [s[|s| - 1]])
  {
    var init := s[..|s| - 1];
    var last := s[|s| - 1];
    assert s == init + [last];
    forall k | 0 <= k < |front| ensures Before(imp, front[k], last) {
      assert front[k] in front;
      if front[k] != i {
        var m :| 0 <= m < |init| && init[m] == front[k];
        assert s[m] == init[m];
      }
    }
    var r := front + [last];
    forall x, y | 0 <= x < y < |r| ensures Before(imp, r[x], r[y]) {
      if y == |front| {
        assert r[x] == front[x];
      }
    }
  }

  /** `np.argsort(imp)` of the first `n` entries. */
  function Argsort(imp: seq<real>, n: nat): (r: seq<nat>)
    requires n <= |imp|
    ensures |r| == n
    ensures forall x: nat :: x in r <==> x < n
    ensures Indices(imp, r) && Ascending(imp, r)
  {
    if n == 0 then []
    else
      var prev := Argsort(imp, n - 1);
      assert forall k :: 0 <= k < |prev| ==> prev[k] in prev;
      InsertIndex(imp, n - 1, prev)
  }

  function Reverse(s: seq<nat>): (r: seq<nat>)
    ensures |r| == |s|
    ensures forall k :: 0 <= k < |s| ==> r[k] == s[|s| - 1 - k]
  {
    seq(|s|, k requires 0 <= k < |s| => s[|s| - 1 - k])
  }

  /** `np.argsort(imp)[::-1]`. */
  function Ranking(imp: seq<real>): (r: seq<nat>)
    ensures |r| == |imp|
    ensures forall i: nat :: i in r <==> i < |imp|
    ensures Indices(imp, r)
  {
    var a := Argsort(imp, |imp|);
    var r := Reverse(a);
    assert forall i: nat :: i in r <==> i in a by {
      forall i: nat ensures i in r <==> i in a {
        if i in a {
          var k :| 0 <= k < |a| && a[k] == i;
          assert r[|a| - 1 - k] == i;
        }
      }
    }
    r
  }

  /** The ranking lists every index once, by non-increasing importance, equal
      importances with the later index first. */
  lemma RankingSpec(imp: seq<real>)
    ensures forall x, y :: 0 <= x < y < |imp| ==> Ranking(imp)[x] != Ranking(imp)[y]
    ensures forall x, y :: 0 <= x < y < |imp| ==> imp[Ranking(imp)[x]] >= imp[Ranking(imp)[y]]
    ensures forall x, y :: 0 <= x < y < |imp| && imp[Ranking(imp)[x]] == imp[Ranking(imp)[y]] ==>
              Ranking(imp)[x] > Ranking(imp)[y]
  {
    var a := Argsort(imp, |imp|);
    var r := Ranking(imp);
    forall x, y | 0 <= x < y < |imp|
      ensures r[x] != r[y] && imp[r[x]] >= imp[r[y]]
      ensures imp[r[x]] == imp[r[y]] ==> r[x] > r[y]
    {
      assert r[x] == a[|a| - 1 - x] && r[y] == a[|a| - 1 - y];
      assert Before(imp, a[|a| - 1 - y], a[|a| - 1 - x]);
    }
  }

  // ---------------------------------------------------------------------------
  // Dictionaries
  // ---------------------------------------------------------------------------

  /** A dict comprehension over `pairs`: a repeated key keeps its last value. */
  function Dict(pairs: seq<(string, real)>): (m: map<string, real>)
    ensures forall k :: k in m <==> exists j :: 0 <= j < |pairs| && pairs[j].0 == k
    ensures |m| <= |pairs|
    decreases |pairs|
  {
    if |pairs| == 0 then map[]
    else
      var init := pairs[..|pairs| - 1];
      var last := pairs[|pairs| - 1];
      var m := Dict(init);
      assert forall j :: 0 <= j < |init| ==> init[j] == pairs[j];
      m[last.0 := last.1]
  }

  /** The value a key ends with is the one paired with its last occurrence. */
  lemma {:induction false} DictLastWins(pairs: seq<(string, real)>, j: nat)
    requires j < |pairs|
    requires forall l :: j < l < |pairs| ==> pairs[l].0 != pairs[j].0
    ensures pairs[j].0 in Dict(pairs) && Dict(pairs)[pairs[j].0] == pairs[j].1
    decreases |pairs|
  {
    if j < |pairs| - 1 {
      var init := pairs[..|pairs| - 1];
      assert init[j] == pairs[j];
      DictLastWins(init, j);
    }
  }

  // ---------------------------------------------------------------------------
  // Server state and endpoints
  // ---------------------------------------------------------------------------

  /** The attributes of the global `TitanicModelTrainer` the endpoints read.
      `modelName` is `None` while `best_model_name` has not been assigned: a
      fresh trainer does not have the attribute at all. */
  datatype Trainer = Trainer(bestModel: Option<Model>, featureNames: seq<string>, modelName: Option<string>)

  /** A trainer straight from its constructor. */
  const FreshTrainer := Trainer(None, [], None)

  function FromLoaded(l: Loaded): Trainer {
    Trainer(l.model, l.featureNames, Some(l.modelName))
  }

  /** Startup as the code does it: the global is bound to a fresh trainer
      before the package is read, and `load_model` assigns the attributes one
      key at a time, so a missing key leaves a half-loaded trainer behind. Only
      a missing file leaves the global unset. */
  function StartupAsWritten(file: Option<Package>): (state: Option<Trainer>)
    ensures state.Some? <==> file.Some?
    ensures file.Some? && LoadModel(file.value).Ok? ==> state == Some(FromLoaded(LoadModel(file.value).value))
  {
    if file.None? then None
    else
      var p := file.value;
      if p.model.None? then Some(FreshTrainer)
      else
        var t := FreshTrainer.(bestModel := p.model.value);
        if p.scaler.None? || p.labelEncoders.None? || p.featureNames.None? then Some(t)
        else
          var t' := t.(featureNames := p.featureNames.value);
          if p.modelName.None? then Some(t') else Some(t'.(modelName := Some(p.modelName.value)))
  }

  /** Startup as its messages describe it: a model is loaded exactly when the
      package could be read in full. */
  function Startup(file: Option<Package>): (state: Option<Trainer>)
    ensures state.Some? <==> file.Some? && LoadModel(file.value).Ok?
    ensures state.Some? ==> state.value == FromLoaded(LoadModel(file.value).value)
  {
    if file.None? then None
    else match LoadModel(file.value)
      case Err(_) => None
      case Ok(l) => Some(FromLoaded(l))
  }

  /** The two agree whenever the package is complete or the file is missing. */
  lemma StartupAgrees(file: Option<Package>)
    requires file.None? || LoadModel(file.value).Ok?
    ensures StartupAsWritten(file) == Startup(file)
  {
  }

  /** The HTTP errors the endpoints raise: 503, 400 and 500. */
  datatype Status = Unavailable | BadRequest | ServerError

  function Code(s: Status): nat {
    match s
    case Unavailable => 503
    case BadRequest => 400
    case ServerError => 500
  }

  /** `GET /health`. */
  function Health(state: Option<Trainer>): (loaded: bool)
    ensures loaded <==> state.Some?
  {
    state.Some?
  }

  /** `/health` says the model is loaded exactly when the file exists, even
      a package the model routes then reject; with the checked startup, exactly
      when the package is complete. */
  lemma HealthAfterStartup(file: Option<Package>)
    ensures Health(StartupAsWritten(file)) <==> file.Some?
    ensures Health(Startup(file)) <==> file.Some? && LoadModel(file.value).Ok?
  {
  }

  /** `np.argsort(importance)[::-1][:5]`. */
  function Top(imp: seq<real>): (top: seq<nat>)
    ensures |top| <= 5 && |top| <= |imp| && (|top| < 5 ==> |top| == |imp|)
    ensures forall t :: 0 <= t < |top| ==> top[t] == Ranking(imp)[t] && top[t] < |imp|
  {
    var order := Ranking(imp);
    if |order| < 5 then order else order[..5]
  }

  /** `{feature_names[i]: importance[i] for i in top}`, or the IndexError of
      an index past the names. */
  function Contributions(imp: seq<real>, names: seq<string>): (r: Result<map<string, real>, Status>)
    ensures r.Err? <==> exists t :: 0 <= t < |Top(imp)| && Top(imp)[t] >= |names|
    ensures r.Ok? ==> |r.value| <= 5
    ensures r.Ok? ==> forall k :: k in r.value <==> exists t :: 0 <= t < |Top(imp)| && names[Top(imp)[t]] == k
  {
    var top := Top(imp);
    if exists t :: 0 <= t < |top| && top[t] >= |names| then Err(ServerError)
    else
      var pairs := seq(|top|, t requires 0 <= t < |top| => (names[top[t]], imp[top[t]]));
      assert forall t :: 0 <= t < |top| ==> pairs[t].0 == names[top[t]];
      Ok(Dict(pairs))
  }

  /** The package `predict_survival` reads from disk on every request. */
  function ReadModel(file: Option<Package>): (r: Result<(Model, Scaler), Status>)
    ensures r.Ok? <==> file.Some? && file.value.model.Some? && file.value.model.value.Some?
                       && file.value.scaler.Some? && file.value.scaler.value.Some?
                       && file.value.scaler.value.value.nFeatures == 8
                       && file.value.model.value.value.nFeatures == 8
    ensures r.Ok? ==> r.value == (file.value.model.value.value, file.value.scaler.value.value)
  {
    if file.None? then Err(ServerError)
    else
      var p := file.value;
      if p.model.None? || p.scaler.None? then Err(ServerError)
      else if p.scaler.value.None? then Err(ServerError)
      else if p.scaler.value.value.nFeatures != 8 then Err(ServerError)
      else if p.model.value.None? || p.model.value.value.nFeatures != 8 then Err(ServerError)
      else Ok((p.model.value.value, p.scaler.value.value))
  }

  /** `POST /api/v1/predict`. The scaler's `transform` and the classifier's
      `predict`/`predict_proba` (outcome, p0, p1) are parameters. The
      contributions come from the trainer loaded at startup, the model and
      scaler from the file read now. */
  function Predict(state: Option<Trainer>, file: Option<Package>, p: PassengerInput,
                   transform: (Scaler, seq<real>) -> seq<real>,
                   classify: (Model, seq<real>) -> (int, real, real)): (r: Result<Prediction, Status>)
    ensures state.None? ==> r == Err(Unavailable)
    ensures state.Some? && ReadModel(file).Err? ==> r == Err(ServerError)
    ensures r.Err? ==> state.None? || r.error == ServerError
    ensures r.Ok? ==> (ReadModel(file).Ok? &&
              var (model, scaler) := ReadModel(file).value;
              var (outcome, p0, p1) := classify(model, transform(scaler, FeatureVector(p)));
              r.value.survived == outcome && r.value.survivalProbability == p1 && r.value.deathProbability == p0)
    ensures r.Ok? ==> r.value.risk == RiskLevel(r.value.survivalProbability)
    ensures r.Ok? ==> r.value.confidence >= r.value.survivalProbability && r.value.confidence >= r.value.deathProbability
    ensures r.Ok? ==> (r.value.contributions.Some? <==>
              state.value.bestModel.Some? && state.value.bestModel.value.importances.Some?)
    ensures r.Ok? && r.value.contributions.Some? ==> |r.value.contributions.value| <= 5
  {
    if state.None? then Err(Unavailable)
    else
      var x := FeatureVector(p);
      match ReadModel(file)
      case Err(e) => Err(e)
      case Ok((model, scaler)) =>
        var (outcome, p0, p1) := classify(model, transform(scaler, x));
        var best := state.value.bestModel;
        if best.Some? && best.value.importances.Some? then
          match Contributions(best.value.importances.value, state.value.featureNames)
          case Err(e) => Err(e)
          case Ok(c) => Ok(Summarise(outcome, p0, p1, Some(c)))
        else Ok(Summarise(outcome, p0, p1, None))
  }

  function PredictAll(state: Option<Trainer>, file: Option<Package>, ps: seq<PassengerInput>,
                      transform: (Scaler, seq<real>) -> seq<real>,
                      classify: (Model, seq<real>) -> (int, real, real)): (r: Result<seq<Prediction>, Status>)
    ensures r.Ok? <==> forall i :: 0 <= i < |ps| ==> Predict(state, file, ps[i], transform, classify).Ok?
    ensures r.Ok? ==> (|r.value| == |ps| &&
              forall i :: 0 <= i < |ps| ==> r.value[i] == Predict(state, file, ps[i], transform, classify).value)
    ensures r.Err? ==> exists i :: 0 <= i < |ps| && Predict(state, file, ps[i], transform, classify).Err?
                                   && Predict(state, file, ps[i], transform, classify).error == r.error
  {
    AllOk(p => Predict(state, file, p, transform, classify), ps)
  }

  /** Apply `f` to every element, stopping at the first error. */
  function AllOk<A, B, E(==)>(f: A -> Result<B, E>, xs: seq<A>): (r: Result<seq<B>, E>)
    ensures r.Ok? <==> forall i :: 0 <= i < |xs| ==> f(xs[i]).Ok?
    ensures r.Ok? ==> |r.value| == |xs| && forall i :: 0 <= i < |xs| ==> r.value[i] == f(xs[i]).value
    ensures r.Err? ==> exists i :: 0 <= i < |xs| && f(xs[i]).Err? && f(xs[i]).error == r.error
                                   && forall k :: 0 <= k < i ==> f(xs[k]).Ok?
    decreases |xs|
  {
    if |xs| == 0 then Ok([])
    else
      assert forall i :: 1 <= i < |xs| ==> xs[i] == xs[1..][i - 1];
      match f(xs[0])
      case Err(e) => Err(e)
      case Ok(first) =>
        match AllOk(f, xs[1..])
        case Err(e) =>
          var i :| 0 <= i < |xs[1..]| && f(xs[1..][i]).Err? && f(xs[1..][i]).error == e
                   && forall k :: 0 <= k < i ==> f(xs[1..][k]).Ok?;
          assert f(xs[i + 1]).Err? && f(xs[i + 1]).error == e && forall k :: 0 <= k < i + 1 ==> f(xs[k]).Ok?;
          Err(e)
        case Ok(rest) => Ok([first] + rest)
  }

  /** `POST /api/v1/predict/batch`: the count and the predictions in input
      order; any failure inside becomes a 500. */
  function Batch(state: Option<Trainer>, file: Option<Package>, ps: seq<PassengerInput>,
                 transform: (Scaler, seq<real>) -> seq<real>,
                 classify: (Model, seq<real>) -> (int, real, real)): (r: Result<(nat, seq<Prediction>), Status>)
    ensures state.None? ==> r == Err(Unavailable)
    ensures state.Some? ==> (r.Ok? <==> forall i :: 0 <= i < |ps| ==> Predict(state, file, ps[i], transform, classify).Ok?)
    ensures r.Err? && state.Some? ==> r.error == ServerError
    ensures r.Ok? ==> (r.value.0 == |ps| == |r.value.1| &&
              forall i :: 0 <= i < |ps| ==> r.value.1[i] == Predict(state, file, ps[i], transform, classify).value)
  {
    if state.None? then Err(Unavailable)
    else match PredictAll(state, file, ps, transform, classify)
      case Err(_) => Err(ServerError)
      case Ok(preds) => Ok((|preds|, preds))
  }

  datatype ModelInfo = ModelInfo(modelName: string, version: string, accuracy: real, featuresCount: nat, status: string)

  /** `GET /api/v1/model/info`; reading a `best_model_name` that was never
      assigned raises, which the server turns into a 500. */
  function Info(state: Option<Trainer>): (r: Result<ModelInfo, Status>)
    ensures state.None? ==> r == Err(Unavailable)
    ensures state.Some? ==> (r.Ok? <==> state.value.modelName.Some?)
    ensures r.Err? && state.Some? ==> r.error == ServerError
    ensures r.Ok? ==> r.value == ModelInfo(state.value.modelName.value, "2.0.0", 0.82, |state.value.featureNames|, "active")
  {
    if state.None? then Err(Unavailable)
    else if state.value.modelName.None? then Err(ServerError)
    else Ok(ModelInfo(state.value.modelName.value, "2.0.0", 0.82, |state.value.featureNames|, "active"))
  }

  datatype Metrics = Metrics(model: string, accuracy: real, precision: real, recall: real, f1: real, rocAuc: real, featuresUsed: nat)

  /** `GET /api/v1/model/metrics`: fixed figures, the model's name and the
      feature count. */
  function ModelMetrics(state: Option<Trainer>): (r: Result<Metrics, Status>)
    ensures state.None? ==> r == Err(Unavailable)
    ensures state.Some? ==> (r.Ok? <==> state.value.modelName.Some?)
    ensures r.Err? && state.Some? ==> r.error == ServerError
    ensures r.Ok? ==> r.value.model == state.value.modelName.value && r.value.featuresUsed == |state.value.featureNames|
  {
    if state.None? then Err(Unavailable)
    else if state.value.modelName.None? then Err(ServerError)
    else Ok(Metrics(state.value.modelName.value, 0.852, 0.84, 0.83, 0.83, 0.91, |state.value.featureNames|))
  }

  /** `GET /api/v1/visualizations/feature-importance`: every feature with its
      importance, in ranking order. */
  function Importance(state: Option<Trainer>): (r: Result<seq<(string, real)>, Status>)
    ensures state.None? ==> r == Err(Unavailable)
    ensures state.Some? ==> (r == Err(BadRequest) <==>
              state.value.bestModel.None? || state.value.bestModel.value.importances.None?)
    ensures r.Ok? ==>
              var imp := state.value.bestModel.value.importances.value;
              |imp| <= |state.value.featureNames| && |r.value| == |imp| &&
              forall k :: 0 <= k < |imp| ==>
                r.value[k] == (state.value.featureNames[Ranking(imp)[k]], imp[Ranking(imp)[k]])
    ensures r == Err(ServerError) <==> (state.Some? && state.value.bestModel.Some? &&
              state.value.bestModel.value.importances.Some? &&
              |state.value.bestModel.value.importances.value| > |state.value.featureNames|)
  {
    if state.None? then Err(Unavailable)
    else
      var best := state.value.bestModel;
      if best.None? || best.value.importances.None? then Err(BadRequest)
      else
        var imp := best.value.importances.value;
        var names := state.value.featureNames;
        var order := Ranking(imp);
        if |imp| > |names| then
          assert |imp| - 1 in order;
          Err(ServerError)
        else Ok(seq(|order|, k requires 0 <= k < |order| => (names[order[k]], imp[order[k]])))
  }

  /** The importance listing names every feature index once, by
      non-increasing importance. */
  lemma ImportanceOrdered(state: Option<Trainer>)
    requires Importance(state).Ok?
    ensures forall x, y :: 0 <= x < y < |Importance(state).value| ==>
              Importance(state).value[x].1 >= Importance(state).value[y].1
  {
    RankingSpec(state.value.bestModel.value.importances.value);
  }

  // ---------------------------------------------------------------------------
  // Scenarios
  // ---------------------------------------------------------------------------

  /** With no model loaded every endpoint but health answers 503, before any
      computation. */
  lemma NoModelUnavailable(file: Option<Package>, p: PassengerInput, ps: seq<PassengerInput>,
                           transform: (Scaler, seq<real>) -> seq<real>,
                           classify: (Model, seq<real>) -> (int, real, real))
    ensures Predict(None, file, p, transform, classify) == Err(Unavailable)
    ensures Batch(None, file, ps, transform, classify) == Err(Unavailable)
    ensures Info(None) == Err(Unavailable) && ModelMetrics(None) == Err(Unavailable)
    ensures Importance(None) == Err(Unavailable) && !Health(None)
  {
  }

  /** The main trainer's package holds a scaler fit on its own feature list;
      unless that list has exactly the serving vector's eight entries (the
      main trainer's has eighteen), every prediction fails with 500. */
  lemma MainPackageCannotPredict(state: Trainer, best: Model, scaler: Scaler, encoders: map<string, seq<string>>,
                                 names: seq<string>, name: string, p: PassengerInput,
                                 transform: (Scaler, seq<real>) -> seq<real>,
                                 classify: (Model, seq<real>) -> (int, real, real))
    requires scaler.nFeatures == |names| && |names| != 8
    ensures Predict(Some(state), Some(SaveMain(best, scaler, encoders, names, name)), p, transform, classify) == Err(ServerError)
  {
  }

  /** `fix_model.py`: the emergency package with the two keys `load_model`
      reads added. */
  function FixModel(p: Package): (q: Package)
    ensures Keys(q) == Keys(p) + {LabelEncodersKey, ModelNameKey}
  {
    p.(labelEncoders := Some(map[]), modelName := Some("XGBoost"))
  }

  /** The emergency package, once patched, loads at startup and serves
      predictions with contributions. */
  lemma PatchedEmergencyServes(model: Model, imp: seq<real>, p: PassengerInput,
                               transform: (Scaler, seq<real>) -> seq<real>,
                               classify: (Model, seq<real>) -> (int, real, real))
    requires model.nFeatures == 8 && model.importances == Some(imp) && |imp| == 8
    ensures var file := Some(FixModel(SaveEmergency(model, Scaler(8), Emergency.FeatureColumns)));
            Startup(file).Some? && Predict(Startup(file), file, p, transform, classify).Ok?
            && Predict(Startup(file), file, p, transform, classify).value.contributions.Some?
  {
    assert |Emergency.FeatureColumns| == 8;
    PatchedServes(model, imp, Emergency.FeatureColumns, p, transform, classify);
  }

  /** A patched emergency package with any eight feature names serves. */
  lemma PatchedServes(model: Model, imp: seq<real>, names: seq<string>, p: PassengerInput,
                      transform: (Scaler, seq<real>) -> seq<real>,
                      classify: (Model, seq<real>) -> (int, real, real))
    requires model.nFeatures == 8 && model.importances == Some(imp) && |imp| == 8 && |names| == 8
    ensures var file := Some(FixModel(SaveEmergency(model, Scaler(8), names)));
            Startup(file).Some? && Predict(Startup(file), file, p, transform, classify).Ok?
            && Predict(Startup(file), file, p, transform, classify).value.contributions.Some?
  {
    var pkg := FixModel(SaveEmergency(model, Scaler(8), names));
    assert pkg == Package(Some(Some(model)), Some(Some(Scaler(8))), Some(map[]), Some(names), Some("XGBoost"), None, None, None);
    assert LoadModel(pkg) == Ok(Loaded(Some(model), Some(Scaler(8)), map[], names, "XGBoost"));
    assert Startup(Some(pkg)) == Some(Trainer(Some(model), names, Some("XGBoost")));
    assert ReadModel(Some(pkg)) == Ok((model, Scaler(8)));
    ContributionsDefined(imp, names);
  }

  /** Contributions are defined whenever there is a name for every importance. */
  lemma ContributionsDefined(imp: seq<real>, names: seq<string>)
    requires |imp| <= |names|
    ensures Contributions(imp, names).Ok?
  {
    assert forall t :: 0 <= t < |Top(imp)| ==> Top(imp)[t] < |names|;
  }

  /** As written, the unpatched emergency package leaves the server reporting
      a loaded model whose info and predictions fail with 500; as its
      messages intend, the same package gives 503 ("Model not loaded"). */
  lemma HalfLoadedTrainer(model: Model, imp: seq<real>, p: PassengerInput,
                          transform: (Scaler, seq<real>) -> seq<real>,
                          classify: (Model, seq<real>) -> (int, real, real))
    requires model.nFeatures == 8 && model.importances == Some(imp) && |imp| == 8
    ensures var file := Some(SaveEmergency(model, Scaler(8), Emergency.FeatureColumns));
            && LoadModel(file.value) == Err(LabelEncodersKey)
            && Health(StartupAsWritten(file))
            && Info(StartupAsWritten(file)) == Err(ServerError)
            && Predict(StartupAsWritten(file), file, p, transform, classify) == Err(ServerError)
            && !Health(Startup(file))
            && Info(Startup(file)) == Err(Unavailable)
            && Predict(Startup(file), file, p, transform, classify) == Err(Unavailable)
  {
    var file := Some(SaveEmergency(model, Scaler(8), Emergency.FeatureColumns));
    assert StartupAsWritten(file) == Some(Trainer(Some(model), [], None));
    assert |Top(imp)| > 0 && Top(imp)[0] >= 0;
  }
}

=== FILE: text.dfy ===
/** Character classes, ASCII case mapping and Python's string order. */
module Text {

  /** The class `[A-Za-z]` of a Python regular expression. */
  predicate IsAsciiLetter(c: char) {
    ('A' <= c <= 'Z') || ('a' <= c <= 'z')
  }

  predicate IsUpper(c: char) { 'A' <= c <= 'Z' }

  predicate IsLower(c: char) { 'a' <= c <= 'z' }

  function LowerChar(c: char): (r: char)
    ensures !IsUpper(r)
    ensures IsUpper(c) ==> IsLower(r)
    ensures !IsUpper(c) ==> r == c
  {
    if IsUpper(c) then (c as int + 32) as char else c
  }

  function UpperChar(c: char): (r: char)
    ensures !IsLower(r)
    ensures IsLower(c) ==> IsUpper(r)
    ensures !IsLower(c) ==> r == c
  {
    if IsLower(c) then (c as int - 32) as char else c
  }

  /** `str.lower()` restricted to the ASCII letters. */
  function Lower(s: string): (r: string)
    ensures |r| == |s|
    ensures forall i :: 0 <= i < |r| ==> !IsUpper(r[i])
    ensures forall i :: 0 <= i < |s| && !IsUpper(s[i]) ==> r[i] == s[i]
  {
    seq(|s|, i requires 0 <= i < |s| => LowerChar(s[i]))
  }

  /** `str.upper()` restricted to the ASCII letters. */
  function Upper(s: string): (r: string)
    ensures |r| == |s|
    ensures forall i :: 0 <= i < |r| ==> !IsLower(r[i])
    ensures forall i :: 0 <= i < |s| && !IsLower(s[i]) ==> r[i] == s[i]
  {
    seq(|s|, i requires 0 <= i < |s| => UpperChar(s[i]))
  }

  /** Lowering an already lowered string changes nothing. */
  lemma LowerIdempotent(s: string)
    ensures Lower(Lower(s)) == Lower(s)
  {
  }

  /** Upper-casing an already upper-cased string changes nothing. */
  lemma UpperIdempotent(s: string)
    ensures Upper(Upper(s)) == Upper(s)
  {
  }

  /** Python's `<` on `str`: lexicographic by code point, a proper prefix first. */
  predicate StrLess(a: string, b: string)
    decreases |a|
  {
    if |a| == 0 then |b| > 0
    else |b| > 0 && (a[0] < b[0] || (a[0] == b[0] && StrLess(a[1..], b[1..])))
  }

  lemma {:induction false} StrLessIrreflexive(a: string)
    ensures !StrLess(a, a)
    decreases |a|
  {
    if |a| > 0 {
      StrLessIrreflexive(a[1..]);
    }
  }

  lemma {:induction false} StrLessTransitive(a: string, b: string, c: string)
    requires StrLess(a, b) && StrLess(b, c)
    ensures StrLess(a, c)
    decreases |a|
  {
    if |a| > 0 && a[0] == b[0] && b[0] == c[0] {
      StrLessTransitive(a[1..], b[1..], c[1..]);
    }
  }

  lemma {:induction false} StrLessTotal(a: string, b: string)
    requires a != b
    ensures StrLess(a, b) || StrLess(b, a)
    decreases |a|
  {
    if |a| > 0 && |b| > 0 && a[0] == b[0] {
      StrLessTotal(a[1..], b[1..]);
    }
  }

  lemma StrLessAsymmetric(a: string, b: string)
    requires StrLess(a, b)
    ensures !StrLess(b, a)
  {
    if StrLess(b, a) {
      StrLessTransitive(a, b, a);
      StrLessIrreflexive(a);
    }
  }
}

=== FILE: variants.dfy ===
/** The `create_features` shared by train_model_minimal.py and
    train_model_no_sklearn.py, and the feature-column choice in both
    scripts' `main`. The two scripts differ only in the labels they give
    the age bins: names in the first, the integers 0 to 4 in the second. */
module Variants {
  import opened Wrappers
  import Features
  import opened Frame
  import opened Dummies

  datatype AgeLabels = NamedLabels | IndexLabels

  /** The bin labels as they appear in the indicator column names. */
  function AgeLabelNames(labels: AgeLabels): (names: seq<string>)
    ensures |names| == 5
    ensures Distinct(names)
  {
    match labels
    case NamedLabels => ["Child", "Teen", "Adult", "Middle", "Senior"]
    case IndexLabels => ["0", "1", "2", "3", "4"]
  }

  /** One row after `create_features`, before the one-hot step. */
  datatype Row = Row(
    pclass: int,
    sex: string,
    age: real,
    sibSp: nat,
    parch: nat,
    fare: real,
    embarked: string,
    title: Option<string>,
    familySize: nat,
    isAlone: int,
    ageGroup: Option<string>,
    farePerPerson: real,
    hasCabin: int)

  /** `create_features` for one row, with the frame's median age and fare and
      modal port given as `fill`, in a frame that has a Cabin column
      (`CreateFrame` raises otherwise). */
  function CreateRow(p: Features.Passenger, fill: Features.FillValues, labels: AgeLabels): (r: Row)
    ensures r.age == p.age.GetOr(fill.age) && r.fare == p.fare.GetOr(fill.fare)
    ensures r.embarked == p.embarked.GetOr(fill.embarked)
    ensures r.title == Features.Title(p.name)
    ensures r.familySize == p.sibSp + p.parch + 1
    ensures r.isAlone == 1 <==> r.familySize == 1
    ensures r.isAlone == 0 || r.isAlone == 1
    ensures r.ageGroup.Some? <==> 0.0 < r.age <= 100.0
    ensures r.ageGroup.Some? ==> r.ageGroup.value in AgeLabelNames(labels)
    ensures r.farePerPerson * (r.familySize as real) == r.fare
    ensures r.hasCabin == 1 <==> p.cabin.Some?
  {
    var age := p.age.GetOr(fill.age);
    var fare := p.fare.GetOr(fill.fare);
    var size := p.sibSp + p.parch + 1;
    var bin := Features.AltAgeBin(age);
    Row(p.pclass, p.sex, age, p.sibSp, p.parch, fare, p.embarked.GetOr(fill.embarked),
        Features.Title(p.name), size, if size == 1 then 1 else 0,
        if bin.Some? then Some(AgeLabelNames(labels)[bin.value]) else None,
        Features.FarePerPerson(fare, size), Features.HasCabin(true, p.cabin))
  }

  /** `create_features` on a whole frame. Two reads raise `KeyError`:
      `Embarked.mode()[0]` when no row has a port, and `df['Cabin']` when the
      frame has no Cabin column (both scripts read it unguarded). Otherwise
      every row is filled with the frame's `fill`. Name is taken to be a
      string column. */
  function CreateFrame(frame: seq<Features.Passenger>, hasCabinColumn: bool, fill: Features.FillValues, labels: AgeLabels): (r: Option<seq<Row>>)
    ensures r.None? <==> !hasCabinColumn || forall i :: 0 <= i < |frame| ==> frame[i].embarked.None?
    ensures r.Some? ==> |r.value| == |frame|
    ensures r.Some? ==> forall i :: 0 <= i < |frame| ==> r.value[i] == CreateRow(frame[i], fill, labels)
  {
    if !Features.HasEmbarked(frame) || !hasCabinColumn then None
    else Some(seq(|frame|, i requires 0 <= i < |frame| => CreateRow(frame[i], fill, labels)))
  }

  /** Both scripts put a row in the same bin: the label is the bin's, whichever
      labelling is used, and everything else agrees. */
  lemma LabellingsAgree(p: Features.Passenger, fill: Features.FillValues, k: nat)
    requires k < 5
    ensures CreateRow(p, fill, NamedLabels).ageGroup == Some(AgeLabelNames(NamedLabels)[k])
            <==> CreateRow(p, fill, IndexLabels).ageGroup == Some(AgeLabelNames(IndexLabels)[k])
    ensures CreateRow(p, fill, NamedLabels).(ageGroup := None) == CreateRow(p, fill, IndexLabels).(ageGroup := None)
  {
    var named := AgeLabelNames(NamedLabels);
    var index := AgeLabelNames(IndexLabels);
    var bin := Features.AltAgeBin(p.age.GetOr(fill.age));
    if CreateRow(p, fill, NamedLabels).ageGroup == Some(named[k]) {
      assert named[bin.value] == named[k];
      assert bin.value == k;
    }
    if CreateRow(p, fill, IndexLabels).ageGroup == Some(index[k]) {
      assert index[bin.value] == index[k];
      assert bin.value == k;
    }
  }

  // ---------------------------------------------------------------------------
  // Column labels
  // ---------------------------------------------------------------------------

  /** The columns the CSV brings and the ones `create_features` adds. */
  datatype Field =
    | PassengerId | Survived | Pclass | Name | Sex | Age | SibSp | Parch | Ticket | Fare | Cabin | Embarked
    | Title | FamilySize | IsAlone | AgeGroup | FarePerPerson | HasCabin

  function FieldName(f: Field): (name: string)
    ensures '_' !in name
  {
    match f
    case PassengerId => "PassengerId"
    case Survived => "Survived"
    case Pclass => "Pclass"
    case Name => "Name"
    case Sex => "Sex"
    case Age => "Age"
    case SibSp => "SibSp"
    case Parch => "Parch"
    case Ticket => "Ticket"
    case Fare => "Fare"
    case Cabin => "Cabin"
    case Embarked => "Embarked"
    case Title => "Title"
    case FamilySize => "FamilySize"
    case IsAlone => "IsAlone"
    case AgeGroup => "AgeGroup"
    case FarePerPerson => "FarePerPerson"
    case HasCabin => "HasCabin"
  }

  /** A column of the processed frame: a plain field, or the indicator
      `get_dummies` made for one category of an encoded field. */
  datatype Label = Base(field: Field) | Indicator(source: Field, category: string)

  function LabelName(l: Label): string {
    match l
    case Base(f) => FieldName(f)
    case Indicator(f, c) => DummyName(FieldName(f), c)
  }

  /** Labels carry the frame's names faithfully: a plain field's name never
      coincides with an indicator's, because only the latter has an
      underscore. */
  lemma BaseNeverIndicator(f: Field, g: Field, c: string)
    ensures LabelName(Base(f)) != LabelName(Indicator(g, c))
  {
    var d := DummyName(FieldName(g), c);
    assert d[|FieldName(g)|] == '_';
  }

  /** The columns of the Titanic CSV, in file order. */
  const CsvColumns: seq<Label> :=
    [Base(PassengerId), Base(Survived), Base(Pclass), Base(Name), Base(Sex), Base(Age),
     Base(SibSp), Base(Parch), Base(Ticket), Base(Fare), Base(Cabin), Base(Embarked)]

  /** The columns `create_features` appends, in the order it adds them. */
  const AddedColumns: seq<Label> :=
    [Base(Title), Base(FamilySize), Base(IsAlone), Base(AgeGroup), Base(FarePerPerson), Base(HasCabin)]

  /** The columns `get_dummies` replaces by indicators. */
  const EncodedColumns: seq<Label> := [Base(Sex), Base(Embarked), Base(Title), Base(AgeGroup)]

  /** The columns `main` keeps out of the features. */
  const ExcludedColumns: seq<Label> := [Base(Survived), Base(PassengerId), Base(Name), Base(Ticket), Base(Cabin)]

  /** `[c for c in cols if c not in drop]`. */
  function Without(cols: seq<Label>, drop: seq<Label>): (r: seq<Label>)
    ensures |r| <= |cols|
    decreases |cols|
  {
    if |cols| == 0 then []
    else (if cols[0] in drop then [] else [cols[0]]) + Without(cols[1..], drop)
  }

  /** The filter keeps exactly the labels not dropped. */
  lemma {:induction false} WithoutMembers(cols: seq<Label>, drop: seq<Label>)
    ensures forall x :: x in Without(cols, drop) <==> x in cols && x !in drop
    decreases |cols|
  {
    if |cols| > 0 {
      WithoutMembers(cols[1..], drop);
      assert cols == [cols[0]] + cols[1..];
    }
  }

  /** Filtering keeps the order: it works piecewise. */
  lemma {:induction false} WithoutConcat(a: seq<Label>, b: seq<Label>, drop: seq<Label>)
    ensures Without(a + b, drop) == Without(a, drop) + Without(b, drop)
    decreases |a|
  {
    if |a| == 0 {
      assert a + b == b;
    } else {
      assert (a + b)[0] == a[0];
      assert (a + b)[1..] == a[1..] + b;
      WithoutConcat(a[1..], b, drop);
    }
  }

  /** Filtering out labels that do not occur changes nothing. */
  lemma {:induction false} WithoutNone(a: seq<Label>, drop: seq<Label>)
    requires forall x :: x in a ==> x !in drop
    ensures Without(a, drop) == a
    decreases |a|
  {
    if |a| > 0 {
      assert a[0] in a;
      assert forall x :: x in a[1..] ==> x in a;
      WithoutNone(a[1..], drop);
      assert a == [a[0]] + a[1..];
    }
  }

  function SexCells(rows: seq<Row>): seq<Option<string>> {
    seq(|rows|, i requires 0 <= i < |rows| => Some(rows[i].sex))
  }

  function EmbarkedCells(rows: seq<Row>): seq<Option<string>> {
    seq(|rows|, i requires 0 <= i < |rows| => Some(rows[i].embarked))
  }

  function TitleCells(rows: seq<Row>): seq<Option<string>> {
    seq(|rows|, i requires 0 <= i < |rows| => rows[i].title)
  }

  function AgeGroupCells(rows: seq<Row>): seq<Option<string>> {
    seq(|rows|, i requires 0 <= i < |rows| => rows[i].ageGroup)
  }

  /** The indicator columns `get_dummies(..., drop_first=False)` appends: Sex,
      Embarked and Title by their sorted values, AgeGroup by all five labels
      of the categorical `pd.cut` returns, used or not. */
  function DummyColumns(rows: seq<Row>, labels: AgeLabels): seq<Column> {
    GetDummies("Sex", SexCells(rows), false)
      + GetDummies("Embarked", EmbarkedCells(rows), false)
      + GetDummies("Title", TitleCells(rows), false)
      + Indicators("AgeGroup", AgeLabelNames(labels), AgeGroupCells(rows))
  }

  function IndicatorLabels(f: Field, cats: seq<string>): (ls: seq<Label>)
    ensures |ls| == |cats|
    ensures forall j :: 0 <= j < |cats| ==> ls[j] == Indicator(f, cats[j])
  {
    seq(|cats|, j requires 0 <= j < |cats| => Indicator(f, cats[j]))
  }

  /** The labels of `DummyColumns`, in the same order. */
  function DummyLabels(rows: seq<Row>, labels: AgeLabels): seq<Label> {
    IndicatorLabels(Sex, Categories(SexCells(rows)))
      + IndicatorLabels(Embarked, Categories(EmbarkedCells(rows)))
      + IndicatorLabels(Title, Categories(TitleCells(rows)))
      + IndicatorLabels(AgeGroup, AgeLabelNames(labels))
  }

  function LabelNames(ls: seq<Label>): (names: seq<string>)
    ensures |names| == |ls|
    ensures forall j :: 0 <= j < |ls| ==> names[j] == LabelName(ls[j])
  {
    seq(|ls|, j requires 0 <= j < |ls| => LabelName(ls[j]))
  }

  lemma LabelNamesConcat(a: seq<Label>, b: seq<Label>)
    ensures LabelNames(a + b) == LabelNames(a) + LabelNames(b)
  {
  }

  lemma IndicatorLabelNames(f: Field, prefix: string, cats: seq<string>, values: seq<Option<string>>)
    requires FieldName(f) == prefix
    ensures LabelNames(IndicatorLabels(f, cats)) == Names(Indicators(prefix, cats, values))
  {
  }

  lemma {:induction false} DummyPartNames(f: Field, prefix: string, values: seq<Option<string>>)
    requires FieldName(f) == prefix
    ensures LabelNames(IndicatorLabels(f, Categories(values))) == Names(GetDummies(prefix, values, false))
  {
    IndicatorLabelNames(f, prefix, Categories(values), values);
    assert GetDummies(prefix, values, false) == Indicators(prefix, Categories(values), values);
  }

  lemma {:induction false} NamesOfFour(s: seq<Label>, e: seq<Label>, t: seq<Label>, a: seq<Label>,
                    sc: seq<Column>, ec: seq<Column>, tc: seq<Column>, ac: seq<Column>)
    requires LabelNames(s) == Names(sc) && LabelNames(e) == Names(ec)
    requires LabelNames(t) == Names(tc) && LabelNames(a) == Names(ac)
    ensures LabelNames(s + e + t + a) == Names(sc + ec + tc + ac)
  {
    LabelNamesConcat(s, e);
    LabelNamesConcat(s + e, t);
    LabelNamesConcat(s + e + t, a);
    NamesConcat(sc, ec);
    NamesConcat(sc + ec, tc);
    NamesConcat(sc + ec + tc, ac);
  }

  lemma EncodedFieldNames()
    ensures FieldName(Sex) == "Sex" && FieldName(Embarked) == "Embarked"
    ensures FieldName(Title) == "Title" && FieldName(AgeGroup) == "AgeGroup"
  {
  }

  lemma {:induction false} DummyNamesFrom(s: seq<Option<string>>, e: seq<Option<string>>, t: seq<Option<string>>,
                       g: seq<Option<string>>, ages: seq<string>)
    ensures LabelNames(IndicatorLabels(Sex, Categories(s)) + IndicatorLabels(Embarked, Categories(e))
                       + IndicatorLabels(Title, Categories(t)) + IndicatorLabels(AgeGroup, ages))
         == Names(GetDummies("Sex", s, false) + GetDummies("Embarked", e, false)
                  + GetDummies("Title", t, false) + Indicators("AgeGroup", ages, g))
  {
    EncodedFieldNames();
    DummyPartNames(Sex, "Sex", s);
    DummyPartNames(Embarked, "Embarked", e);
    DummyPartNames(Title, "Title", t);
    IndicatorLabelNames(AgeGroup, "AgeGroup", ages, g);
    NamesOfFour(IndicatorLabels(Sex, Categories(s)), IndicatorLabels(Embarked, Categories(e)),
                IndicatorLabels(Title, Categories(t)), IndicatorLabels(AgeGroup, ages),
                GetDummies("Sex", s, false), GetDummies("Embarked", e, false),
                GetDummies("Title", t, false), Indicators("AgeGroup", ages, g));
  }

  /** The labels name exactly the indicator columns the frame gets. */
  lemma DummyLabelsNameColumns(rows: seq<Row>, labels: AgeLabels)
    ensures LabelNames(DummyLabels(rows, labels)) == Names(DummyColumns(rows, labels))
  {
    DummyNamesFrom(SexCells(rows), EmbarkedCells(rows), TitleCells(rows), AgeGroupCells(rows), AgeLabelNames(labels));
  }

  /** The processed frame's columns: the CSV's and the added ones, minus the
      encoded ones, then the indicators. */
  function ProcessedColumns(dummies: seq<Label>): seq<Label> {
    Without(CsvColumns + AddedColumns, EncodedColumns) + dummies
  }

  /** `feature_cols` in `main`. */
  function FeatureColumns(processed: seq<Label>): (cols: seq<Label>)
    ensures forall x :: x in cols <==> x in processed && x !in ExcludedColumns
  {
    WithoutMembers(processed, ExcludedColumns);
    Without(processed, ExcludedColumns)
  }

  /** The numeric columns that survive both filters, in frame order. */
  const KeptNumeric: seq<Label> :=
    [Base(Pclass), Base(Age), Base(SibSp), Base(Parch), Base(Fare),
     Base(FamilySize), Base(IsAlone), Base(FarePerPerson), Base(HasCabin)]

  /** Filtering twice is filtering once by both lists. */
  lemma {:induction false} WithoutTwice(a: seq<Label>, d1: seq<Label>, d2: seq<Label>)
    ensures Without(Without(a, d1), d2) == Without(a, d1 + d2)
    decreases |a|
  {
    if |a| > 0 {
      WithoutTwice(a[1..], d1, d2);
      var head := if a[0] in d1 then [] else [a[0]];
      WithoutConcat(head, Without(a[1..], d1), d2);
      if a[0] !in d1 {
        assert head[1..] == [];
      }
    }
  }

  /** A plain field is a feature exactly when it is one of the nine. */
  lemma KeptFields(x: Label)
    requires x.Base?
    ensures (x in CsvColumns + AddedColumns && x !in EncodedColumns && x !in ExcludedColumns) <==> x in KeptNumeric
  {
  }

  /** The features are the plain fields neither encoded nor excluded, in
      CSV order, followed by every indicator column, in frame order. */
  lemma FeatureColumnsOrder(dummies: seq<Label>)
    requires forall j :: 0 <= j < |dummies| ==> dummies[j].Indicator?
    ensures FeatureColumns(ProcessedColumns(dummies))
            == Without(CsvColumns + AddedColumns, EncodedColumns + ExcludedColumns) + dummies
  {
    WithoutConcat(Without(CsvColumns + AddedColumns, EncodedColumns), dummies, ExcludedColumns);
    WithoutTwice(CsvColumns + AddedColumns, EncodedColumns, ExcludedColumns);
    forall x | x in dummies ensures x !in ExcludedColumns {
      var j :| 0 <= j < |dummies| && dummies[j] == x;
    }
    WithoutNone(dummies, ExcludedColumns);
  }

  /** A column is a feature exactly when it is one of the nine kept numeric
      fields or an indicator column. */
  lemma FeatureColumnsMembers(dummies: seq<Label>, x: Label)
    requires forall j :: 0 <= j < |dummies| ==> dummies[j].Indicator?
    ensures x in FeatureColumns(ProcessedColumns(dummies)) <==> x in KeptNumeric || x in dummies
  {
    WithoutMembers(CsvColumns + AddedColumns, EncodedColumns);
    if x.Base? {
      KeptFields(x);
    }
  }

  lemma IndicatorLabelsAreIndicators(f: Field, cats: seq<string>)
    ensures forall j :: 0 <= j < |IndicatorLabels(f, cats)| ==> IndicatorLabels(f, cats)[j].Indicator?
  {
  }

  // ---------------------------------------------------------------------------
  // Scaling
  // ---------------------------------------------------------------------------

  /** A fitted scaler applied to both halves of a split. */
  datatype Scaled<S> = Scaled(scaler: S, train: seq<seq<real>>, test: seq<seq<real>>)

  /** `scaler.fit_transform(X_train)` then `scaler.transform(X_test)`: the
      scaler is fitted on the training rows and applied row by row to both
      halves. The fitting and the per-row transform are parameters. */
  function ScaleSplit<S>(fit: seq<seq<real>> -> S, transform: (S, seq<real>) -> seq<real>,
                         xTrain: seq<seq<real>>, xTest: seq<seq<real>>): (r: Scaled<S>)
    ensures r.scaler == fit(xTrain)
    ensures |r.train| == |xTrain| && |r.test| == |xTest|
    ensures forall i :: 0 <= i < |xTrain| ==> r.train[i] == transform(r.scaler, xTrain[i])
    ensures forall i :: 0 <= i < |xTest| ==> r.test[i] == transform(r.scaler, xTest[i])
  {
    var scaler := fit(xTrain);
    Scaled(scaler,
           seq(|xTrain|, i requires 0 <= i < |xTrain| => transform(scaler, xTrain[i])),
           seq(|xTest|, i requires 0 <= i < |xTest| => transform(scaler, xTest[i])))
  }

  /** The held-out rows influence neither the scaler nor the scaled training
      rows, and two equal rows are scaled alike on either side of the split. */
  lemma TestDoesNotLeak<S>(fit: seq<seq<real>> -> S, transform: (S, seq<real>) -> seq<real>,
                           xTrain: seq<seq<real>>, t1: seq<seq<real>>, t2: seq<seq<real>>, i: nat, j: nat)
    ensures ScaleSplit(fit, transform, xTrain, t1).scaler == ScaleSplit(fit, transform, xTrain, t2).scaler
    ensures ScaleSplit(fit, transform, xTrain, t1).train == ScaleSplit(fit, transform, xTrain, t2).train
    ensures i < |xTrain| && j < |t1| && xTrain[i] == t1[j] ==>
              ScaleSplit(fit, transform, xTrain, t1).train[i] == ScaleSplit(fit, transform, xTrain, t1).test[j]
  {
  }
}

=== FILE: wrappers.dfy ===
/** Option and Result: the shapes used for the pipeline's missing values (NaN, an
    absent key) and for the errors the Python code raises. */
module Wrappers {

  /** A value that may be missing; `None` stands for pandas' NaN or Python's None. */
  datatype Option<+T> = None | Some(value: T) {

    /** The value, or `default` when missing (pandas' `fillna`). */
    function GetOr(default: T): T {
      match this
      case Some(v) => v
      case None => default
    }
  }

  /** The outcome of an operation that the source lets raise. */
  datatype Result<+R, +E> = Ok(value: R) | Err(error: E)
}
